=== FILE: README.md ===
# TwitchSharp core, modelled in Dafny

TwitchSharp is a small C# client library for Twitch's Helix API and its EventSub WebSocket notifications. The xSophBot chat bot is built on it. The library has two generations side by side, and this model keeps them apart, as the code does.

- **The older generation** is the `Entitys` classes, `EventEngine`, `EventSubscription` and the `Events/Args` decoders, driven by the static `TwitchEngine`. It is modelled in the `LegacyClient`, `EventEngine`, `Subscriptions`, `LegacyArgs` and `TwitchEngine` modules.
- **The newer generation** is the `Entities` classes that the library evidently intends to use (see "## Left out" on how the names resolve as written), `TwitchEventHandler`, the `Events/Types` descriptors and their `*Args` decoders. It is modelled in the `Client`, `EventHandler`, `EventTypes` and `EventArgs` modules.

Both generations share these modules:

- `Users`: the user record, its type classifications and the chat and whisper request parameters.
- `Streams`: the stream record and the thumbnail templating.
- `Tokens`: the OAuth 2.0 token requests. These are the client credentials grant (RFC 6749, section 4.4), the authorization code token request (section 4.1.3) and the refresh request (section 6).
- `Conditions`: the EventSub `condition` object.
- `OAuth`: the authorize link with its `:` to `%3A` scope escaping.

The remaining modules:

- `SharpEngine` models the static `TwitchSharpEngine`: console filtering, and refresh-token generation from a pasted redirect URL.
- `Logs` models `TwitchSharpLogs`: the `{DateTime}`/`{LogLevel}` prefix template and level filtering.
- `SConfig` models the bot's configuration reader: the `^target\s+"value";` line extractor and the ordered loading of the settings.

The outside world enters as parameters:

- An HTTP call is answered by an oracle giving a status and a JSON body.
- Token validation is a `Validate` call whose reply status decides it.
- A user lookup by login or id is a function.
- A console line read is a nullable string.
- A configuration file is its text, or nothing when it cannot be opened.
- The current time is an opaque string.

A socket or HTTP callback becomes one step of a pure transition function over an immutable state record. A `throw` becomes a `Failure` carrying an `Errors.Error` value. Where the source mutates state and then throws, the model returns the partly updated state together with the error. JSON is an abstract tree with the `System.Text.Json` accessors the code calls. Nullable strings are `Option<string>`.

Some behaviour looks unintended, but it is modelled as written:

- The user type "partner " (with its trailing space) maps to `GlobalMod`. Plain "partner" maps to `Normal`.
- `CreatedAt` is read from `display_name`.
- `LogConfig.DateTimeFormat` is never applied.
- `EventEngine` can post its subscriptions before the welcome arrives, so they carry a null session id.

## Model

| member | source | states |
|---|---|---|
| Users.ClassifyUserType | TwitchSharp/Entities/TwitchUser.cs:40-46 | `type` "admin" gives Admin, and only "partner " with its trailing space gives GlobalMod. Every other value, null included, gives Normal. Each case is stated both ways. |
| Users.ClassifyBroadcasterType | TwitchSharp/Entities/TwitchUser.cs:47-53 | `broadcaster_type` "affiliate" gives Affiliate and "partner" gives Partner. Every other value, null included, gives the regular type. Each case is stated both ways. |
| Users.UserTypeGaps | TwitchSharp/Entitys/TwitchUser.cs:31-37 | No input produces Staff. Plain "partner", "" and null all give Normal. |
| Users.UserFromData | TwitchSharp/Entities/TwitchUser.cs:34-59 | The record is built iff all eight string fields can be read. Each record field is the field of the same name. The two types are classified. The creation-date text is the display name, as the source passes it to `TryParse`. |
| Users.LegacyLookupResponse | TwitchSharp/Entitys/TwitchUser.cs:101-115 | 200 returns the parsed body unchanged. 400, 401 and any other status each throw a distinct error carrying the body's `message`. A missing `message` throws the lookup error. |
| Users.LegacyUserByLogin | TwitchSharp/Entitys/TwitchUser.cs:52-81 | A user is built only from a 200 response, and then exactly from `data[0]`. |
| Users.UserJsonResponse | TwitchSharp/TwitchClient.cs:156-176 | 200 yields `data[0]`. 400, 401 and any other status each throw their own fixed message. |
| Users.ChatForm | TwitchSharp/Entities/TwitchUser.cs:72-79 | The form carries `broadcaster_id`, `sender_id` and `message`. `reply_parent_message_id` is present iff a reply id is given, and then holds it. The form has 3 or 4 entries accordingly. |
| Users.SendResponse | TwitchSharp/Entities/TwitchUser.cs:83-94 | A non-200 status throws with that status. On 200 it succeeds iff `data[0].message_id` can be read as a string or null, and otherwise fails with that read's error. The id itself is dropped, as both send methods only keep it in a local. |
| Users.CurrentStream | TwitchSharp/Entities/TwitchUser.cs:116-121 | The result is null exactly when building the stream threw. Otherwise it is the stream built. |
| Client.ValidatedLogin | TwitchSharp/TwitchClient.cs:46-61 | A token that does not validate yields the empty login. A valid one yields the `login` of the validation response. |
| Client.GetAppAccessToken | TwitchSharp/TwitchClient.cs:62-66 | A valid cached app token is returned after a single validation. An invalid one makes exactly one client-credentials request. The freshly generated token is returned, but the stored tokens never change. |
| Client.StaleAppTokenRegenerated | TwitchSharp/TwitchClient.cs:62-97 | Because nothing is stored, a second call with a stale token repeats the same validation and client-credentials request. |
| Client.GetUserAccessToken | TwitchSharp/TwitchClient.cs:67-71 | A valid cached user token is returned unchanged after a single validation. Otherwise the refresh grant runs, and its rotated tokens are kept. |
| Client.GetUser | TwitchSharp/TwitchClient.cs:130-176 | A lookup gets an app token, then sends one users request. It succeeds iff the status table and the record both succeed, which needs a 200 status. It never changes the stored tokens. |
| Client.Resolve | TwitchSharp/TwitchClient.cs:130-155 | The resolver the decoders use is the lookup, run against the same client for every query. |
| Client.GetStream | TwitchSharp/Entities/TwitchStream.cs:27-65 | An app token, then one streams request for the user's login, then the stream's status table. The stream's broadcaster is the user passed in. A failed app token means no stream. |
| Client.GetCurrentStream | TwitchSharp/Entities/TwitchUser.cs:116-121 | The result is null iff building the stream failed for any reason. A stream that is returned belongs to the user. |
| Client.New | TwitchSharp/TwitchClient.cs:22-32 | The constructor's order: the client-credentials request first, then the refresh grant, then validation of the new user token, then a lookup of the current user by the login that validation gave. |
| Client.WithAppToken | TwitchSharp/TwitchClient.cs:27-31 | After the app token, the refresh grant comes first. On success the user and app tokens are validated in that order, and the current user is the one whose lookup succeeded. |
| Client.WithUserToken | TwitchSharp/TwitchClient.cs:30-31 | Validating the user token comes first. On success the tokens are the ones stored, and the current user is the result of the lookup by the validated login. |
| Client.InvalidUserTokenLooksUpEmptyLogin | TwitchSharp/TwitchClient.cs:46-59 | If the new user token fails validation, the login is empty, and the current user comes from a lookup under "". |
| Client.SendChatMessage | TwitchSharp/Entities/TwitchUser.cs:63-96 | The tokens are those the user-token step leaves, and its calls come first. If that step fails, only validations and token-endpoint posts were made, so nothing reaches the chat endpoint, and its error is the result. Otherwise exactly one more call follows: a post to the chat endpoint with the token as bearer, whose form has `message` = the content, `sender_id` = the current user's id, `broadcaster_id` = the target's id and the reply id iff one is given. A non-200 reply fails with its status. A 200 reply fails only with the error of reading `data[0].message_id`. The call succeeds iff the token step succeeded, the reply was 200 and that id could be read. The id is not returned, since the method returns a plain task. |
| Client.SendWhisper | TwitchSharp/Entities/TwitchUser.cs:97-112 | The user-token calls come first. On a token failure nothing reaches the whisper endpoint and the error is the result. Otherwise exactly one post follows, to the whisper URL from the current user's id to the target's id, with the token as bearer and a form holding only `message` = the content. It succeeds iff the token step did, since the response is not read. |
| Users.WhisperUrlCarriesIds | TwitchSharp/Entities/TwitchUser.cs:101 | When neither id holds '&' or '#', reading the whisper URL's query back gives the sender's id under `from_user_id` and the target's id under `to_user_id`. |
| Tokens.ClientCredentialsForm | TwitchSharp/TwitchClient.cs:76-81 | The app-token form holds `client_id`, `client_secret` and `grant_type` "client_credentials". It has no code and no refresh token. |
| Tokens.AuthorizationCodeForm | TwitchSharp/Entitys/TwitchClient.cs:134-141 | The code form holds `client_id`, `client_secret`, `code`, `grant_type` "authorization_code" and `redirect_uri`. It has no refresh token. |
| Tokens.RefreshForm | TwitchSharp/TwitchClient.cs:102-108 | The refresh form holds `client_id`, `client_secret`, `grant_type` "refresh_token" and the stored `refresh_token`. It has no code. |
| Tokens.GenerateAppToken | TwitchSharp/Entitys/TwitchClient.cs:97-128 | Makes exactly one client-credentials post. 200 yields `access_token`. Any other status throws with the status. Nothing is stored. |
| Tokens.ExchangeUserToken | TwitchSharp/Entitys/TwitchClient.cs:184-195 | Makes exactly one post of the form. A non-200 status throws and leaves every token alone. On 200 the access token is stored before the refresh token is read, so a body without `refresh_token` keeps the new access token. A full body stores both tokens. |
| Tokens.ExchangeRotates | TwitchSharp/TwitchClient.cs:117-121 | A successful exchange came from a 200 response. It stores exactly the access and refresh tokens the endpoint returned, and returns the access token. |
| Tokens.FailedExchangeKeepsTokens | TwitchSharp/TwitchClient.cs:122-123 | A failed status leaves every stored token unchanged. |
| LegacyClient.TokenText | TwitchSharp/Entitys/TwitchClient.cs:76 | A null token is validated as the text "null". Any other token is validated as itself. |
| LegacyClient.GetAppAccessToken | TwitchSharp/Entitys/TwitchClient.cs:60-66 | A token that validates is returned after a single call, with the tokens unchanged. Otherwise one client-credentials post follows. A token it gets is stored, and a failure leaves the tokens unchanged. |
| LegacyClient.GetUserAccessToken | TwitchSharp/Entitys/TwitchClient.cs:67-72 | A valid user token is returned after a single call. Otherwise the refresh grant runs and its rotated tokens are kept. |
| LegacyClient.ValidAppTokenReused | TwitchSharp/Entitys/TwitchClient.cs:62-63 | With a valid cached app token, a lookup makes no token post and leaves the tokens alone. |
| LegacyClient.RegeneratedAppTokenCached | TwitchSharp/Entitys/TwitchClient.cs:64-65 | A regenerated app token is stored. If it validates, the next call returns it after a single validation. |
| LegacyClient.Start | TwitchSharp/Entitys/TwitchClient.cs:48-58 | The code grant is used iff the refresh token is exactly "". Otherwise the refresh grant is used. An app-token post always follows. On success both exchanges were answered 200, and the stored user, refresh and app tokens are what they returned. |
| LegacyClient.LookupUser | TwitchSharp/Entitys/TwitchUser.cs:83-117 | The app-token calls come first, and the tokens are those the cache leaves. On a token failure only token traffic happened and its error is the result. Otherwise exactly one `Get` follows, to the users URL for the login, with `Bearer` and the token. Success means a 200 reply, and the user is the record read from `data[0]`. |
| LegacyClient.Construct | TwitchSharp/Entitys/TwitchClient.cs:21-46 | Construction first validates the empty app token. It succeeds iff the lookup of the current user succeeds. The stored user token stays "", and the refresh token is the one given. |
| LegacyClient.NewWithCode | TwitchSharp/Entitys/TwitchClient.cs:21-33 | The code constructor keeps the code and redirect URI. Its refresh, user and app tokens start as "". |
| LegacyClient.NewWithRefreshToken | TwitchSharp/Entitys/TwitchClient.cs:34-46 | The refresh constructor empties the code and redirect URI, and keeps the refresh token given. |
| LegacyClient.GrantFollowsConstructor | TwitchSharp/Entitys/TwitchClient.cs:50-53 | A client built from a code starts with the code grant, carrying that code. One built from a non-empty refresh token starts with the refresh grant, carrying that token. |
| LegacyClient.SendMessage | TwitchSharp/Entitys/TwitchUser.cs:120-161 | The user-token calls come first, and the tokens are those the cache leaves. On a token failure nothing reaches the chat endpoint. Otherwise exactly one post follows, to the chat endpoint with the token as bearer, carrying the content, the current user's id as sender and the target's id as broadcaster. A non-200 reply fails with its status. The call succeeds iff the token step succeeded, the reply was 200 and `data[0].message_id` could be read. The id is only logged, so it is not returned. |
| LegacyClient.SendWhisper | TwitchSharp/Entitys/TwitchUser.cs:162-180 | The user-token calls come first. On a token failure nothing reaches the whisper endpoint. Otherwise exactly one post follows, to the whisper URL from the current user's id to the target's id, with the token as bearer and only `message` = the content. It succeeds iff the token step did. |
| LegacyClient.GenerationsSendAlike | TwitchSharp/Entitys/TwitchUser.cs:120-180 | With a user token present, the older client's chat message and whisper equal the newer client's: the same calls, the same stored tokens and the same result. Only a null token is validated differently. |
| Streams.Strings | TwitchSharp/Entities/TwitchStream.cs:55 | The tags array converts iff every item is a string or null. The result has the same length and holds item i's string at position i, with null read as null. |
| Streams.StreamFromResponse | TwitchSharp/Entities/TwitchStream.cs:39-64 | 400 and 401 throw their own messages, and any other non-200 status throws "Unknown Error". 200 with an empty `data` throws offline. A stream is built only from 200 and a non-empty `data`, and then exactly from `data[0]`. Its broadcaster is the user passed in, and its viewer count fits a 16-bit signed integer. |
| Streams.GetThumbnailUrl | TwitchSharp/Entities/TwitchStream.cs:68-71 | A null template throws. Otherwise the URL is the template with every "{width}" replaced by the width and then every "{height}" by the height, where a missing width is 1920 and a missing height 1080. No placeholder is left. |
| Streams.ThumbnailSubstitution | TwitchSharp/Entities/TwitchStream.cs:70 | For a template `a{width}m{height}z` whose parts hold no brace, the filled URL is `a`, the width's digits, `m`, the height's digits, `z`. |
| Streams.DefaultThumbnailSize | TwitchSharp/Entities/TwitchStream.cs:68-70 | Called without a size, such a template becomes `a1920m1080z`. |
| Streams.ThumbnailFilled | TwitchSharp/Entitys/TwitchStream.cs:57-60 | Filling removes every "{width}" and every "{height}". The inserted digits cannot form either placeholder. |
| Streams.ThumbnailWithoutPlaceholders | TwitchSharp/Entities/TwitchStream.cs:70 | A template with neither placeholder comes back unchanged, whatever the size. |
| Streams.PlainAndFilledAgree | TwitchSharp/Entities/TwitchStream.cs:68-75 | `GetThumbnailUrl` throws exactly when `GetPlainThumbnailUrl` returns null. For a template with neither placeholder, both return the same text whatever the size. |
| Subscriptions.CreateSubscription | TwitchSharp/Events/EventEngine.cs:128-156 | Construction throws iff the row needs a broadcaster and no channel is given. Otherwise the row's flags, wire type and version are copied. The broadcaster id is the channel's id exactly when the row needs a broadcaster, and null otherwise, even when a channel was passed. |
| Subscriptions.TableRows | TwitchSharp/Events/EventEngine.cs:131-151 | The three rows: chat message ("channel.chat.message", 1, broadcaster, user), whisper ("user.whisper.message", 1, user only) and follow ("channel.follow", 2, broadcaster, user, moderator). On every row a broadcaster implies a user, and the moderator role implies a broadcaster. |
| Subscriptions.Condition | TwitchSharp/Events/EventEngine.cs:80-83 | The condition is a well-formed member list iff a broadcaster implies a user. `broadcaster_user_id` is present iff a broadcaster is required, and then holds the broadcaster id. The user entry is `moderator_user_id` iff the moderator role is required, `user_id` otherwise, and holds the current user's id. |
| Subscriptions.BuiltConditionsWellFormed | TwitchSharp/Events/EventEngine.cs:81-82 | For every subscription the constructor can build, the comma after the broadcaster entry is followed by a user entry. |
| Subscriptions.ModeratorOnlyWithBroadcaster | TwitchSharp/Events/EventEngine.cs:82 | On the table's rows a moderator entry only appears next to a broadcaster entry. |
| Conditions.JoinedWellFormed | TwitchSharp/Events/EventEngine.cs:80-83 | Any number of entries joined by single commas form a member list. |
| Conditions.WellFormedIsJoined | TwitchSharp/Events/EventEngine.cs:80-83 | Every member list is its own entries joined by commas, so the member lists are exactly the joins. |
| Conditions.TrailingCommaMalformed | TwitchSharp/Events/EventEngine.cs:81-82 | A list ending in a comma is never a member list, whatever comes before it. |
| EventEngine.NewEngine | TwitchSharp/Events/EventEngine.cs:13-21 | A new engine keeps the configured client and subscriptions and has no session id. |
| EventEngine.Route | TwitchSharp/Events/EventEngine.cs:49-60 | The notification switch picks a slot only for its own wire type, and picks it for every occurrence of that type. Any other type picks none. |
| EventEngine.SlotsMatchTable | TwitchSharp/Events/EventEngine.cs:51-58 | Each slot answers to the wire type of the table row that subscribes it. |
| EventEngine.Decode | TwitchSharp/Events/EventEngine.cs:51-59 | A decoded notification belongs to the slot that was routed. |
| EventEngine.Receive | TwitchSharp/Events/EventEngine.cs:31-62 | Nothing but the session id changes, so the client and the subscriptions are kept. Only a welcome moves the session id, and it moves it to `payload.session.id`. A callback fires only for a notification whose type is its slot's wire type and which has a listener. An unknown notification type changes nothing and fires nothing. |
| EventEngine.OnMessage | TwitchSharp/Events/EventEngine.cs:28-63 | Text that is not JSON throws, with nothing changed. A failure changes nothing and fires nothing. Otherwise this is `Receive`: only a welcome moves the session id, and keepalive, reconnect and revocation change nothing. |
| EventEngine.StartListening | TwitchSharp/Events/EventEngine.cs:69-95 | A single user token is fetched from the engine's own client first, and its failure posts nothing. Otherwise there is exactly one post per configured subscription, in array order. Every post goes to the EventSub subscriptions URL with `Bearer` and that one token, and its body carries the current session id. The replies are ignored. |
| EventEngine.PostsBeforeWelcome | TwitchSharp/Events/EventEngine.cs:86 | Posts made before any welcome carry an empty session id. |
| EventEngine.RunKeepsSubscriptions | TwitchSharp/Events/EventEngine.cs:36-62 | Over any run of frames the client and the subscriptions never change. Without a welcome the session id does not change either. |
| EventTypes.Condition | TwitchSharp/Events/TwitchEventHandler.cs:183-199 | The newer condition is always a well-formed member list. `broadcaster_user_id` is present iff the event is a broadcaster event, and holds that broadcaster's id. The user key is present iff the event requires a user: `moderator_user_id` for a moderator-role broadcaster event, `user_id` otherwise. It holds the current user's id. The keys appear in that order. |
| EventTypes.ChatMessageEvent | TwitchSharp/Events/Types/ChannelChatMessageReceived.cs:9-13 | "channel.chat.message", version 1, requires a user, broadcaster event without the moderator role. Its condition keys are `broadcaster_user_id`, `user_id`. |
| EventTypes.StreamOnlineEvent | TwitchSharp/Events/Types/ChannelStreamOnline.cs:6-10 | "stream.online", version 1, no user, broadcaster event without the moderator role. Its condition holds only `broadcaster_user_id`. |
| EventTypes.StreamOfflineEvent | TwitchSharp/Events/Types/ChannelStreamOffline.cs:6-10 | "stream.offline", version 1, no user, broadcaster event without the moderator role. Its condition holds only `broadcaster_user_id`. |
| EventTypes.FollowEvent | TwitchSharp/Events/Types/ChannelFollowReceicved.cs:6-10 | "channel.follow", version 2, requires a user, broadcaster event with the moderator role. Its condition keys are `broadcaster_user_id`, `moderator_user_id`. |
| EventTypes.WhisperEvent | TwitchSharp/Events/Types/ClientWhisperReceived.cs:6-9 | "user.whisper.message", version 1, requires a user, not a broadcaster event. Its condition holds only `user_id`. |
| EventArgs.DateTimeText | TwitchSharp/Events/Types/ChannelFollowReceicved.cs:25 | `followed_at` can be read as a date only when it is a JSON string. Its text is kept. |
| EventArgs.DecodeChatMessage | TwitchSharp/Events/Types/ChannelChatMessageReceived.cs:29-38 | Decoding succeeds iff every path under `payload.event` exists and both logins resolve. The chatter and the broadcaster are resolved from `chatter_user_login` and `broadcaster_user_login`. The message id is `message_id` and the content is `message.text`. |
| EventArgs.DecodeStreamOnline | TwitchSharp/Events/Types/ChannelStreamOnline.cs:18-26 | The broadcaster is resolved by id from `broadcaster_user_id`. The stream id, type and raw `started_at` text are read from `event`. The stream is whatever `GetCurrentStream` gives for that broadcaster, null included. |
| EventArgs.DecodeStreamOffline | TwitchSharp/Events/Types/ChannelStreamOffline.cs:14-17 | The only field, the broadcaster, is resolved by id from `event.broadcaster_user_id`. Decoding fails iff that lookup or path fails. |
| EventArgs.DecodeFollow | TwitchSharp/Events/Types/ChannelFollowReceicved.cs:18-26 | The broadcaster is resolved from `broadcaster_user_login` and the follower from `user_login`. `followed_at` must be a JSON string. |
| EventArgs.DecodeWhisper | TwitchSharp/Events/Types/ClientWhisperReceived.cs:18-25 | The sender and receiver are resolved from `from_user_login` and `to_user_login`. The id is `whisper_id` and the content is `whisper.text`. Decoding succeeds iff all of these do. |
| EventArgs.MissingEventFails | TwitchSharp/Events/Types/ChannelChatMessageReceived.cs:31 | Without `payload.event` none of the five decoders succeeds. |
| LegacyArgs.DecodeBadge | TwitchSharp/Entitys/TwitchChatter.cs:26-28 | A badge is read iff `set_id`, `id` and `info` are each a string or null, and it holds them in that order, null as null. |
| LegacyArgs.DecodeBadges | TwitchSharp/Entitys/TwitchChatter.cs:22-35 | The copy succeeds iff every element decodes. The result has the input's length, and badge i is element i's badge, so order is kept. |
| LegacyArgs.HasSet | TwitchSharp/Entitys/TwitchChatter.cs:30-33 | A flag is raised iff some badge has that `set_id`. |
| LegacyArgs.DecodeChatter | TwitchSharp/Entitys/TwitchChatter.cs:15-36 | It succeeds iff both logins and `color` are present, both lookups succeed, `event.badges` is an array and every badge decodes. Then the user is resolved from `chatter_user_login` and the broadcaster from `broadcaster_user_login`, and the colour is `color`. The badges are the elements of `event.badges`, in order. Subscriber, moderator, broadcaster and VIP are each true iff some badge has that `set_id`. |
| LegacyArgs.FlagsOnlyFromTheirSets | TwitchSharp/Entitys/TwitchChatter.cs:8-11 | With no badges, or only badges of other sets, all four flags stay false. |
| LegacyArgs.DecodeChannelMessage | TwitchSharp/Events/Args/ChannelMessageReceivedArgs.cs:13-22 | The chatter is decoded from the whole payload. The broadcaster is exactly the chatter's broadcaster, with no second lookup. The id is `message_id` and the content is `message.text`. |
| LegacyArgs.DecodeFollow | TwitchSharp/Events/Args/ChannelFollowReceicvedArgs.cs:12-20 | The broadcaster is looked up from `event.broadcaster_user_login` and the follower from `event.user_login`. `followed_at` is kept as its text. |
| LegacyArgs.DecodePrivateMessage | TwitchSharp/Events/Args/PrivateMessageReceivedArgs.cs:13-20 | The sender comes from `event.from_user_login` and the receiver from `event.to_user_login`. The id is `whisper_id` and the content is `whisper.text`. |
| LegacyArgs.PrivateMessageMatchesWhisper | TwitchSharp/Events/Args/PrivateMessageReceivedArgs.cs:15-19 | Given the same lookup, the older whisper decoder succeeds exactly when the newer one does, with the same four fields. |
| LegacyArgs.ChannelMessageRefinesChatMessage | TwitchSharp/Events/Args/ChannelMessageReceivedArgs.cs:15-21 | Whenever the older chat decoder succeeds, the newer one does too, with the same message, broadcaster and chatting user. |
| EventHandler.NewHandler | TwitchSharp/Events/TwitchEventHandler.cs:42-48 | A new handler has session id "null", one socket on the EventSub URI and none active. Nothing is disposed, it is not reconnecting, and the registry is empty. |
| EventHandler.Route | TwitchSharp/Events/TwitchEventHandler.cs:146-163 | Each of the five subscription types picks exactly its own slot. Any other type picks none. |
| EventHandler.SlotsMatchDescriptors | TwitchSharp/Events/TwitchEventHandler.cs:148-161 | Each slot answers to the wire type of the descriptor that subscribes it. |
| EventHandler.Decode | TwitchSharp/Events/TwitchEventHandler.cs:149-161 | A decoded notification belongs to the slot it was routed to. |
| EventHandler.HandleEvent | TwitchSharp/Events/TwitchEventHandler.cs:142-164 | An unreadable subscription type throws. A callback fires only for its own wire type and only when a listener is attached. An unknown type, or a slot without a listener, fires nothing and decodes nothing. With a listener, dispatch succeeds iff the arguments decode. |
| EventHandler.Receive | TwitchSharp/Events/TwitchEventHandler.cs:62-111 | A welcome sets the session id to `payload.session.id`, makes the receiving socket active and disposes the previous active socket. A reconnect only opens a socket on `reconnect_url`. Keepalive, revocation and unknown types leave the state unchanged. Only a notification can fire a callback. |
| EventHandler.OnMessage | TwitchSharp/Events/TwitchEventHandler.cs:58-112 | Empty text is ignored and text that is not JSON throws, neither changing anything. The registry and the reconnect flag never change here. The session id and active socket change only on a welcome, and the socket list only on a reconnect. Validity is kept. |
| EventHandler.OnDisconnect | TwitchSharp/Events/TwitchEventHandler.cs:115-123 | A disconnect while not reconnecting sets the flag and opens a socket on the lost socket's own URI. A disconnect while already reconnecting does nothing. |
| EventHandler.Subscribe | TwitchSharp/Events/TwitchEventHandler.cs:171-220 | A token failure throws with nothing posted. Otherwise exactly one request is posted, carrying the current session id. The event joins the registry iff the post succeeds and this is not a resubscription. Nothing else changes. |
| EventHandler.ResubscriptionsAllPosted | TwitchSharp/Events/TwitchEventHandler.cs:228-239 | When every token is obtained, the sweep posts one request per registered event, in registry order. |
| EventHandler.ResubscribeToEvents | TwitchSharp/Events/TwitchEventHandler.cs:225-240 | The sweep walks a snapshot of the registry in order, and a failed attempt does not stop the rest. It posts exactly the sweep's requests and leaves the handler, registry included, unchanged. |
| EventHandler.ResubscriptionsInvariant | TwitchSharp/Events/TwitchEventHandler.cs:228-239 | One attempt of the sweep adds its own request to what was posted before it, and leaves the handler unchanged. |
| EventHandler.OnReconnect | TwitchSharp/Events/TwitchEventHandler.cs:126-134 | With the flag set: exactly one sweep over the registry, then the flag is cleared. With the flag clear: nothing. The registry is unchanged either way. |
| EventHandler.StepKeepsRegistry | TwitchSharp/Events/TwitchEventHandler.cs:206-213 | One input keeps the handler valid. It grows the registry by the event of a successful subscribe call and by nothing else. |
| EventHandler.RunKeepsRegistry | TwitchSharp/Events/TwitchEventHandler.cs:206-239 | Over any run the handler stays valid. The registry grows, at its end, by exactly the events of the successful non-reconnect subscribe calls, in order. A sweep never grows it. |
| EventHandler.SessionOnlyFromWelcome | TwitchSharp/Events/TwitchEventHandler.cs:69-96 | Over a run with no welcome, the session id and the active socket never change, reconnects included. |
| TwitchEngine.GetAuthCode | TwitchSharp/TwitchEngine.cs:46-59 | Null scopes, then a null redirect URI, throw before anything is built. Otherwise every scope has its ':' escaped in place, and the authorize link is built from the escaped scopes. The typed line is the code, and end of input throws. |
| TwitchEngine.Install | TwitchSharp/TwitchEngine.cs:18-30 | The singleton becomes the constructed client only when the constructor returns. A throwing constructor leaves the previous singleton. The event engine is untouched. |
| TwitchEngine.CreateAutomatic | TwitchSharp/TwitchEngine.cs:16-20 | Builds the client through the code-exchanging constructor with the configured OAuth code. |
| TwitchEngine.CreateManual | TwitchSharp/TwitchEngine.cs:21-26 | The code comes from the console prompt. A failed prompt throws with no call and no change. Otherwise the client is built with the typed code. |
| TwitchEngine.CreateRefresh | TwitchSharp/TwitchEngine.cs:27-31 | Builds the client through the refresh-token constructor, carrying that refresh token. |
| TwitchEngine.UseEvents | TwitchSharp/TwitchEngine.cs:33-37 | A fresh engine, with the configured client and subscriptions and no session yet, replaces any previous one. The client singleton is untouched. |
| TwitchEngine.GetTwitchClient | TwitchSharp/TwitchEngine.cs:40-44 | Throws "not initialized" iff no client has been stored. Otherwise it returns the stored one. |
| TwitchEngine.ApplyStep | TwitchSharp/TwitchEngine.cs:16-37 | One call sets the client singleton to the client it constructed, if any. The engine changes only on `UseEvents`. |
| TwitchEngine.SingletonsTrackLatest | TwitchSharp/TwitchEngine.cs:10-44 | After any sequence of calls, `GetTwitchClient` returns the most recently constructed client and throws iff there is none. The engine is the one the latest `UseEvents` created. |
| TwitchEngine.NotInitializedUntilCreated | TwitchSharp/TwitchEngine.cs:40-44 | From the initial state, `GetTwitchClient` throws until some overload has successfully constructed a client. |
| SharpEngine.ModifyEngine | TwitchSharp/TwitchSharpEngine.cs:44-50 | Each non-null argument replaces its own setting. A null argument leaves its setting as it was. |
| SharpEngine.ModifyComposes | TwitchSharp/TwitchSharpEngine.cs:44-50 | Two calls act as one call with the later non-null value of each argument. |
| SharpEngine.SendConsole | TwitchSharp/TwitchSharpEngine.cs:56-65 | Nothing is written iff the level is below the configured minimum. Otherwise the header is the tag, with the time iff times are shown and the level iff levels are shown, followed by the content unchanged. |
| SharpEngine.NeededAlwaysPrinted | TwitchSharp/TwitchSharpEngine.cs:25-33 | `Needed` is the highest level, so it is printed whatever the minimum. |
| SharpEngine.FilterMonotone | TwitchSharp/TwitchSharpEngine.cs:58 | Whatever is printed at one level is printed at every higher level. |
| SharpEngine.DefaultFilter | TwitchSharp/TwitchSharpEngine.cs:15-21 | Under the initial settings, exactly `Trace` and `Debug` are dropped, and the header is the bare `[TwitchSharp] ` tag. |
| SharpEngine.HeaderIdentifiesLevel | TwitchSharp/TwitchSharpEngine.cs:61 | With levels shown, two different levels never produce the same header. |
| SharpEngine.GenerateRefreshToken | TwitchSharp/TwitchSharpEngine.cs:71-114 | Null scopes throw before anything happens. Otherwise the scopes are escaped in place, and the authorize link is printed at level `Needed`. End of input throws, and so does a missing or empty `code` parameter, both without a post. Otherwise exactly one authorization-code post is made with that code. A 200 reply yields the body's `refresh_token` and any other status throws with it. |
| SharpEngine.RedirectCarriesCode | TwitchSharp/TwitchSharpEngine.cs:82-84 | The redirect Twitch sends back, `base?code=C&scope=S`, yields exactly C as its `code` parameter. |
| SharpEngine.RedirectCodeExchanged | TwitchSharp/TwitchSharpEngine.cs:79-109 | For such a redirect with a non-empty code, the one post carries that code with `grant_type=authorization_code`. A 200 reply yields the refresh token. |
| Logs.LevelName | TwitchSharp/TSharpLogs.cs:43 | The name `logLevel.ToString()` gives is non-empty and never longer than 11 characters, so padding it to 12 always adds at least one space. |
| Logs.ConfigureLogging | TwitchSharp/TSharpLogs.cs:14-19 | Each non-null prefix, colour or minimal level replaces its setting. The date format is never changed, even when the configuration carries one. |
| Logs.ConfigureKeepsDateFormat | TwitchSharp/TSharpLogs.cs:14-19 | After any number of configurations, the date format is still the initial one and the threshold is the last non-null minimal level. |
| Logs.WritePrefix | TwitchSharp/TSharpLogs.cs:35-65 | After the time is put in for `{DateTime}`, a prefix without `{LogLevel}` throws. Otherwise there are three segments: the text before the first `{LogLevel}`, which has none, then the level name padded to 12, then the rest. Around the placeholder they rebuild the dated prefix. |
| Logs.DefaultPrefix | TwitchSharp/TSharpLogs.cs:7-8 | The default prefix splits into `[time TwitchSharp - `, the padded level name and `] `. |
| Logs.Entry | TwitchSharp/TSharpLogs.cs:25-33 | The prefix segments, then the message line. With an exception, the prefix is written again, then "Thrown Exception: " and the exception's message. |
| Logs.Log | TwitchSharp/TSharpLogs.cs:20-34 | `OnLog` is raised with the arguments whenever there is a subscriber, before the threshold check. Below the minimal level nothing is written. Otherwise the entry is written, or `WritePrefix`'s exception surfaces with nothing written. |
| Logs.WrittenIff | TwitchSharp/TSharpLogs.cs:20-34 | Output appears iff the level reaches the threshold and the dated prefix has its placeholder. It is four console calls, or nine with an exception. |
| Logs.DefaultLog | TwitchSharp/TSharpLogs.cs:7-10 | With the default logger, `Trace` and `Debug` are dropped. Every other level writes the default three-part prefix and the message. |
| OAuth.EscapeScope | TwitchSharp/TwitchSharpEngine.cs:73 | The escaped scope contains no ':'. A scope without ':' is unchanged. |
| OAuth.EscapeScopes | TwitchSharp/TwitchEngine.cs:51 | The array keeps its length, and each element is replaced by its escaped form. |
| OAuth.EscapeIdempotent | TwitchSharp/TwitchSharpEngine.cs:73 | Escaping twice is escaping once, so a configuration whose scopes were already rewritten is unchanged by a second call. |
| OAuth.EscapeRoundTrip | TwitchSharp/TwitchSharpEngine.cs:73 | A scope without '%' is recovered from its escaped form by decoding `%3A`. |
| OAuth.ScopesRoundTrip | TwitchSharp/TwitchSharpEngine.cs:73-74 | For scopes without '+' or '%', splitting the `scope` parameter on '+' gives one part per scope, and each part decodes back to its scope. |
| OAuth.AuthorizeLinkCarries | TwitchSharp/TwitchEngine.cs:52 | When the values contain no '&' or '#', the authorize link's query yields `response_type=code`, the client id, the redirect URI and the joined escaped scopes. |
| Query.Cut | TwitchSharp/TwitchSharpEngine.cs:82 | Splitting at the first occurrence of a character: nothing iff the character is absent. Otherwise the text before it, which has no such character, and the rest. |
| Query.CutAt | TwitchSharp/TwitchSharpEngine.cs:82 | A text cut at its first occurrence of a character gives back the two halves it was joined from. |
| Query.QueryOf | TwitchSharp/TwitchSharpEngine.cs:82 | `Uri.Query` without its '?': the text after the first '?' and before any '#'. |
| Query.QueryOfUrl | TwitchSharp/TwitchSharpEngine.cs:82 | A URL built as `base?query`, with no '?' in base and no '#' in either, has exactly `query` as its query. |
| Query.Params | TwitchSharp/TwitchSharpEngine.cs:83 | An empty query has no parameters. Otherwise there is one parameter per '&'-separated segment, named by the text before its first '='. |
| Query.Get | TwitchSharp/TwitchSharpEngine.cs:84 | `queryParams[key]` is null iff no parameter has that name, ignoring ASCII case. |
| Query.GetSingle | TwitchSharp/TwitchSharpEngine.cs:84 | A name that occurs once yields exactly its value. |
| SConfig.Head | conf/SConfig.cs:53 | The pattern anchored at a position captures a non-empty value with no '"' in it. |
| SConfig.HeadMatchesLine | conf/SConfig.cs:53-55 | The greedy matcher captures v iff the text reads: the target, ignoring case, then one or more white-space characters, then `"v";`. |
| SConfig.Search | conf/SConfig.cs:55 | The search finds the leftmost line-start position where the pattern matches, with its capture. Nothing is found iff no position matches. |
| SConfig.GetValue | conf/SConfig.cs:51-66 | Throws "couldn't be found" iff no line matches. Otherwise the first match decides: its value is returned, or it throws "default value" when the value is `changeMe`. |
| SConfig.FirstMatchUnique | conf/SConfig.cs:55 | The leftmost match, and so its captured value, is unique. |
| SConfig.FirstLineValue | conf/SConfig.cs:51-66 | A file whose first line is `<name> "<value>";`, with the name equal to the target up to case, yields that value whatever follows, or the default-value exception. |
| SConfig.SkipLine | conf/SConfig.cs:53-55 | A first line that does not begin with the target is skipped: the result is that of the rest of the file. |
| SConfig.SkipLineSome | conf/SConfig.cs:53-55 | Skipping such a line shifts the rest's first match by the line's length and keeps its value. |
| SConfig.ReadConfig | conf/SConfig.cs:25-49 | When nothing fails, the system instructions are the whole prompt file, unparsed. |
| SConfig.Assign | conf/SConfig.cs:27-48 | The exception is caught iff some read fails. When none fails, all five fields hold the values read. |
| SConfig.Succeeded | conf/SConfig.cs:27-44 | The number of reads that succeed before the first failure. Every read before it succeeded, and the read at it failed. |
| SConfig.AssignInOrder | conf/SConfig.cs:27-48 | The fields are assigned in order up to the first failing read. Exactly the fields before it take the values read, the later fields keep their old values, and that read's exception is the one printed. |
| SConfig.ReadConfigAssignsInOrder | conf/SConfig.cs:25-49 | The same for the three files: the ID, Secret, Refresh and Gemini_Key lookups and the prompt, in that order. A missing file fails its reads. |
| SConfig.ReadWellFormed | conf/SConfig.cs:25-49 | Files written in the expected format, with real values on lines of their own, set all five fields and print nothing. |
| SConfig.TwitchValues | conf/SConfig.cs:32-34 | A Twitch file of the three lines ID, Secret and Refresh yields each line's value for its own key. |
| Text.IndexOf | TwitchSharp/TSharpLogs.cs:40 | The ordinal `IndexOf` is -1 iff the pattern does not occur. Otherwise it is the first position where the pattern occurs. |
| Text.PadRight | TwitchSharp/TSharpLogs.cs:44 | The text is kept as a prefix and filled with spaces up to the width. A text already that wide is unchanged. |
| Text.ReplaceAllRemoves | TwitchSharp/TwitchEngine.cs:51 | When the replacement shares no character with the pattern, no occurrence of the pattern survives `Replace`. |
| Text.ReplaceAllCreatesNothing | TwitchSharp/TwitchSharpEngine.cs:73 | `Replace` creates no occurrence of a text whose characters are absent from the replacement, so escaping adds no '+', '&' or '#'. |
| Text.SplitJoin | TwitchSharp/TwitchSharpEngine.cs:74 | `string.Join` of parts that do not contain the separator is undone by splitting on it. |

Two functions only assemble a request and have no row: `EventEngine.LegacyRequest` (`TwitchSharp/Events/EventEngine.cs` lines 77-88) and `EventTypes.SubscriptionRequest` (`TwitchSharp/Events/TwitchEventHandler.cs` lines 190-201). They are the definitions in which the contracts of `EventEngine.StartListening`, `EventHandler.Subscribe` and `EventHandler.ResubscriptionsAllPosted` are stated. Their own ensures only name the fields they fill. `Streams.GetPlainThumbnailUrl` (`TwitchSharp/Entities/TwitchStream.cs` line 72) returns the stored template. It is stated through `Streams.PlainAndFilledAgree`.

## Left out

- The source does not compile as written, and the model follows the evidently intended classes. `TwitchEngine.cs` (lines 18, 24, 29) calls five- and four-argument `TwitchClient` constructors, but inside namespace `TwitchSharp` the name resolves to `TwitchSharp.TwitchClient`, whose only constructor takes a `TwitchClientConfig` (`TwitchClient.cs` line 22). `TwitchClient.cs` lines 136 and 149 call `new TwitchUser(this, json)`, which through `using TwitchSharp.Entitys;` binds to the `Entitys` user, which has no such constructor. `Events/Types/ChannelFollowReceicved.cs`, `ChannelStreamOnline.cs` and `ClientWhisperReceived.cs` import `Entitys` as well. The model pairs `TwitchEngine` with the older `Entitys` client and user, and the newer `TwitchClient`, `TwitchEventHandler` and `Events/Types` with the `Entities` user and stream.
- OAuth.EscapeScopes, TwitchEngine.GetAuthCode and SharpEngine.GenerateRefreshToken: scope lists are sequences of strings, so a null element cannot be represented. These members therefore never show the `NullReferenceException` that `.Replace` throws on a null scope (`TwitchEngine.cs` line 51, `TwitchSharpEngine.cs` line 73).
- HTTP and WebSocket transport is left out: connection set-up, form encoding on the wire, `Start().Wait()`. Each call is an oracle parameter, and a socket is a number in creation order.
- Concurrency and timing are reduced to sequential steps. This covers blocking `.Result`/`.Wait()` inside callbacks, the 2-second delay before resubscribing, and the spin loop that keeps the bot alive. Interleavings of callbacks are not modelled.
- Dates and clocks are left out: parsing `started_at` and `followed_at`, the `CreatedAt` parse, and `DateTime.Now` with its format strings. All of them are opaque strings.
- Console colours are left out. `Console.Clear` and prompt texts that are only written are left out too. What one call of `Logs.Log` or `SendConsole` writes is modelled, as `Write`/`WriteLine` pieces and headers.
- The `Logs.Log` and `SendConsole` calls made inside the other operations are not modelled: the client, user, token, engine and handler operations record no messages or levels. The one exception is the authorize link that `GenerateRefreshToken` prints. With a configured prefix that lacks `{LogLevel}`, such a `Logs.Log` call throws `WritePrefix`'s exception in the middle of the operation. The model does not show that abort.
- SharpEngine.GenerateRefreshToken: `new Uri(responseUrl)` is not modelled. .NET's URI parser rejects text that is not an absolute URI, such as "x?code=abc" or "", with `UriFormatException` before the query is read. The model reads the query of any text and then posts or reports a missing code. Its contract therefore holds only for input that parses as an absolute URI.
- EventHandler.Receive: `new Uri(reconnectUrl)` is not modelled for the same reason. A `reconnect_url` that is not an absolute URI throws in the source, while the model opens a socket for it.
- LegacyArgs and LegacyClient.SendMessage take the lookup and the client as parameters. In the source both come from the `TwitchEngine.GetTwitchClient()` singleton (`Entitys/TwitchUser.cs` lines 88-89, 124 and 166). That singleton throws when no client was created yet, and token regeneration during a lookup is stored in it. The model does not show that exception or that update: a `Resolver` is any function, and the caller passes the client whose tokens it keeps. LegacyClient.SendWhisper is in the same position.
- Text.IntString: `int.ToString()` is modelled with the invariant culture, an ASCII '-' and decimal digits. A culture with another `NegativeSign` is not modelled. The C# `int` range is not enforced either.
- The `api` oracle is one fixed function for a whole run. A token that validates once validates at every later step of an `EventHandler` or `TwitchEngine` run, and expiry during a run is not modelled.
- `Console.ReadLine` is the `typed` and `responseUrl` parameters.
- SConfig file reading is left out: each file is given as its text, or as nothing when it cannot be opened. The message printed by the `catch` is kept as the caught error.
- `SConfig.HeadMatchesLine`: `\s` is modelled as the ASCII white-space characters only, and case-insensitive matching folds ASCII letters only. Unicode white space and non-ASCII case folding are not modelled.
- `SConfig.GetValue`: the target is compared as literal text. Regular-expression metacharacters in a target are not interpreted. The four targets the reader uses (`ID`, `Secret`, `Refresh`, `Gemini_Key`) contain none, so for them the two agree.
- `Query.Get`: percent-decoding of query values is not modelled, and values are the raw text. Name comparison folds ASCII letters only.
- `Text.IndexOf`: all string comparisons are ordinal. Culture-sensitive comparison is not modelled.
- An HTTP reply always arrives as a parsed JSON body. In the source `JsonDocument.Parse` throws on a body that is not JSON before any status is examined, for example in the older user lookup. That exception is not modelled.
- The JSON library is replaced by an abstract tree. Objects are maps, so duplicate keys cannot be represented, and numbers are integers only. A socket message arrives already classified: a parsed JSON document, text that is not JSON, or, for the newer handler, empty text.
- The two `TwitchStream` classes, one in `Entities` and one in `Entitys`, contain the same code. They are modelled once, generic in the type of the broadcaster record.
- `SGeminiEngine.cs` is not part of this model. It is a thin wrapper over an external generative-AI library.
- `Program.cs` is not part of this model. It is process start-up and callback wiring, including the one-line "!ai "/mention trigger.
- `TwitchBadge` is a plain three-field record, represented inside the chatter model.
- `Logs.Log` takes one time text for both prefixes it writes, while the source reads the clock for each `WritePrefix` call.
- Exception messages are kept as error constructors with their data. The exact message texts are not modelled.

=== FILE: client.dfy ===
/** The newer generation's `TwitchClient` with the requests of the newer
    `TwitchUser` and `TwitchStream`: an app-token cache that never stores
    what it regenerates, a refresh that rotates both user tokens, the
    constructor's fixed order of exchanges, and the user and stream lookups
    that feed the event handler. */
module Client {
  import opened Wrappers
  import opened Errors
  import opened Json
  import opened Users
  import opened Tokens
  import Streams

  type Stream = Streams.TwitchStream<TwitchUser>

  datatype TwitchClient = TwitchClient(tokens: Tokens, currentUser: TwitchUser)

  /** `ValidateToken(token)`: a null token is sent as empty text. */
  predicate IsValid(api: Api, token: NString)
  {
    IsSuccessStatus(api(Validate(Render(token))).status)
  }

  /** `ValidateToken(token, out login)`: the login of a token that validates
      (read from the response body), and "" for one that does not. */
  function ValidatedLogin(token: NString, api: Api): (r: Result<NString, Error>)
    ensures !IsValid(api, token) ==> r == Success(Some(""))
    ensures IsValid(api, token) ==> r == StringAt(api(Validate(Render(token))).body, ["login"])
  {
    var reply := api(Validate(Render(token)));
    if IsSuccessStatus(reply.status) then StringAt(reply.body, ["login"]) else Success(Some(""))
  }

  /** `GetAppAccessTokenAsync`: the cached token when it validates, else a
      freshly generated one that is returned but not stored. */
  function GetAppAccessToken(t: Tokens, api: Api): (o: Outcome<NString>)
    ensures o.tokens == t
    ensures |o.calls| >= 1 && o.calls[0] == Validate(Render(t.appAccessToken))
    ensures IsValid(api, t.appAccessToken) ==> o.result == Success(t.appAccessToken) && |o.calls| == 1
    ensures !IsValid(api, t.appAccessToken) ==>
      && o.calls == [Validate(Render(t.appAccessToken)), Post(TokenEndpoint, None, ClientCredentialsForm(t))]
      && o.result == GenerateAppToken(t, api).result
  {
    var check := Validate(Render(t.appAccessToken));
    if IsValid(api, t.appAccessToken) then Outcome(t, Success(t.appAccessToken), [check])
    else
      var g := GenerateAppToken(t, api);
      Outcome(t, g.result, [check] + g.calls)
  }

  /** `GetUserAccessTokenAsync`: the cached token when it validates, else the
      refresh grant, which rotates both user tokens. */
  function GetUserAccessToken(t: Tokens, api: Api): (o: Outcome<NString>)
    ensures |o.calls| >= 1 && o.calls[0] == Validate(Render(t.userAccessToken))
    ensures |o.calls| <= 2 && TokenTraffic(o.calls)
    ensures IsValid(api, t.userAccessToken) ==> o == Outcome(t, Success(t.userAccessToken), o.calls) && |o.calls| == 1
    ensures !IsValid(api, t.userAccessToken) ==>
      var r := RefreshUserToken(t, api);
      o == Outcome(r.tokens, r.result, [o.calls[0]] + r.calls)
  {
    var check := Validate(Render(t.userAccessToken));
    if IsValid(api, t.userAccessToken) then Outcome(t, Success(t.userAccessToken), [check])
    else
      var r := RefreshUserToken(t, api);
      Outcome(r.tokens, r.result, [check] + r.calls)
  }

  /** A stale app token stays stale: each call validates it again and, while
      it fails, posts a new client credentials request. */
  lemma StaleAppTokenRegenerated(t: Tokens, api: Api)
    requires !IsValid(api, t.appAccessToken)
    ensures var first := GetAppAccessToken(t, api);
      var second := GetAppAccessToken(first.tokens, api);
      && first.tokens == t && second.calls == first.calls
      && |second.calls| == 2 && second.calls[1].Post?
  {
  }

  // ----- users and streams -----

  function UserUrl(q: UserQuery): string
  {
    match q
    case ByLogin(login) => "https://api.twitch.tv/helix/users?login=" + Render(login)
    case ById(id) => "https://api.twitch.tv/helix/users?id=" + Render(id)
  }

  /** `GetUserByLoginAsync` / `GetUserByIDAsync`: an app token, the users
      request, the status table of `getUserJsonAsync`, then the record. The
      client's tokens are never changed by a lookup. */
  function GetUser(t: Tokens, q: UserQuery, api: Api): (o: Outcome<TwitchUser>)
    ensures o.tokens == t
    ensures var a := GetAppAccessToken(t, api);
      && (a.result.Failure? ==> o.result == Failure(a.result.error) && o.calls == a.calls)
      && (a.result.Success? ==>
            var call := Get(UserUrl(q), "Bearer " + Render(a.result.value));
            && o.calls == a.calls + [call]
            && (o.result.Success? <==>
                  UserJsonResponse(api(call).status, api(call).body).Success?
                  && UserFromData(UserJsonResponse(api(call).status, api(call).body).value).Success?)
            && (o.result.Success? ==>
                  && api(call).status == OK
                  && o.result == UserFromData(UserJsonResponse(api(call).status, api(call).body).value)))
  {
    var a := GetAppAccessToken(t, api);
    match a.result
    case Failure(e) => Outcome(t, Failure(e), a.calls)
    case Success(token) =>
      var call := Get(UserUrl(q), "Bearer " + Render(token));
      var reply := api(call);
      match UserJsonResponse(reply.status, reply.body)
      case Failure(e) => Outcome(t, Failure(e), a.calls + [call])
      case Success(data) => Outcome(t, UserFromData(data), a.calls + [call])
  }

  /** The user lookups the event decoders go through. Since lookups leave the
      tokens alone, every lookup a notification makes sees the same client. */
  function Resolve(c: TwitchClient, api: Api): (resolve: Resolver)
    ensures forall q :: resolve(q) == GetUser(c.tokens, q, api).result
  {
    q => GetUser(c.tokens, q, api).result
  }

  function StreamUrl(login: NString): string
  {
    "https://api.twitch.tv/helix/streams?user_login=" + Render(login)
  }

  /** `new TwitchStream(client, user)`: an app token, the streams request for
      the user's login, then the stream's status table. */
  function GetStream(c: TwitchClient, user: TwitchUser, api: Api): (o: Outcome<Stream>)
    ensures o.tokens == c.tokens
    ensures o.result.Success? ==> o.result.value.broadcaster == user
    ensures GetAppAccessToken(c.tokens, api).result.Failure? ==> o.result.Failure?
    ensures GetAppAccessToken(c.tokens, api).result.Success? ==>
      var call := Get(StreamUrl(user.login), "Bearer " + Render(GetAppAccessToken(c.tokens, api).result.value));
      && o.calls == GetAppAccessToken(c.tokens, api).calls + [call]
      && o.result == Streams.StreamFromResponse(api(call).status, api(call).body, user)
  {
    var a := GetAppAccessToken(c.tokens, api);
    match a.result
    case Failure(e) => Outcome(c.tokens, Failure(e), a.calls)
    case Success(token) =>
      var call := Get(StreamUrl(user.login), "Bearer " + Render(token));
      var reply := api(call);
      Outcome(c.tokens, Streams.StreamFromResponse(reply.status, reply.body, user), a.calls + [call])
  }

  /** `TwitchUser.GetCurrentStream`: the stream, or null whenever building
      it threw. */
  function GetCurrentStream(c: TwitchClient, user: TwitchUser, api: Api): (r: Option<Stream>)
    ensures r.None? <==> GetStream(c, user, api).result.Failure?
    ensures r.Some? ==> r.value.broadcaster == user
  {
    CurrentStream(GetStream(c, user, api).result)
  }

  // ----- the constructor -----

  datatype Built = Built(client: Result<TwitchClient, Error>, calls: seq<Call>)

  /** `new TwitchClient(conf)`: the app token (generated, not validated),
      then the refresh grant, then validation of the new user token for the
      login, then the lookup of `CurrentUser` by that login. An exception at
      any step leaves no client. */
  function New(clientId: NString, clientSecret: NString, refreshToken: NString, api: Api): (b: Built)
    ensures var t0 := Tokens(clientId, clientSecret, None, refreshToken, None);
      && |b.calls| >= 1 && b.calls[0] == Post(TokenEndpoint, None, ClientCredentialsForm(t0))
      && (|b.calls| >= 2 ==> b.calls[1] == Post(TokenEndpoint, None, RefreshForm(t0)))
    ensures b.client.Success? ==>
      var t := b.client.value.tokens;
      && |b.calls| >= 4
      && b.calls[2] == Validate(Render(t.userAccessToken))
      && b.calls[3] == Validate(Render(t.appAccessToken))
      && t.clientId == clientId && t.clientSecret == clientSecret
      && ValidatedLogin(t.userAccessToken, api).Success?
      && GetUser(t, ByLogin(ValidatedLogin(t.userAccessToken, api).value), api).result == Success(b.client.value.currentUser)
  {
    var t0 := Tokens(clientId, clientSecret, None, refreshToken, None);
    var app := GenerateAppToken(t0, api);
    match app.result
    case Failure(e) => Built(Failure(e), app.calls)
    case Success(appToken) =>
      var t1 := t0.(appAccessToken := appToken);
      assert RefreshForm(t1) == RefreshForm(t0);
      var rest := WithAppToken(t1, api);
      Built(rest.client, app.calls + rest.calls)
  }

  /** The constructor once the app token is stored: the refresh grant,
      then the steps that need the new user token. */
  function WithAppToken(t1: Tokens, api: Api): (b: Built)
    ensures |b.calls| >= 1 && b.calls[0] == Post(TokenEndpoint, None, RefreshForm(t1))
    ensures b.client.Success? ==>
      var t := b.client.value.tokens;
      && |b.calls| >= 3
      && b.calls[1] == Validate(Render(t.userAccessToken))
      && b.calls[2] == Validate(Render(t.appAccessToken))
      && t.clientId == t1.clientId && t.clientSecret == t1.clientSecret
      && ValidatedLogin(t.userAccessToken, api).Success?
      && GetUser(t, ByLogin(ValidatedLogin(t.userAccessToken, api).value), api).result == Success(b.client.value.currentUser)
  {
    var r := RefreshUserToken(t1, api);
    match r.result
    case Failure(e) => Built(Failure(e), r.calls)
    case Success(userToken) =>
      var rest := WithUserToken(r.tokens.(userAccessToken := userToken), api);
      Built(rest.client, r.calls + rest.calls)
  }

  /** The constructor once both tokens are stored: validation of the user
      token for the login, then the lookup of `CurrentUser` by it. */
  function WithUserToken(t2: Tokens, api: Api): (b: Built)
    ensures |b.calls| >= 1 && b.calls[0] == Validate(Render(t2.userAccessToken))
    ensures b.client.Success? ==>
      && b.client.value.tokens == t2
      && |b.calls| >= 2 && b.calls[1] == Validate(Render(t2.appAccessToken))
      && ValidatedLogin(t2.userAccessToken, api).Success?
      && GetUser(t2, ByLogin(ValidatedLogin(t2.userAccessToken, api).value), api).result == Success(b.client.value.currentUser)
  {
    var check := Validate(Render(t2.userAccessToken));
    match ValidatedLogin(t2.userAccessToken, api)
    case Failure(e) => Built(Failure(e), [check])
    case Success(login) =>
      var u := GetUser(t2, ByLogin(login), api);
      match u.result
      case Failure(e) => Built(Failure(e), [check] + u.calls)
      case Success(user) => Built(Success(TwitchClient(t2, user)), [check] + u.calls)
  }

  /** A user token that fails validation gives the empty login, and the
      current user is then looked up under "". */
  lemma InvalidUserTokenLooksUpEmptyLogin(clientId: NString, clientSecret: NString, refreshToken: NString, api: Api)
    requires New(clientId, clientSecret, refreshToken, api).client.Success?
    requires !IsValid(api, New(clientId, clientSecret, refreshToken, api).client.value.tokens.userAccessToken)
    ensures var c := New(clientId, clientSecret, refreshToken, api).client.value;
      GetUser(c.tokens, ByLogin(Some("")), api).result == Success(c.currentUser)
  {
  }

  // ----- the newer TwitchUser's requests -----

  const ChatEndpoint: string := "https://api.twitch.tv/helix/chat/messages"

  /** `SendChatMessageAsync`: a user token (which may rotate the client's
      tokens), then the chat form posted from the current user to `target`. */
  function SendChatMessage(c: TwitchClient, target: TwitchUser, content: string, replyId: NString, api: Api)
    : (o: Outcome<()>)
    ensures var u := GetUserAccessToken(c.tokens, api);
      && o.tokens == u.tokens
      && |u.calls| <= |o.calls| && o.calls[..|u.calls|] == u.calls
    ensures var u := GetUserAccessToken(c.tokens, api);
      u.result.Failure? ==> TokenTraffic(o.calls) && o.result == Failure(u.result.error)
    ensures var u := GetUserAccessToken(c.tokens, api);
      u.result.Success? ==>
        var post := o.calls[|o.calls| - 1];
        && |o.calls| == |u.calls| + 1
        && post.Post? && post.url == ChatEndpoint && post.bearer == Some(Render(u.result.value))
        && FormValue(post.form, "broadcaster_id") == Some(Render(target.id))
        && FormValue(post.form, "sender_id") == Some(Render(c.currentUser.id))
        && FormValue(post.form, "message") == Some(content)
        && FormValue(post.form, "reply_parent_message_id") == replyId
        && (api(post).status != OK ==> o.result == Failure(SendFailed(api(post).status)))
        && (api(post).status == OK && o.result.Failure? ==>
              SentId(api(post).body).Failure? && o.result.error == SentId(api(post).body).error)
    ensures o.result.Success? <==>
      var post := o.calls[|o.calls| - 1];
      && GetUserAccessToken(c.tokens, api).result.Success?
      && post.Post? && post.url == ChatEndpoint && api(post).status == OK
      && SentId(api(post).body).Success?
  {
    var u := GetUserAccessToken(c.tokens, api);
    match u.result
    case Failure(e) => Outcome(u.tokens, Failure(e), u.calls)
    case Success(token) =>
      var call := Post(ChatEndpoint, Some(Render(token)), ChatForm(target.id, c.currentUser.id, content, replyId));
      var reply := api(call);
      Outcome(u.tokens, SendResponse(reply.status, reply.body), u.calls + [call])
  }

  /** `SendWhisperAsync`: posted from the current user to `target`; the
      response is not read. */
  function SendWhisper(c: TwitchClient, target: TwitchUser, content: string, api: Api): (o: Outcome<()>)
    ensures var u := GetUserAccessToken(c.tokens, api);
      && o.tokens == u.tokens
      && |u.calls| <= |o.calls| && o.calls[..|u.calls|] == u.calls
      && (o.result.Success? <==> u.result.Success?)
    ensures var u := GetUserAccessToken(c.tokens, api);
      u.result.Failure? ==> TokenTraffic(o.calls) && o.result == Failure(u.result.error)
    ensures var u := GetUserAccessToken(c.tokens, api);
      u.result.Success? ==>
        var post := o.calls[|o.calls| - 1];
        && |o.calls| == |u.calls| + 1
        && post.Post? && post.url == WhisperUrl(c.currentUser.id, target.id)
        && post.bearer == Some(Render(u.result.value))
        && |post.form| == 1 && FormValue(post.form, "message") == Some(content)
  {
    var u := GetUserAccessToken(c.tokens, api);
    match u.result
    case Failure(e) => Outcome(u.tokens, Failure(e), u.calls)
    case Success(token) =>
      Outcome(u.tokens, Success(()), u.calls + [Post(WhisperUrl(c.currentUser.id, target.id), Some(Render(token)),
                                                     [("message", content)])])
  }
}

=== FILE: conditions.dfy ===
/** EventSub subscription requests as both generations build them. The
    `condition` object is kept as the sequence of pieces spliced into the
    request text: `"key": "value"` entries and the commas between them. */
module Conditions {
  import opened Wrappers

  datatype Piece = Entry(key: string, value: string) | Comma

  const BroadcasterKey: string := "broadcaster_user_id"
  const ModeratorKey: string := "moderator_user_id"
  const UserKey: string := "user_id"

  const TransportMethod: string := "websocket"

  /** The fields of a subscription request body: the event's wire type and
      version text, its condition, and the websocket transport's session. */
  datatype Request = Request(wireType: string, version: string, condition: seq<Piece>, transportMethod: string, sessionId: string)

  /** A JSON member list: entries separated by single commas, with no
      leading, trailing or doubled comma. */
  predicate WellFormed(items: seq<Piece>)
  {
    && (|items| == 0 || |items| % 2 == 1)
    && forall i | 0 <= i < |items| :: items[i].Comma? <==> i % 2 == 1
  }

  /** The value of the first entry named `key`. */
  function Value(items: seq<Piece>, key: string): Option<string>
    decreases |items|
  {
    if |items| == 0 then None
    else if items[0].Entry? && items[0].key == key then Some(items[0].value)
    else Value(items[1..], key)
  }

  /** The entry names, in order. */
  function Keys(items: seq<Piece>): seq<string>
    decreases |items|
  {
    if |items| == 0 then []
    else if items[0].Entry? then [items[0].key] + Keys(items[1..])
    else Keys(items[1..])
  }

  /** An entry followed by the rest: its key is found first, and the rest
      is searched for every other key. */
  lemma EntryCons(k: string, v: string, rest: seq<Piece>)
    ensures forall key :: Value([Entry(k, v)] + rest, key) == if key == k then Some(v) else Value(rest, key)
    ensures Keys([Entry(k, v)] + rest) == [k] + Keys(rest)
  {
    assert ([Entry(k, v)] + rest)[1..] == rest;
  }

  lemma CommaCons(rest: seq<Piece>)
    ensures forall key :: Value([Comma] + rest, key) == Value(rest, key)
    ensures Keys([Comma] + rest) == Keys(rest)
  {
    assert ([Comma] + rest)[1..] == rest;
  }

  /** Entries joined by single commas, the way a condition lists them. */
  function Joined(entries: seq<(string, string)>): (items: seq<Piece>)
    ensures |items| == if |entries| == 0 then 0 else 2 * |entries| - 1
    decreases |entries|
  {
    if |entries| == 0 then []
    else if |entries| == 1 then [Entry(entries[0].0, entries[0].1)]
    else [Entry(entries[0].0, entries[0].1), Comma] + Joined(entries[1..])
  }

  /** Any entries joined by commas form a member list. */
  lemma {:induction false} JoinedWellFormed(entries: seq<(string, string)>)
    ensures WellFormed(Joined(entries))
    decreases |entries|
  {
    if |entries| > 1 {
      JoinedWellFormed(entries[1..]);
      var rest := Joined(entries[1..]);
      var items := Joined(entries);
      assert forall i | 2 <= i < |items| :: items[i] == rest[i - 2];
    }
  }

  /** The entries of a member list, in order: the pieces at even positions. */
  function EntriesOf(items: seq<Piece>): (entries: seq<(string, string)>)
    requires WellFormed(items)
    ensures |entries| == (|items| + 1) / 2
  {
    seq((|items| + 1) / 2, k requires 0 <= k < (|items| + 1) / 2 => (items[2 * k].key, items[2 * k].value))
  }

  /** Every member list is its own entries joined by commas, so the member
      lists are exactly the joins. */
  lemma {:induction false} WellFormedIsJoined(items: seq<Piece>)
    requires WellFormed(items)
    ensures items == Joined(EntriesOf(items))
    decreases |items|
  {
    if |items| == 1 {
      assert items == [Entry(items[0].key, items[0].value)];
    } else if |items| > 1 {
      var rest := items[2..];
      assert forall i | 0 <= i < |rest| :: rest[i] == items[i + 2];
      assert WellFormed(rest);
      WellFormedIsJoined(rest);
      var es := EntriesOf(items);
      assert es[1..] == EntriesOf(rest);
      assert items == [Entry(es[0].0, es[0].1), Comma] + rest;
    }
  }

  /** A trailing comma never closes a member list, whatever precedes it. */
  lemma TrailingCommaMalformed(items: seq<Piece>)
    ensures !WellFormed(items + [Comma])
  {
    assert (items + [Comma])[|items|].Comma?;
  }
}

=== FILE: engine.dfy ===
/** The older generation's static `TwitchEngine`: a singleton client that
    each `CreateTwitchClient` overload replaces when its constructor
    succeeds, a singleton `EventEngine` that `UseEvents` replaces, and
    `getAuthCode`, which prints the authorize link and reads a code. */
module TwitchEngine {
  import opened Wrappers
  import opened Errors
  import opened Tokens
  import LegacyClient
  import EventEngine
  import Subscriptions
  import OAuth

  /** `AutomaticTwitchClientConfig`: a code obtained beforehand. */
  datatype AutomaticConfig = AutomaticConfig(
    clientId: NString, clientSecret: NString, username: NString, redirectUri: NString, oauthCode: NString)

  /** `ManualTwitchClientConfig`: the code is asked for on the console. */
  datatype ManualConfig = ManualConfig(
    clientId: NString, clientSecret: NString, username: NString, redirectUri: NString,
    scopes: Option<seq<string>>)

  /** `RefreshTwitchClientConfig`. */
  datatype RefreshConfig = RefreshConfig(
    clientId: NString, clientSecret: NString, username: NString, refreshToken: NString)

  /** The two static fields. */
  datatype Statics = Statics(client: Option<LegacyClient.Client>, events: Option<EventEngine.Engine>)

  const Initial: Statics := Statics(None, None)

  // ----- getAuthCode -----

  /** What `getAuthCode` leaves behind: the configuration (whose scope
      array it rewrites in place), the link it logged, and the code read. */
  datatype Prompt = Prompt(config: ManualConfig, link: Option<string>, code: Result<string, Error>)

  /** `getAuthCode`, with `typed` the line read from the console (null at
      end of input). Both checks come before anything is built. */
  function GetAuthCode(conf: ManualConfig, typed: NString): (p: Prompt)
    ensures conf.scopes.None? ==> p == Prompt(conf, None, Failure(ScopesNull))
    ensures conf.scopes.Some? && conf.redirectUri.None? ==> p == Prompt(conf, None, Failure(RedirectUriNull))
    ensures conf.scopes.Some? && conf.redirectUri.Some? ==>
      && p.config == conf.(scopes := Some(OAuth.EscapeScopes(conf.scopes.value)))
      && (forall i | 0 <= i < |p.config.scopes.value| :: ':' !in p.config.scopes.value[i])
      && p.link == Some(OAuth.AuthorizeUrl(conf.clientId, conf.redirectUri, p.config.scopes.value))
      && p.code == (if typed.None? then Failure(CodeNull) else Success(typed.value))
  {
    match conf.scopes
    case None => Prompt(conf, None, Failure(ScopesNull))
    case Some(scopes) =>
      if conf.redirectUri.None? then Prompt(conf, None, Failure(RedirectUriNull))
      else
        var escaped := conf.(scopes := Some(OAuth.EscapeScopes(scopes)));
        var link := OAuth.AuthorizeUrl(conf.clientId, conf.redirectUri, escaped.scopes.value);
        match typed
        case None => Prompt(escaped, Some(link), Failure(CodeNull))
        case Some(code) => Prompt(escaped, Some(link), Success(code))
  }

  // ----- the singletons -----

  /** What a `CreateTwitchClient` overload did: the statics afterwards, the
      client it returned or the exception, and the calls made. */
  datatype Created = Created(next: Statics, client: Result<LegacyClient.Client, Error>, calls: seq<Call>)

  /** Assigning the constructor's result: the singleton changes only when
      the constructor returns. */
  function Install(s: Statics, b: LegacyClient.Built): (c: Created)
    ensures c.client == b.client && c.calls == b.calls
    ensures c.next.events == s.events
    ensures c.next.client == (if b.client.Success? then Some(b.client.value) else s.client)
  {
    match b.client
    case Success(client) => Created(s.(client := Some(client)), b.client, b.calls)
    case Failure(_) => Created(s, b.client, b.calls)
  }

  function CreateAutomatic(s: Statics, conf: AutomaticConfig, api: Api): (c: Created)
    ensures c.client == LegacyClient.NewWithCode(conf.clientId, conf.clientSecret, conf.username,
                                                  conf.oauthCode, conf.redirectUri, api).client
    ensures c.client.Success? ==> c.client.value.credentials.oauthCode == conf.oauthCode
  {
    Install(s, LegacyClient.NewWithCode(conf.clientId, conf.clientSecret, conf.username,
                                        conf.oauthCode, conf.redirectUri, api))
  }

  /** The manual overload: the code comes from `getAuthCode`, whose
      exception leaves the singleton alone and makes no call. */
  function CreateManual(s: Statics, conf: ManualConfig, typed: NString, api: Api): (r: (Created, Prompt))
    ensures r.1 == GetAuthCode(conf, typed)
    ensures r.1.code.Failure? ==> r.0 == Created(s, Failure(r.1.code.error), [])
    ensures r.1.code.Success? ==>
      r.0.client == LegacyClient.NewWithCode(conf.clientId, conf.clientSecret, conf.username,
                                             Some(r.1.code.value), conf.redirectUri, api).client
  {
    var p := GetAuthCode(conf, typed);
    match p.code
    case Failure(e) => (Created(s, Failure(e), []), p)
    case Success(code) =>
      (Install(s, LegacyClient.NewWithCode(conf.clientId, conf.clientSecret, conf.username,
                                           Some(code), conf.redirectUri, api)), p)
  }

  function CreateRefresh(s: Statics, conf: RefreshConfig, api: Api): (c: Created)
    ensures c.client == LegacyClient.NewWithRefreshToken(conf.clientId, conf.clientSecret, conf.username,
                                                          conf.refreshToken, api).client
    ensures c.client.Success? ==> c.client.value.credentials.tokens.refreshToken == conf.refreshToken
  {
    Install(s, LegacyClient.NewWithRefreshToken(conf.clientId, conf.clientSecret, conf.username,
                                                conf.refreshToken, api))
  }

  /** `UseEvents`: a new engine replaces the old one, whatever its state. */
  function UseEvents(s: Statics, conf: EventEngine.EventConfig): (next: Statics)
    ensures next.client == s.client
    ensures next.events.Some? && next.events.value.sessionId.None?
    ensures next.events.value.client == conf.client && next.events.value.subscriptions == conf.subscriptions
  {
    s.(events := Some(EventEngine.NewEngine(conf)))
  }

  /** `GetTwitchClient`. */
  function GetTwitchClient(s: Statics): (r: Result<LegacyClient.Client, Error>)
    ensures r.Failure? <==> s.client.None?
    ensures r.Failure? ==> r.error == NotInitialized
    ensures r.Success? ==> s.client == Some(r.value)
  {
    match s.client
    case None => Failure(NotInitialized)
    case Some(c) => Success(c)
  }

  // ----- sequences of calls -----

  datatype Op =
    | Automatic(automatic: AutomaticConfig)
    | Manual(manual: ManualConfig, typed: NString)
    | Refresh(refresh: RefreshConfig)
    | Events(events: EventEngine.EventConfig)

  function Apply(s: Statics, op: Op, api: Api): Statics
  {
    match op
    case Automatic(conf) => CreateAutomatic(s, conf, api).next
    case Manual(conf, typed) => CreateManual(s, conf, typed, api).0.next
    case Refresh(conf) => CreateRefresh(s, conf, api).next
    case Events(conf) => UseEvents(s, conf)
  }

  /** The statics after the operations, applied in order. */
  function Run(s: Statics, ops: seq<Op>, api: Api): Statics
    decreases |ops|
  {
    if |ops| == 0 then s else Apply(Run(s, ops[..|ops| - 1], api), ops[|ops| - 1], api)
  }

  /** The client one operation constructs, if it constructs one. */
  function Constructed(s: Statics, op: Op, api: Api): Option<LegacyClient.Client>
  {
    var r := match op
      case Automatic(conf) => CreateAutomatic(s, conf, api).client
      case Manual(conf, typed) => CreateManual(s, conf, typed, api).0.client
      case Refresh(conf) => CreateRefresh(s, conf, api).client
      case Events(_) => Failure(NotInitialized);
    if r.Success? then Some(r.value) else None
  }

  /** The most recently constructed client: the reference the singleton is
      compared with. */
  function LastClient(s: Statics, ops: seq<Op>, api: Api): Option<LegacyClient.Client>
    decreases |ops|
  {
    if |ops| == 0 then s.client
    else
      var c := Constructed(Run(s, ops[..|ops| - 1], api), ops[|ops| - 1], api);
      if c.Some? then c else LastClient(s, ops[..|ops| - 1], api)
  }

  /** The engine the most recent `UseEvents` created. */
  function LastEvents(s: Statics, ops: seq<Op>): Option<EventEngine.Engine>
    decreases |ops|
  {
    if |ops| == 0 then s.events
    else if ops[|ops| - 1].Events? then Some(EventEngine.NewEngine(ops[|ops| - 1].events))
    else LastEvents(s, ops[..|ops| - 1])
  }

  /** One operation: the singleton becomes the client it constructed, if
      any, and the engine changes only on `UseEvents`. */
  lemma ApplyStep(s: Statics, op: Op, api: Api)
    ensures Apply(s, op, api).client ==
      (if Constructed(s, op, api).Some? then Constructed(s, op, api) else s.client)
    ensures Apply(s, op, api).events ==
      (if op.Events? then Some(EventEngine.NewEngine(op.events)) else s.events)
  {
  }

  /** `GetTwitchClient` returns the most recently constructed client, and
      throws until some overload has constructed one; the event engine is
      the one the latest `UseEvents` created. */
  lemma {:induction false} SingletonsTrackLatest(s: Statics, ops: seq<Op>, api: Api)
    ensures Run(s, ops, api).client == LastClient(s, ops, api)
    ensures Run(s, ops, api).events == LastEvents(s, ops)
    ensures GetTwitchClient(Run(s, ops, api)).Failure? <==> LastClient(s, ops, api).None?
    decreases |ops|
  {
    if |ops| > 0 {
      SingletonsTrackLatest(s, ops[..|ops| - 1], api);
      ApplyStep(Run(s, ops[..|ops| - 1], api), ops[|ops| - 1], api);
    }
  }

  /** Starting from nothing, no client is available before the first
      successful construction. */
  lemma NotInitializedUntilCreated(ops: seq<Op>, api: Api)
    requires forall i | 0 <= i < |ops| :: Constructed(Run(Initial, ops[..i], api), ops[i], api).None?
    ensures GetTwitchClient(Run(Initial, ops, api)) == Failure(NotInitialized)
  {
    NoneConstructed(ops, api);
    SingletonsTrackLatest(Initial, ops, api);
  }

  lemma {:induction false} NoneConstructed(ops: seq<Op>, api: Api)
    requires forall i | 0 <= i < |ops| :: Constructed(Run(Initial, ops[..i], api), ops[i], api).None?
    ensures LastClient(Initial, ops, api).None?
    decreases |ops|
  {
    if |ops| > 0 {
      var front := ops[..|ops| - 1];
      forall i | 0 <= i < |front|
        ensures Constructed(Run(Initial, front[..i], api), front[i], api).None?
      {
        assert front[..i] == ops[..i];
      }
      NoneConstructed(front, api);
    }
  }
}

=== FILE: errors.dfy ===
/** The exceptions the modelled code can throw, as values. Each constructor
    stands for one distinguishable `throw` (or runtime exception) of the source. */
module Errors {
  import opened Wrappers

  datatype Error =
    // System.Text.Json shape errors
    | MissingProperty(name: string)       // KeyNotFoundException from GetProperty
    | NotAnObject                         // GetProperty on a non-object
    | NotAString                          // GetString on a value that is neither a string nor null
    | NotAnArray                          // indexing or enumerating a non-array
    | IndexOutOfRange(index: int)         // data[0] on a short array
    | NotAnInt16                          // GetInt16 on a non-number or an out-of-range number
    | NotABool                            // GetBoolean on a non-boolean
    | NotADateTime                        // GetDateTime on a non-string
    | InvalidJson                         // JsonDocument.Parse on empty or malformed text
    // HTTP status tables
    | BadRequest(detail: NString)
    | Unauthorized(detail: NString)
    | UnknownError(detail: NString)
    | UserOffline
    | SendFailed(status: int)
    | AppTokenFailed(status: int)
    | UserTokenFailed(status: int)
    | RefreshFailed(status: int)
    // collaborators reached through oracles
    | LookupFailed                        // a user or stream lookup threw
    | NullReference                       // a null value was dereferenced
    // configuration and start-up checks
    | NotInitialized                      // TwitchEngine.GetTwitchClient before CreateTwitchClient
    | ScopesNull
    | RedirectUriNull
    | CodeNull
    | MissingBroadcaster                  // EventSubscription for a broadcaster event without a channel
    | CodeNotFound                        // no "code" in the redirect URL
    | DefaultValue(target: string)        // SConfig value left at "changeMe"
    | NotFound(target: string)            // SConfig target missing
    | FileUnreadable(path: string)        // StreamReader on a file that cannot be opened
    | PrefixWithoutLogLevel               // Substring with IndexOf == -1
}

=== FILE: eventargs.dfy ===
/** The newer generation's notification decoders (the `*Args` classes next
    to each descriptor). Each reads fixed paths under `payload.event` in
    source order and resolves users through the client's lookups; the first
    missing path, wrong JSON kind or failed lookup is the exception thrown. */
module EventArgs {
  import opened Wrappers
  import opened Errors
  import opened Json
  import opened Users
  import Streams

  type Stream = Streams.TwitchStream<TwitchUser>

  datatype ChatMessageArgs = ChatMessageArgs(messageContent: NString, messageId: NString,
                                             broadcaster: TwitchUser, chatter: TwitchUser)
  datatype StreamOnlineArgs = StreamOnlineArgs(broadcaster: TwitchUser, streamId: NString, streamType: NString,
                                               startedAt: NString, stream: Option<Stream>)
  datatype StreamOfflineArgs = StreamOfflineArgs(broadcaster: TwitchUser)
  /** `followedAt` is the raw text handed to `GetDateTime`. */
  datatype FollowArgs = FollowArgs(broadcaster: TwitchUser, follower: TwitchUser, followedAt: string)
  datatype WhisperArgs = WhisperArgs(messageContent: NString, messageId: NString, sender: TwitchUser, receiver: TwitchUser)

  /** `GetDateTime()`: only a JSON string can be read as a date. */
  function DateTimeText(j: Json): (r: Result<string, Error>)
    ensures r.Success? <==> j.JString?
    ensures r.Success? ==> r.value == j.s
  {
    match j
    case JString(s) => Success(s)
    case _ => Failure(NotADateTime)
  }

  /** `ChannelChatMessageReceivedArgs`. */
  function DecodeChatMessage(payload: Json, resolve: Resolver): (r: Result<ChatMessageArgs, Error>)
    ensures r.Success? <==>
      && StringAt(payload, ["event", "chatter_user_login"]).Success?
      && resolve(ByLogin(StringAt(payload, ["event", "chatter_user_login"]).value)).Success?
      && StringAt(payload, ["event", "broadcaster_user_login"]).Success?
      && resolve(ByLogin(StringAt(payload, ["event", "broadcaster_user_login"]).value)).Success?
      && StringAt(payload, ["event", "message_id"]).Success?
      && StringAt(payload, ["event", "message", "text"]).Success?
    ensures r.Success? ==>
      && r.value.chatter == resolve(ByLogin(StringAt(payload, ["event", "chatter_user_login"]).value)).value
      && r.value.broadcaster == resolve(ByLogin(StringAt(payload, ["event", "broadcaster_user_login"]).value)).value
      && r.value.messageId == StringAt(payload, ["event", "message_id"]).value
      && r.value.messageContent == StringAt(payload, ["event", "message", "text"]).value
  {
    StringAt2(payload, "event", "chatter_user_login");
    StringAt2(payload, "event", "broadcaster_user_login");
    StringAt2(payload, "event", "message_id");
    StringAt3(payload, "event", "message", "text");
    var ev :- GetProperty(payload, "event");
    StringAt2(ev, "message", "text");
    var chatterLogin :- Field(ev, "chatter_user_login");
    var chatter :- resolve(ByLogin(chatterLogin));
    var broadcasterLogin :- Field(ev, "broadcaster_user_login");
    var broadcaster :- resolve(ByLogin(broadcasterLogin));
    var messageId :- Field(ev, "message_id");
    var message :- GetProperty(ev, "message");
    var content :- Field(message, "text");
    Success(ChatMessageArgs(content, messageId, broadcaster, chatter))
  }

  /** `ChannelStreamOnlineArgs`: the broadcaster is looked up by id and the
      stream is whatever `GetCurrentStream` yields, null included. */
  function DecodeStreamOnline(payload: Json, resolve: Resolver, currentStream: TwitchUser -> Option<Stream>)
    : (r: Result<StreamOnlineArgs, Error>)
    ensures r.Success? <==>
      && StringAt(payload, ["event", "broadcaster_user_id"]).Success?
      && resolve(ById(StringAt(payload, ["event", "broadcaster_user_id"]).value)).Success?
      && StringAt(payload, ["event", "id"]).Success?
      && StringAt(payload, ["event", "type"]).Success?
      && StringAt(payload, ["event", "started_at"]).Success?
    ensures r.Success? ==>
      && r.value.broadcaster == resolve(ById(StringAt(payload, ["event", "broadcaster_user_id"]).value)).value
      && r.value.streamId == StringAt(payload, ["event", "id"]).value
      && r.value.streamType == StringAt(payload, ["event", "type"]).value
      && r.value.startedAt == StringAt(payload, ["event", "started_at"]).value
      && r.value.stream == currentStream(r.value.broadcaster)
  {
    StringAt2(payload, "event", "broadcaster_user_id");
    StringAt2(payload, "event", "id");
    StringAt2(payload, "event", "type");
    StringAt2(payload, "event", "started_at");
    var ev :- GetProperty(payload, "event");
    var broadcasterId :- Field(ev, "broadcaster_user_id");
    var broadcaster :- resolve(ById(broadcasterId));
    var streamId :- Field(ev, "id");
    var streamType :- Field(ev, "type");
    var startedAt :- Field(ev, "started_at");
    Success(StreamOnlineArgs(broadcaster, streamId, streamType, startedAt, currentStream(broadcaster)))
  }

  /** `ChannelStreamOfflineArgs`: only the broadcaster, looked up by id. */
  function DecodeStreamOffline(payload: Json, resolve: Resolver): (r: Result<StreamOfflineArgs, Error>)
    ensures r.Success? <==>
      && StringAt(payload, ["event", "broadcaster_user_id"]).Success?
      && resolve(ById(StringAt(payload, ["event", "broadcaster_user_id"]).value)).Success?
    ensures r.Success? ==>
      r.value.broadcaster == resolve(ById(StringAt(payload, ["event", "broadcaster_user_id"]).value)).value
  {
    StringAt2(payload, "event", "broadcaster_user_id");
    var ev :- GetProperty(payload, "event");
    var broadcasterId :- Field(ev, "broadcaster_user_id");
    var broadcaster :- resolve(ById(broadcasterId));
    Success(StreamOfflineArgs(broadcaster))
  }

  /** `ChannelFollowReceicvedArgs` of the newer namespace. */
  function DecodeFollow(payload: Json, resolve: Resolver): (r: Result<FollowArgs, Error>)
    ensures r.Success? <==>
      && StringAt(payload, ["event", "broadcaster_user_login"]).Success?
      && resolve(ByLogin(StringAt(payload, ["event", "broadcaster_user_login"]).value)).Success?
      && StringAt(payload, ["event", "user_login"]).Success?
      && resolve(ByLogin(StringAt(payload, ["event", "user_login"]).value)).Success?
      && At(payload, ["event", "followed_at"]).Success?
      && At(payload, ["event", "followed_at"]).value.JString?
    ensures r.Success? ==>
      && r.value.broadcaster == resolve(ByLogin(StringAt(payload, ["event", "broadcaster_user_login"]).value)).value
      && r.value.follower == resolve(ByLogin(StringAt(payload, ["event", "user_login"]).value)).value
      && r.value.followedAt == At(payload, ["event", "followed_at"]).value.s
  {
    StringAt2(payload, "event", "broadcaster_user_login");
    StringAt2(payload, "event", "user_login");
    At2(payload, "event", "followed_at");
    var ev :- GetProperty(payload, "event");
    var broadcasterLogin :- Field(ev, "broadcaster_user_login");
    var broadcaster :- resolve(ByLogin(broadcasterLogin));
    var followerLogin :- Field(ev, "user_login");
    var follower :- resolve(ByLogin(followerLogin));
    var followedAtE :- GetProperty(ev, "followed_at");
    var followedAt :- DateTimeText(followedAtE);
    Success(FollowArgs(broadcaster, follower, followedAt))
  }

  /** `ClientWhisperReceivedArgs`. */
  function DecodeWhisper(payload: Json, resolve: Resolver): (r: Result<WhisperArgs, Error>)
    ensures r.Success? <==>
      && StringAt(payload, ["event", "from_user_login"]).Success?
      && resolve(ByLogin(StringAt(payload, ["event", "from_user_login"]).value)).Success?
      && StringAt(payload, ["event", "to_user_login"]).Success?
      && resolve(ByLogin(StringAt(payload, ["event", "to_user_login"]).value)).Success?
      && StringAt(payload, ["event", "whisper_id"]).Success?
      && StringAt(payload, ["event", "whisper", "text"]).Success?
    ensures r.Success? ==>
      && r.value.sender == resolve(ByLogin(StringAt(payload, ["event", "from_user_login"]).value)).value
      && r.value.receiver == resolve(ByLogin(StringAt(payload, ["event", "to_user_login"]).value)).value
      && r.value.messageId == StringAt(payload, ["event", "whisper_id"]).value
      && r.value.messageContent == StringAt(payload, ["event", "whisper", "text"]).value
  {
    StringAt2(payload, "event", "from_user_login");
    StringAt2(payload, "event", "to_user_login");
    StringAt2(payload, "event", "whisper_id");
    StringAt3(payload, "event", "whisper", "text");
    var ev :- GetProperty(payload, "event");
    StringAt2(ev, "whisper", "text");
    var senderLogin :- Field(ev, "from_user_login");
    var sender :- resolve(ByLogin(senderLogin));
    var receiverLogin :- Field(ev, "to_user_login");
    var receiver :- resolve(ByLogin(receiverLogin));
    var messageId :- Field(ev, "whisper_id");
    var whisper :- GetProperty(ev, "whisper");
    var content :- Field(whisper, "text");
    Success(WhisperArgs(content, messageId, sender, receiver))
  }

  /** Every field is read under `payload.event`: without it nothing decodes. */
  lemma MissingEventFails(payload: Json, resolve: Resolver, currentStream: TwitchUser -> Option<Stream>)
    requires GetProperty(payload, "event").Failure?
    ensures DecodeChatMessage(payload, resolve).Failure?
    ensures DecodeStreamOnline(payload, resolve, currentStream).Failure?
    ensures DecodeStreamOffline(payload, resolve).Failure?
    ensures DecodeFollow(payload, resolve).Failure?
    ensures DecodeWhisper(payload, resolve).Failure?
  {
  }
}

=== FILE: eventengine.dfy ===
/** The older generation's `EventEngine`: one socket whose messages only
    ever change the session id, a three-slot notification switch, and
    `StartListeningAsync`'s subscription posts, one per configured
    subscription, in array order. */
module EventEngine {
  import opened Wrappers
  import opened Errors
  import opened Json
  import opened Users
  import opened Conditions
  import opened Subscriptions
  import opened LegacyArgs
  import Text
  import Tokens
  import LegacyClient

  /** `EventConfig`: the client the engine works for and the subscriptions. */
  datatype EventConfig = EventConfig(client: LegacyClient.Client, subscriptions: seq<EventSubscription>)

  /** `_Client`, `_SessionID` (null until a welcome) and the configured
      subscriptions. */
  datatype Engine = Engine(client: LegacyClient.Client, sessionId: NString, subscriptions: seq<EventSubscription>)

  function NewEngine(conf: EventConfig): (e: Engine)
    ensures e.client == conf.client && e.sessionId.None? && e.subscriptions == conf.subscriptions
  {
    Engine(conf.client, None, conf.subscriptions)
  }

  datatype Slot = ChannelMessageSlot | FollowSlot | PrivateMessageSlot

  datatype Fired =
    | FiredChannelMessage(message: ChannelMessageArgs)
    | FiredFollow(follow: FollowArgs)
    | FiredPrivateMessage(whisper: PrivateMessageArgs)

  function SlotOf(f: Fired): Slot
  {
    match f
    case FiredChannelMessage(_) => ChannelMessageSlot
    case FiredFollow(_) => FollowSlot
    case FiredPrivateMessage(_) => PrivateMessageSlot
  }

  function WireType(s: Slot): string
  {
    match s
    case ChannelMessageSlot => "channel.chat.message"
    case FollowSlot => "channel.follow"
    case PrivateMessageSlot => "user.whisper.message"
  }

  /** The inner `subscription_type` switch. */
  function Route(subType: NString): (r: Option<Slot>)
    ensures r.Some? ==> subType == Some(WireType(r.value))
    ensures forall s :: subType == Some(WireType(s)) ==> r == Some(s)
  {
    match subType
    case Some(t) =>
      if t == "channel.chat.message" then Some(ChannelMessageSlot)
      else if t == "channel.follow" then Some(FollowSlot)
      else if t == "user.whisper.message" then Some(PrivateMessageSlot)
      else None
    case None => None
  }

  /** Each slot answers to the wire type of the table row that subscribes it. */
  lemma SlotsMatchTable()
    ensures WireType(ChannelMessageSlot) == Table(ChannelMessageReceived).typeString
    ensures WireType(FollowSlot) == Table(ChannelFollowReceived).typeString
    ensures WireType(PrivateMessageSlot) == Table(PrivateMessageReceived).typeString
  {
  }

  function Decode(s: Slot, payload: Json, lookup: Resolver): (r: Result<Fired, Error>)
    ensures r.Success? ==> SlotOf(r.value) == s
  {
    match s
    case ChannelMessageSlot =>
      var a :- DecodeChannelMessage(payload, lookup);
      Success(FiredChannelMessage(a))
    case FollowSlot =>
      var a :- DecodeFollow(payload, lookup);
      Success(FiredFollow(a))
    case PrivateMessageSlot =>
      var a :- DecodePrivateMessage(payload, lookup);
      Success(FiredPrivateMessage(a))
  }

  /** The text of a frame: the older engine parses every frame, so text
      that is not a JSON document (empty or null text included) throws. */
  datatype Frame = Message(json: Json) | NotJson

  function MessageType(json: Json): NString
  {
    match StringAt(json, ["metadata", "message_type"])
    case Success(t) => t
    case Failure(_) => None
  }

  datatype Reaction = Reaction(next: Engine, fired: Option<Fired>, failure: Option<Error>)

  /** One message: a welcome records the session id, a notification is
      routed, and every other type (reconnect and revocation included) is
      logged or ignored. */
  function OnMessage(e: Engine, frame: Frame, listeners: set<Slot>, lookup: Resolver): (r: Reaction)
    ensures frame.NotJson? ==> r == Reaction(e, None, Some(InvalidJson))
    ensures r.failure.Some? ==> r.next == e && r.fired.None?
    ensures r.next == e.(sessionId := r.next.sessionId)
    ensures r.next.sessionId != e.sessionId ==> frame.Message? && MessageType(frame.json) == Some("session_welcome")
    ensures frame.Message? && MessageType(frame.json) == Some("session_welcome") && r.failure.None? ==>
      StringAt(frame.json, ["payload", "session", "id"]).Success? &&
      r.next.sessionId == StringAt(frame.json, ["payload", "session", "id"]).value
    ensures r.fired.Some? ==>
      && frame.Message? && MessageType(frame.json) == Some("notification")
      && SlotOf(r.fired.value) in listeners
      && StringAt(frame.json, ["metadata", "subscription_type"]) == Success(Some(WireType(SlotOf(r.fired.value))))
    ensures frame.Message? && MessageType(frame.json) == Some("notification")
            && StringAt(frame.json, ["metadata", "subscription_type"]).Success?
            && GetProperty(frame.json, "payload").Success?
            && Route(StringAt(frame.json, ["metadata", "subscription_type"]).value).None? ==>
      r == Reaction(e, None, None)
  {
    match frame
    case NotJson => Reaction(e, None, Some(InvalidJson))
    case Message(json) =>
      match Receive(e, json, listeners, lookup)
      case Success((next, fired)) => Reaction(next, fired, None)
      case Failure(err) => Reaction(e, None, Some(err))
  }

  function Receive(e: Engine, json: Json, listeners: set<Slot>, lookup: Resolver)
    : (r: Result<(Engine, Option<Fired>), Error>)
    ensures r.Success? ==> r.value.0 == e.(sessionId := r.value.0.sessionId)
    ensures r.Success? && r.value.0.sessionId != e.sessionId ==> MessageType(json) == Some("session_welcome")
    ensures r.Success? && MessageType(json) == Some("session_welcome") ==>
      && StringAt(json, ["payload", "session", "id"]).Success?
      && r.value.0.sessionId == StringAt(json, ["payload", "session", "id"]).value
    ensures r.Success? && r.value.1.Some? ==>
      && MessageType(json) == Some("notification")
      && SlotOf(r.value.1.value) in listeners
      && StringAt(json, ["metadata", "subscription_type"]) == Success(Some(WireType(SlotOf(r.value.1.value))))
    ensures MessageType(json) == Some("notification")
            && StringAt(json, ["metadata", "subscription_type"]).Success?
            && GetProperty(json, "payload").Success?
            && Route(StringAt(json, ["metadata", "subscription_type"]).value).None? ==>
      r == Success((e, None))
  {
    StringAt2(json, "metadata", "message_type");
    StringAt2(json, "metadata", "subscription_type");
    StringAt3(json, "payload", "session", "id");
    var metadata :- GetProperty(json, "metadata");
    var payload :- GetProperty(json, "payload");
    StringAt2(payload, "session", "id");
    var messageType :- Field(metadata, "message_type");
    if messageType == Some("session_welcome") then
      var session :- GetProperty(payload, "session");
      var id :- Field(session, "id");
      Success((e.(sessionId := id), None))
    else if messageType == Some("notification") then
      var subType :- Field(metadata, "subscription_type");
      match Route(subType)
      case None => Success((e, None))
      case Some(slot) =>
        if slot !in listeners then Success((e, None))
        else
          var fired :- Decode(slot, payload, lookup);
          Success((e, Some(fired)))
    else Success((e, None))
  }

  // ----- StartListeningAsync's posts -----

  /** The request body `StartListeningAsync` posts for one subscription. */
  function LegacyRequest(sub: EventSubscription, sessionId: NString, currentUserId: NString): (r: Request)
    ensures r.wireType == sub.typeString && r.version == Text.IntString(sub.version)
    ensures r.condition == Subscriptions.Condition(sub, currentUserId)
    ensures r.transportMethod == TransportMethod && r.sessionId == Render(sessionId)
  {
    Request(sub.typeString, Text.IntString(sub.version), Subscriptions.Condition(sub, currentUserId),
            TransportMethod, Render(sessionId))
  }

  const SubscriptionsEndpoint: string := "https://api.twitch.tv/helix/eventsub/subscriptions"

  /** One subscription post: its URL, its `Authorization` header and its body. */
  datatype SubscriptionPost = SubscriptionPost(url: string, authorization: string, body: Request)

  /** The subscription posts of `StartListeningAsync`, after the socket is
      started: one user token from the engine's client for all of them,
      then one post per subscription in array order, whatever each reply
      says. The session id is whatever the engine holds at that moment. */
  method StartListening(e: Engine, api: Tokens.Api)
    returns (tokens: Tokens.Tokens, posts: seq<SubscriptionPost>, failure: Option<Error>)
    ensures var u := LegacyClient.GetUserAccessToken(e.client.credentials.tokens, api);
      && tokens == u.tokens
      && (u.result.Failure? ==> posts == [] && failure == Some(u.result.error))
      && (u.result.Success? ==> failure.None? && |posts| == |e.subscriptions|)
    ensures var u := LegacyClient.GetUserAccessToken(e.client.credentials.tokens, api);
      u.result.Success? ==> forall i | 0 <= i < |posts| ::
        && posts[i].url == SubscriptionsEndpoint
        && posts[i].authorization == "Bearer " + Render(u.result.value)
        && posts[i].body == LegacyRequest(e.subscriptions[i], e.sessionId, e.client.currentUser.id)
  {
    var u := LegacyClient.GetUserAccessToken(e.client.credentials.tokens, api);
    tokens := u.tokens;
    if u.result.Failure? {
      return tokens, [], Some(u.result.error);
    }
    var header := "Bearer " + Render(u.result.value);
    posts := [];
    failure := None;
    var i := 0;
    while i < |e.subscriptions|
      invariant 0 <= i <= |e.subscriptions|
      invariant |posts| == i
      invariant forall k | 0 <= k < i ::
                  posts[k] == SubscriptionPost(SubscriptionsEndpoint, header, LegacyRequest(e.subscriptions[k], e.sessionId, e.client.currentUser.id))
    {
      posts := posts + [SubscriptionPost(SubscriptionsEndpoint, header,
                                         LegacyRequest(e.subscriptions[i], e.sessionId, e.client.currentUser.id))];
      i := i + 1;
    }
  }

  /** Posted before any welcome, every request carries the empty session id. */
  lemma PostsBeforeWelcome(conf: EventConfig)
    ensures forall i | 0 <= i < |conf.subscriptions| ::
      LegacyRequest(conf.subscriptions[i], NewEngine(conf).sessionId, conf.client.currentUser.id).sessionId == ""
  {
  }

  // ----- runs -----

  /** Over any sequence of frames only welcomes move the session id, and the
      configured subscriptions never change. */
  function Run(e: Engine, frames: seq<Frame>, listeners: set<Slot>, lookup: Resolver): Engine
    decreases |frames|
  {
    if |frames| == 0 then e
    else Run(OnMessage(e, frames[0], listeners, lookup).next, frames[1..], listeners, lookup)
  }

  predicate IsWelcome(f: Frame)
  {
    f.Message? && MessageType(f.json) == Some("session_welcome")
  }

  lemma {:induction false} RunKeepsSubscriptions(e: Engine, frames: seq<Frame>, listeners: set<Slot>, lookup: Resolver)
    ensures Run(e, frames, listeners, lookup).subscriptions == e.subscriptions
    ensures Run(e, frames, listeners, lookup).client == e.client
    ensures (forall i | 0 <= i < |frames| :: !IsWelcome(frames[i])) ==>
      Run(e, frames, listeners, lookup).sessionId == e.sessionId
    decreases |frames|
  {
    if |frames| > 0 {
      assert forall i | 0 <= i < |frames[1..]| :: frames[1..][i] == frames[i + 1];
      RunKeepsSubscriptions(OnMessage(e, frames[0], listeners, lookup).next, frames[1..], listeners, lookup);
    }
  }
}

=== FILE: eventtypes.dfy ===
/** The newer generation's subscription descriptors (`TwitchEvent` and
    `IIsBroadcasterEvent`, one class per event kind) and the subscription
    request `SubscribeToEventAsync` builds from them. */
module EventTypes {
  import opened Wrappers
  import opened Conditions
  import Text
  import Users

  /** What `IIsBroadcasterEvent` adds to an event: the channel and whether a
      moderator's authorisation is needed. */
  datatype BroadcasterRole = BroadcasterRole(broadcaster: Users.TwitchUser, requiresModeratorRole: bool)

  datatype TwitchEvent = TwitchEvent(wireType: string, version: int, requiresUser: bool, role: Option<BroadcasterRole>)

  predicate NeedsModerator(e: TwitchEvent)
  {
    e.role.Some? && e.role.value.requiresModeratorRole
  }

  /** The `condition` of `SubscribeToEventAsync`: the broadcaster's id for a
      broadcaster event, followed by a comma only when a user entry comes;
      then, when the event requires a user, the current user's id under
      `moderator_user_id` for a moderator-role broadcaster event and under
      `user_id` otherwise. */
  function Condition(e: TwitchEvent, currentUserId: NString): (items: seq<Piece>)
    ensures WellFormed(items)
    ensures Value(items, BroadcasterKey).Some? <==> e.role.Some?
    ensures e.role.Some? ==> Value(items, BroadcasterKey) == Some(Render(e.role.value.broadcaster.id))
    ensures Value(items, ModeratorKey).Some? <==> e.requiresUser && NeedsModerator(e)
    ensures Value(items, UserKey).Some? <==> e.requiresUser && !NeedsModerator(e)
    ensures Value(items, ModeratorKey).Some? ==> Value(items, ModeratorKey) == Some(Render(currentUserId))
    ensures Value(items, UserKey).Some? ==> Value(items, UserKey) == Some(Render(currentUserId))
    ensures Keys(items) == (if e.role.Some? then [BroadcasterKey] else [])
                         + (if !e.requiresUser then [] else if NeedsModerator(e) then [ModeratorKey] else [UserKey])
  {
    var userKey := if NeedsModerator(e) then ModeratorKey else UserKey;
    var user := Entry(userKey, Render(currentUserId));
    EntryCons(userKey, Render(currentUserId), []);
    assert [user] == [user] + [];
    if e.role.Some? then
      var b := Entry(BroadcasterKey, Render(e.role.value.broadcaster.id));
      if e.requiresUser then
        CommaCons([user]);
        EntryCons(BroadcasterKey, b.value, [Comma, user]);
        assert [b, Comma, user] == [b] + ([Comma] + [user]);
        [b, Comma, user]
      else
        EntryCons(BroadcasterKey, b.value, []);
        assert [b] == [b] + [];
        [b]
    else if e.requiresUser then [user]
    else []
  }

  // ----- the five descriptors -----

  function ChatMessageEvent(broadcaster: Users.TwitchUser): (e: TwitchEvent)
    ensures e.wireType == "channel.chat.message" && e.version == 1 && e.requiresUser
    ensures e.role == Some(BroadcasterRole(broadcaster, false))
    ensures forall uid :: Keys(Condition(e, uid)) == [BroadcasterKey, UserKey]
  {
    TwitchEvent("channel.chat.message", 1, true, Some(BroadcasterRole(broadcaster, false)))
  }

  function StreamOnlineEvent(broadcaster: Users.TwitchUser): (e: TwitchEvent)
    ensures e.wireType == "stream.online" && e.version == 1 && !e.requiresUser
    ensures e.role == Some(BroadcasterRole(broadcaster, false))
    ensures forall uid :: Keys(Condition(e, uid)) == [BroadcasterKey]
  {
    TwitchEvent("stream.online", 1, false, Some(BroadcasterRole(broadcaster, false)))
  }

  function StreamOfflineEvent(broadcaster: Users.TwitchUser): (e: TwitchEvent)
    ensures e.wireType == "stream.offline" && e.version == 1 && !e.requiresUser
    ensures e.role == Some(BroadcasterRole(broadcaster, false))
    ensures forall uid :: Keys(Condition(e, uid)) == [BroadcasterKey]
  {
    TwitchEvent("stream.offline", 1, false, Some(BroadcasterRole(broadcaster, false)))
  }

  function FollowEvent(broadcaster: Users.TwitchUser): (e: TwitchEvent)
    ensures e.wireType == "channel.follow" && e.version == 2 && e.requiresUser
    ensures e.role == Some(BroadcasterRole(broadcaster, true))
    ensures forall uid :: Keys(Condition(e, uid)) == [BroadcasterKey, ModeratorKey]
  {
    TwitchEvent("channel.follow", 2, true, Some(BroadcasterRole(broadcaster, true)))
  }

  function WhisperEvent(): (e: TwitchEvent)
    ensures e.wireType == "user.whisper.message" && e.version == 1 && e.requiresUser
    ensures e.role.None?
    ensures forall uid :: Keys(Condition(e, uid)) == [UserKey]
  {
    TwitchEvent("user.whisper.message", 1, true, None)
  }

  // ----- the request -----

  /** The session id before any welcome. */
  const InitialSessionId: NString := Some("null")

  /** The request body of `SubscribeToEventAsync`; the version is sent as
      its decimal text and null ids are interpolated as empty text. */
  function SubscriptionRequest(e: TwitchEvent, sessionId: NString, currentUserId: NString): (r: Request)
    ensures r.wireType == e.wireType && r.transportMethod == TransportMethod
    ensures r.version == Text.IntString(e.version)
    ensures r.condition == Condition(e, currentUserId)
    ensures r.sessionId == Render(sessionId)
  {
    Request(e.wireType, Text.IntString(e.version), Condition(e, currentUserId), TransportMethod, Render(sessionId))
  }
}

=== FILE: handler.dfy ===
/** The newer generation's `TwitchEventHandler`: the EventSub session state
    machine driven by socket callbacks, the notification dispatch table and
    the subscription registry. Each callback is one transition; sockets are
    numbered in creation order and referred to by that number. */
module EventHandler {
  import opened Wrappers
  import opened Errors
  import opened Json
  import opened Users
  import opened Conditions
  import opened EventTypes
  import opened EventArgs

  const InitialUri: string := "wss://eventsub.wss.twitch.tv/ws"

  datatype Handler = Handler(
    sessionId: NString,
    sockets: seq<string>,        // the URI of every socket created, by number
    active: Option<nat>,         // `_wsClient`
    disposed: set<nat>,
    reconnecting: bool,          // `_isReconnecting`
    events: seq<TwitchEvent>)    // `_Events`

  predicate Valid(h: Handler)
  {
    && |h.sockets| > 0
    && (h.active.Some? ==> h.active.value < |h.sockets|)
    && forall i | i in h.disposed :: i < |h.sockets|
  }

  /** The constructor: session id "null", one socket on the EventSub URI,
      none active yet, an empty registry. */
  function NewHandler(): (h: Handler)
    ensures Valid(h)
    ensures h.sessionId == InitialSessionId && h.sockets == [InitialUri]
    ensures h.active.None? && h.disposed == {} && !h.reconnecting && h.events == []
  {
    Handler(InitialSessionId, [InitialUri], None, {}, false, [])
  }

  // ----- notification dispatch -----

  datatype Slot = ChatSlot | FollowSlot | WhisperSlot | OnlineSlot | OfflineSlot

  datatype Fired =
    | FiredChat(chat: ChatMessageArgs)
    | FiredFollow(follow: FollowArgs)
    | FiredWhisper(whisper: WhisperArgs)
    | FiredOnline(online: StreamOnlineArgs)
    | FiredOffline(offline: StreamOfflineArgs)

  function SlotOf(f: Fired): Slot
  {
    match f
    case FiredChat(_) => ChatSlot
    case FiredFollow(_) => FollowSlot
    case FiredWhisper(_) => WhisperSlot
    case FiredOnline(_) => OnlineSlot
    case FiredOffline(_) => OfflineSlot
  }

  /** The subscription type each callback slot answers to. */
  function WireType(s: Slot): string
  {
    match s
    case ChatSlot => "channel.chat.message"
    case FollowSlot => "channel.follow"
    case WhisperSlot => "user.whisper.message"
    case OnlineSlot => "stream.online"
    case OfflineSlot => "stream.offline"
  }

  /** The `HandleEvent` switch. */
  function Route(subType: NString): (r: Option<Slot>)
    ensures r.Some? ==> subType == Some(WireType(r.value))
    ensures forall s :: subType == Some(WireType(s)) ==> r == Some(s)
  {
    match subType
    case Some(t) =>
      if t == "channel.chat.message" then Some(ChatSlot)
      else if t == "channel.follow" then Some(FollowSlot)
      else if t == "user.whisper.message" then Some(WhisperSlot)
      else if t == "stream.online" then Some(OnlineSlot)
      else if t == "stream.offline" then Some(OfflineSlot)
      else None
    case None => None
  }

  /** The slots answer to the wire types of the descriptors that subscribe them. */
  lemma SlotsMatchDescriptors(b: TwitchUser)
    ensures WireType(ChatSlot) == ChatMessageEvent(b).wireType
    ensures WireType(FollowSlot) == FollowEvent(b).wireType
    ensures WireType(WhisperSlot) == WhisperEvent().wireType
    ensures WireType(OnlineSlot) == StreamOnlineEvent(b).wireType
    ensures WireType(OfflineSlot) == StreamOfflineEvent(b).wireType
  {
  }

  /** The collaborators a notification needs: user lookups and `GetCurrentStream`. */
  datatype Directory = Directory(resolve: Resolver, currentStream: TwitchUser -> Option<Stream>)

  /** The arguments object of one slot. */
  function Decode(s: Slot, payload: Json, dir: Directory): (r: Result<Fired, Error>)
    ensures r.Success? ==> SlotOf(r.value) == s
  {
    match s
    case ChatSlot =>
      var a :- DecodeChatMessage(payload, dir.resolve);
      Success(FiredChat(a))
    case FollowSlot =>
      var a :- DecodeFollow(payload, dir.resolve);
      Success(FiredFollow(a))
    case WhisperSlot =>
      var a :- DecodeWhisper(payload, dir.resolve);
      Success(FiredWhisper(a))
    case OnlineSlot =>
      var a :- DecodeStreamOnline(payload, dir.resolve, dir.currentStream);
      Success(FiredOnline(a))
    case OfflineSlot =>
      var a :- DecodeStreamOffline(payload, dir.resolve);
      Success(FiredOffline(a))
  }

  /** `HandleEvent`: `OnX?.Invoke(client, new XArgs(...))` builds the
      arguments only when a listener is attached to that slot. */
  function HandleEvent(metadata: Json, payload: Json, listeners: set<Slot>, dir: Directory)
    : (r: Result<Option<Fired>, Error>)
    ensures StringAt(metadata, ["subscription_type"]).Failure? ==> r.Failure?
    ensures r.Success? && r.value.Some? ==>
      && StringAt(metadata, ["subscription_type"]) == Success(Some(WireType(SlotOf(r.value.value))))
      && SlotOf(r.value.value) in listeners
    ensures StringAt(metadata, ["subscription_type"]).Success? ==>
      var slot := Route(StringAt(metadata, ["subscription_type"]).value);
      (slot.None? || slot.value !in listeners) ==> r == Success(None)
    ensures StringAt(metadata, ["subscription_type"]).Success? ==>
      var slot := Route(StringAt(metadata, ["subscription_type"]).value);
      slot.Some? && slot.value in listeners ==> (r.Success? <==> Decode(slot.value, payload, dir).Success?)
  {
    var subType :- Field(metadata, "subscription_type");
    match Route(subType)
    case None => Success(None)
    case Some(slot) =>
      if slot !in listeners then Success(None)
      else
        var fired :- Decode(slot, payload, dir);
        Success(Some(fired))
  }

  // ----- socket callbacks -----

  datatype Frame = EmptyText | Malformed | Message(json: Json)

  /** The `message_type` of a message, or null when it cannot be read. */
  function MessageType(json: Json): NString
  {
    match StringAt(json, ["metadata", "message_type"])
    case Success(t) => t
    case Failure(_) => None
  }

  /** The `session_welcome` transition: the session id is the one sent and
      the receiving socket becomes the active one, the previous active
      socket being disposed. */
  function Welcome(h: Handler, socket: nat, id: NString): Handler
  {
    h.(sessionId := id,
       active := Some(socket),
       disposed := if h.active.Some? then h.disposed + {h.active.value} else h.disposed)
  }

  /** One parsed message on `socket`; a failure is the exception thrown from
      the callback, before anything was changed. */
  function Receive(h: Handler, socket: nat, json: Json, listeners: set<Slot>, dir: Directory)
    : (r: Result<(Handler, Option<Fired>), Error>)
    ensures r.Success? && MessageType(json) == Some("session_welcome") ==>
      && StringAt(json, ["payload", "session", "id"]).Success?
      && r.value.0 == Welcome(h, socket, StringAt(json, ["payload", "session", "id"]).value)
    ensures r.Success? && MessageType(json) == Some("session_reconnect") ==>
      && StringAt(json, ["payload", "session", "reconnect_url"]).Success?
      && StringAt(json, ["payload", "session", "reconnect_url"]).value.Some?
      && r.value.0 == h.(sockets := h.sockets + [StringAt(json, ["payload", "session", "reconnect_url"]).value.value])
    ensures r.Success? && MessageType(json) !in {Some("session_welcome"), Some("session_reconnect")} ==> r.value.0 == h
    ensures r.Success? && r.value.1.Some? ==> MessageType(json) == Some("notification")
  {
    StringAt2(json, "metadata", "message_type");
    StringAt3(json, "payload", "session", "id");
    StringAt3(json, "payload", "session", "reconnect_url");
    var metadata :- GetProperty(json, "metadata");
    var payload :- GetProperty(json, "payload");
    StringAt2(payload, "session", "id");
    StringAt2(payload, "session", "reconnect_url");
    var messageType :- Field(metadata, "message_type");
    if messageType == Some("session_welcome") then
      var session :- GetProperty(payload, "session");
      var id :- Field(session, "id");
      Success((Welcome(h, socket, id), None))
    else if messageType == Some("session_reconnect") then
      var session :- GetProperty(payload, "session");
      var url :- Field(session, "reconnect_url");
      if url.None? then Failure(NullReference)
      else Success((h.(sockets := h.sockets + [url.value]), None))
    else if messageType == Some("revocation") then
      var subscription :- GetProperty(payload, "subscription");
      var subscriptionType :- Field(subscription, "type");
      var status :- Field(subscription, "status");
      var condition :- GetProperty(subscription, "condition");
      var broadcasterId :- Field(condition, "broadcaster_user_id");
      var broadcaster :- dir.resolve(ById(broadcasterId));
      Success((h, None))
    else if messageType == Some("notification") then
      var fired :- HandleEvent(metadata, payload, listeners, dir);
      Success((h, fired))
    else Success((h, None))
  }

  /** What one input did: the next state, the callback fired, the
      subscription requests posted and the exception escaping, if any. */
  datatype Reaction = Reaction(next: Handler, fired: Option<Fired>, posts: seq<Request>, failure: Option<Error>)

  /** `MessageReceived`: empty text is ignored; text that is not JSON throws. */
  function OnMessage(h: Handler, socket: nat, frame: Frame, listeners: set<Slot>, dir: Directory): (r: Reaction)
    ensures r.posts == []
    ensures r.failure.Some? ==> r.next == h && r.fired.None?
    ensures frame.EmptyText? ==> r == Reaction(h, None, [], None)
    ensures frame.Malformed? ==> r == Reaction(h, None, [], Some(InvalidJson))
    ensures r.next.events == h.events && r.next.reconnecting == h.reconnecting
    ensures r.next.sessionId != h.sessionId || r.next.active != h.active ==>
      frame.Message? && MessageType(frame.json) == Some("session_welcome")
    ensures r.next.sockets != h.sockets ==> frame.Message? && MessageType(frame.json) == Some("session_reconnect")
    ensures r.fired.Some? ==> frame.Message? && MessageType(frame.json) == Some("notification")
    ensures Valid(h) && socket < |h.sockets| ==> Valid(r.next)
  {
    match frame
    case EmptyText => Reaction(h, None, [], None)
    case Malformed => Reaction(h, None, [], Some(InvalidJson))
    case Message(json) =>
      match Receive(h, socket, json, listeners, dir)
      case Success((next, fired)) => Reaction(next, fired, [], None)
      case Failure(e) => Reaction(h, None, [], Some(e))
  }

  /** `DisconnectionHappened` on `socket`: the first loss sets the flag and
      opens a new socket on the lost socket's own URI; further losses while
      reconnecting do nothing. */
  function OnDisconnect(h: Handler, socket: nat): (r: Handler)
    requires socket < |h.sockets|
    ensures !h.reconnecting ==> r == h.(reconnecting := true, sockets := h.sockets + [h.sockets[socket]])
    ensures h.reconnecting ==> r == h
    ensures r.reconnecting
    ensures Valid(h) ==> Valid(r)
  {
    if h.reconnecting then h
    else h.(reconnecting := true, sockets := h.sockets + [h.sockets[socket]])
  }

  // ----- subscriptions -----

  /** What `SubscribeToEventAsync` met: the user token could not be obtained
      (the exception escapes, nothing is posted), or the request was posted
      and answered with `status`. */
  datatype PostReply = TokenFailed(error: Error) | Posted(status: int)

  /** `SubscribeToEventAsync(e, isReconnect)`: the event joins the registry
      only when the post succeeds and this is not a resubscription. */
  function Subscribe(h: Handler, e: TwitchEvent, isReconnect: bool, reply: PostReply, currentUserId: NString): (r: Reaction)
    ensures r.fired.None?
    ensures reply.TokenFailed? ==> r == Reaction(h, None, [], Some(reply.error))
    ensures reply.Posted? ==> r.posts == [SubscriptionRequest(e, h.sessionId, currentUserId)] && r.failure.None?
    ensures r.next.events == if reply.Posted? && IsSuccessStatus(reply.status) && !isReconnect
                             then h.events + [e] else h.events
    ensures r.next == h.(events := r.next.events)
  {
    match reply
    case TokenFailed(err) => Reaction(h, None, [], Some(err))
    case Posted(status) =>
      var next := if IsSuccessStatus(status) && !isReconnect then h.(events := h.events + [e]) else h;
      Reaction(next, None, [SubscriptionRequest(e, h.sessionId, currentUserId)], None)
  }

  /** The request one attempt posts: none when the token failed. */
  function Attempt(e: TwitchEvent, reply: PostReply, sessionId: NString, currentUserId: NString): seq<Request>
  {
    if reply.Posted? then [SubscriptionRequest(e, sessionId, currentUserId)] else []
  }

  /** The requests of a resubscription sweep over `snapshot`, whose i-th
      attempt meets `reply(start + i)`: one request per attempt whose token
      was obtained, in snapshot order; a failed attempt is skipped and the
      sweep goes on. */
  function Resubscriptions(snapshot: seq<TwitchEvent>, start: nat, reply: nat -> PostReply,
                           sessionId: NString, currentUserId: NString): (posts: seq<Request>)
    ensures |posts| <= |snapshot|
    decreases |snapshot|
  {
    if |snapshot| == 0 then []
    else
      Attempt(snapshot[0], reply(start), sessionId, currentUserId)
      + Resubscriptions(snapshot[1..], start + 1, reply, sessionId, currentUserId)
  }

  /** When every token is obtained, the sweep posts one request per
      registered event, in registry order. */
  lemma {:induction false} ResubscriptionsAllPosted(snapshot: seq<TwitchEvent>, start: nat, reply: nat -> PostReply,
                                                   sessionId: NString, currentUserId: NString)
    requires forall i | start <= i < start + |snapshot| :: reply(i).Posted?
    ensures |Resubscriptions(snapshot, start, reply, sessionId, currentUserId)| == |snapshot|
    ensures forall i | 0 <= i < |snapshot| ::
      Resubscriptions(snapshot, start, reply, sessionId, currentUserId)[i] == SubscriptionRequest(snapshot[i], sessionId, currentUserId)
    decreases |snapshot|
  {
    if |snapshot| > 0 {
      ResubscriptionsAllPosted(snapshot[1..], start + 1, reply, sessionId, currentUserId);
    }
  }

  /** `ResubscribeToEventsAsync` as the source writes it: a loop over a
      snapshot of the registry, each attempt a resubscription whose
      exception is caught. It posts what `Resubscriptions` describes and
      leaves the handler as it was. */
  method ResubscribeToEvents(h: Handler, reply: nat -> PostReply, currentUserId: NString)
    returns (next: Handler, posts: seq<Request>)
    ensures next == h
    ensures posts == Resubscriptions(h.events, 0, reply, h.sessionId, currentUserId)
  {
    var snapshot := h.events;
    next := h;
    posts := [];
    var i := 0;
    while i < |snapshot|
      invariant 0 <= i <= |snapshot|
      invariant next == h
      invariant posts + Resubscriptions(snapshot[i..], i, reply, h.sessionId, currentUserId)
             == Resubscriptions(snapshot, 0, reply, h.sessionId, currentUserId)
    {
      var r := Subscribe(next, snapshot[i], true, reply(i), currentUserId);
      ResubscriptionsInvariant(h, snapshot, i, reply, currentUserId, posts);
      posts := posts + r.posts;
      next := r.next;
      i := i + 1;
    }
    assert snapshot[i..] == [];
  }

  /** The loop invariant survives one attempt. */
  lemma ResubscriptionsInvariant(h: Handler, snapshot: seq<TwitchEvent>, i: nat, reply: nat -> PostReply,
                                 currentUserId: NString, posts: seq<Request>)
    requires i < |snapshot|
    requires posts + Resubscriptions(snapshot[i..], i, reply, h.sessionId, currentUserId)
          == Resubscriptions(snapshot, 0, reply, h.sessionId, currentUserId)
    ensures Subscribe(h, snapshot[i], true, reply(i), currentUserId).next == h
    ensures posts + Subscribe(h, snapshot[i], true, reply(i), currentUserId).posts
          + Resubscriptions(snapshot[i + 1..], i + 1, reply, h.sessionId, currentUserId)
         == Resubscriptions(snapshot, 0, reply, h.sessionId, currentUserId)
  {
    ResubscriptionsStep(h, snapshot, i, reply, currentUserId);
    var now := Subscribe(h, snapshot[i], true, reply(i), currentUserId).posts;
    var later := Resubscriptions(snapshot[i + 1..], i + 1, reply, h.sessionId, currentUserId);
    assert posts + (now + later) == posts + now + later;
  }

  /** One attempt of the sweep leaves the handler as it was and posts the
      attempt's request, ahead of those of the attempts after it. */
  lemma ResubscriptionsStep(h: Handler, snapshot: seq<TwitchEvent>, i: nat, reply: nat -> PostReply,
                            currentUserId: NString)
    requires i < |snapshot|
    ensures Subscribe(h, snapshot[i], true, reply(i), currentUserId).next == h
    ensures Resubscriptions(snapshot[i..], i, reply, h.sessionId, currentUserId)
         == Subscribe(h, snapshot[i], true, reply(i), currentUserId).posts
          + Resubscriptions(snapshot[i + 1..], i + 1, reply, h.sessionId, currentUserId)
  {
    assert snapshot[i..][1..] == snapshot[i + 1..];
  }

  /** `ReconnectionHappened`: with the flag set, one sweep over the registry
      and the flag cleared; otherwise nothing. */
  function OnReconnect(h: Handler, reply: nat -> PostReply, currentUserId: NString): (r: Reaction)
    ensures h.reconnecting ==>
      r == Reaction(h.(reconnecting := false), None, Resubscriptions(h.events, 0, reply, h.sessionId, currentUserId), None)
    ensures !h.reconnecting ==> r == Reaction(h, None, [], None)
    ensures r.next.events == h.events && !r.next.reconnecting
  {
    if h.reconnecting then
      Reaction(h.(reconnecting := false), None, Resubscriptions(h.events, 0, reply, h.sessionId, currentUserId), None)
    else Reaction(h, None, [], None)
  }

  // ----- runs -----

  datatype Input =
    | Received(socket: nat, frame: Frame)
    | Disconnected(socket: nat)
    | Reconnected(socket: nat, replies: nat -> PostReply)
    | SubscribeCall(event: TwitchEvent, reply: PostReply)

  /** One input. Callbacks only come from sockets that exist; an input
      naming any other socket has no callback to run. */
  function Step(h: Handler, input: Input, listeners: set<Slot>, dir: Directory, currentUserId: NString): Reaction
  {
    match input
    case Received(s, frame) =>
      if s < |h.sockets| then OnMessage(h, s, frame, listeners, dir) else Reaction(h, None, [], None)
    case Disconnected(s) =>
      if s < |h.sockets| then Reaction(OnDisconnect(h, s), None, [], None) else Reaction(h, None, [], None)
    case Reconnected(s, replies) =>
      if s < |h.sockets| then OnReconnect(h, replies, currentUserId) else Reaction(h, None, [], None)
    case SubscribeCall(e, reply) => Subscribe(h, e, false, reply, currentUserId)
  }

  function Run(h: Handler, inputs: seq<Input>, listeners: set<Slot>, dir: Directory, currentUserId: NString): Handler
    decreases |inputs|
  {
    if |inputs| == 0 then h
    else Run(Step(h, inputs[0], listeners, dir, currentUserId).next, inputs[1..], listeners, dir, currentUserId)
  }

  /** A subscribe call whose post succeeded. */
  predicate Registers(input: Input)
  {
    input.SubscribeCall? && input.reply.Posted? && IsSuccessStatus(input.reply.status)
  }

  /** Over any run the handler stays well formed and the registry only grows
      at its end; it grows by exactly the events of the successful
      subscribe calls, in order. */
  lemma {:induction false} RunKeepsRegistry(h: Handler, inputs: seq<Input>, listeners: set<Slot>, dir: Directory,
                                            currentUserId: NString)
    requires Valid(h)
    ensures Valid(Run(h, inputs, listeners, dir, currentUserId))
    ensures Run(h, inputs, listeners, dir, currentUserId).events == h.events + Registered(inputs)
    decreases |inputs|
  {
    if |inputs| > 0 {
      var r := Step(h, inputs[0], listeners, dir, currentUserId);
      StepKeepsRegistry(h, inputs[0], listeners, dir, currentUserId);
      RunKeepsRegistry(r.next, inputs[1..], listeners, dir, currentUserId);
      assert Registered(inputs)
          == (if Registers(inputs[0]) then [inputs[0].event] else []) + Registered(inputs[1..]);
    }
  }

  /** One input keeps the handler well formed and grows the registry by at
      most the event of a successful subscribe call. */
  lemma StepKeepsRegistry(h: Handler, input: Input, listeners: set<Slot>, dir: Directory, currentUserId: NString)
    requires Valid(h)
    ensures Valid(Step(h, input, listeners, dir, currentUserId).next)
    ensures Step(h, input, listeners, dir, currentUserId).next.events
         == h.events + (if Registers(input) then [input.event] else [])
  {
    match input
    case Received(s, frame) =>
    case Disconnected(s) =>
    case Reconnected(s, replies) =>
    case SubscribeCall(e, reply) =>
  }

  /** The events of the successful subscribe calls, in order. */
  function Registered(inputs: seq<Input>): seq<TwitchEvent>
    decreases |inputs|
  {
    if |inputs| == 0 then []
    else (if Registers(inputs[0]) then [inputs[0].event] else []) + Registered(inputs[1..])
  }

  /** Only a welcome changes the session id: over a run without one, it
      stays what it was. */
  lemma {:induction false} SessionOnlyFromWelcome(h: Handler, inputs: seq<Input>, listeners: set<Slot>, dir: Directory,
                                                  currentUserId: NString)
    requires forall i | 0 <= i < |inputs| ::
      !(inputs[i].Received? && inputs[i].frame.Message? && MessageType(inputs[i].frame.json) == Some("session_welcome"))
    ensures Run(h, inputs, listeners, dir, currentUserId).sessionId == h.sessionId
    ensures Run(h, inputs, listeners, dir, currentUserId).active == h.active
    decreases |inputs|
  {
    if |inputs| > 0 {
      var r := Step(h, inputs[0], listeners, dir, currentUserId);
      assert r.next.sessionId == h.sessionId && r.next.active == h.active;
      assert forall i | 0 <= i < |inputs[1..]| :: inputs[1..][i] == inputs[i + 1];
      SessionOnlyFromWelcome(r.next, inputs[1..], listeners, dir, currentUserId);
    }
  }
}

=== FILE: json.dfy ===
/** An abstract JSON tree with the System.Text.Json accessors the source uses.
    Every accessor either yields a value or the exception the library throws. */
module Json {
  import opened Wrappers
  import opened Errors

  datatype Json =
    | JNull
    | JBool(b: bool)
    | JNumber(n: int)
    | JString(s: string)
    | JArray(items: seq<Json>)
    | JObject(fields: map<string, Json>)

  /** `JsonElement.GetProperty(name)`. */
  function GetProperty(j: Json, name: string): (r: Result<Json, Error>)
    ensures r.Success? <==> j.JObject? && name in j.fields
    ensures r.Success? ==> r.value == j.fields[name]
  {
    match j
    case JObject(fields) =>
      if name in fields then Success(fields[name]) else Failure(MissingProperty(name))
    case _ => Failure(NotAnObject)
  }

  /** `JsonElement.GetString()`: a JSON null reads as a null string. */
  function GetString(j: Json): (r: Result<NString, Error>)
    ensures r.Success? <==> j.JString? || j.JNull?
    ensures r == Success(None) <==> j.JNull?
    ensures j.JString? ==> r == Success(Some(j.s))
  {
    match j
    case JString(s) => Success(Some(s))
    case JNull => Success(None)
    case _ => Failure(NotAString)
  }

  /** The elements of an array (`EnumerateArray`, `GetArrayLength`). */
  function Items(j: Json): (r: Result<seq<Json>, Error>)
    ensures r.Success? <==> j.JArray?
    ensures r.Success? ==> r.value == j.items
  {
    match j
    case JArray(items) => Success(items)
    case _ => Failure(NotAnArray)
  }

  /** `element[i]`. */
  function Index(j: Json, i: int): (r: Result<Json, Error>)
    ensures r.Success? <==> j.JArray? && 0 <= i < |j.items|
    ensures r.Success? ==> r.value == j.items[i]
  {
    match j
    case JArray(items) =>
      if 0 <= i < |items| then Success(items[i]) else Failure(IndexOutOfRange(i))
    case _ => Failure(NotAnArray)
  }

  const Int16Min: int := -32768
  const Int16Max: int := 32767

  /** `GetInt16()`: only integral numbers in the 16-bit signed range. */
  function GetInt16(j: Json): (r: Result<int, Error>)
    ensures r.Success? <==> j.JNumber? && Int16Min <= j.n <= Int16Max
    ensures r.Success? ==> r.value == j.n
  {
    match j
    case JNumber(n) => if Int16Min <= n <= Int16Max then Success(n) else Failure(NotAnInt16)
    case _ => Failure(NotAnInt16)
  }

  /** `GetBoolean()`. */
  function GetBoolean(j: Json): (r: Result<bool, Error>)
    ensures r.Success? <==> j.JBool?
    ensures r.Success? ==> r.value == j.b
  {
    match j
    case JBool(b) => Success(b)
    case _ => Failure(NotABool)
  }

  /** Reference lookup of a property path: the value at `path`, or the first failure on the way. */
  function At(j: Json, path: seq<string>): Result<Json, Error>
    decreases |path|
  {
    if path == [] then Success(j)
    else
      match GetProperty(j, path[0])
      case Success(c) => At(c, path[1..])
      case Failure(e) => Failure(e)
  }

  /** The string at a property path. */
  function StringAt(j: Json, path: seq<string>): Result<NString, Error>
  {
    match At(j, path)
    case Success(v) => GetString(v)
    case Failure(e) => Failure(e)
  }

  lemma At1(j: Json, a: string)
    ensures At(j, [a]) == GetProperty(j, a)
  {
    assert [a][1..] == [];
  }

  lemma At2(j: Json, a: string, b: string)
    ensures At(j, [a, b]) == (match GetProperty(j, a)
                              case Success(c) => GetProperty(c, b)
                              case Failure(e) => Failure(e))
  {
    assert [a, b][1..] == [b];
    if GetProperty(j, a).Success? {
      At1(GetProperty(j, a).value, b);
    }
  }

  lemma At3(j: Json, a: string, b: string, c: string)
    ensures At(j, [a, b, c]) == (match GetProperty(j, a)
                                 case Success(x) => At(x, [b, c])
                                 case Failure(e) => Failure(e))
  {
    assert [a, b, c][1..] == [b, c];
  }

  lemma StringAt2(j: Json, a: string, b: string)
    ensures StringAt(j, [a, b]) == (match GetProperty(j, a)
                                    case Success(c) =>
                                      (match GetProperty(c, b)
                                       case Success(v) => GetString(v)
                                       case Failure(e) => Failure(e))
                                    case Failure(e) => Failure(e))
  {
    At2(j, a, b);
  }

  lemma StringAt3(j: Json, a: string, b: string, c: string)
    ensures StringAt(j, [a, b, c]) == (match GetProperty(j, a)
                                       case Success(x) => StringAt(x, [b, c])
                                       case Failure(e) => Failure(e))
  {
    At3(j, a, b, c);
  }

  /** Looking up `p + q` is looking up `p` and then `q` from there. */
  lemma {:induction false} AtAppend(j: Json, p: seq<string>, q: seq<string>)
    ensures At(j, p + q) == (match At(j, p) case Success(c) => At(c, q) case Failure(e) => Failure(e))
    decreases |p|
  {
    if p == [] {
      assert p + q == q;
    } else {
      assert (p + q)[0] == p[0];
      assert (p + q)[1..] == p[1..] + q;
      match GetProperty(j, p[0])
      case Success(c) => AtAppend(c, p[1..], q);
      case Failure(e) =>
    }
  }

  /** A path that fails at some prefix fails however it is extended. */
  lemma MissingPrefixFails(j: Json, p: seq<string>, q: seq<string>)
    requires At(j, p).Failure?
    ensures At(j, p + q).Failure?
  {
    AtAppend(j, p, q);
  }
}

=== FILE: legacyargs.dfy ===
/** The older generation's notification decoders (`Events/Args`) and the
    `TwitchChatter` they build a chat message on. Users are constructed from
    a login (`new TwitchUser(login)`), which is the lookup collaborator. */
module LegacyArgs {
  import opened Wrappers
  import opened Errors
  import opened Json
  import opened Users
  import EventArgs

  /** A `TwitchBadge`. */
  datatype Badge = Badge(setId: NString, id: NString, info: NString)

  datatype Chatter = Chatter(
    user: TwitchUser,
    broadcaster: TwitchUser,
    hexColor: NString,
    badges: seq<Badge>,
    isSubscriber: bool,
    isModerator: bool,
    isBroadcaster: bool,
    isVip: bool)

  datatype ChannelMessageArgs = ChannelMessageArgs(messageContent: NString, messageId: NString,
                                                   broadcaster: TwitchUser, chatter: Chatter)
  datatype FollowArgs = FollowArgs(broadcaster: TwitchUser, follower: TwitchUser, followedAt: string)
  datatype PrivateMessageArgs = PrivateMessageArgs(messageContent: NString, messageId: NString,
                                                   sender: TwitchUser, receiver: TwitchUser)

  /** One element of `event.badges`: `set_id`, `id` and `info`, in that order. */
  function DecodeBadge(j: Json): (r: Result<Badge, Error>)
    ensures r.Success? <==> Field(j, "set_id").Success? && Field(j, "id").Success? && Field(j, "info").Success?
    ensures r.Success? ==> r.value == Badge(Field(j, "set_id").value, Field(j, "id").value, Field(j, "info").value)
  {
    var setId :- Field(j, "set_id");
    var id :- Field(j, "id");
    var info :- Field(j, "info");
    Success(Badge(setId, id, info))
  }

  /** The badge copy loop: one badge per element, in order; the first
      element that does not decode aborts the constructor. */
  function DecodeBadges(items: seq<Json>): (r: Result<seq<Badge>, Error>)
    ensures r.Success? <==> forall i | 0 <= i < |items| :: DecodeBadge(items[i]).Success?
    ensures r.Success? ==> |r.value| == |items|
    ensures r.Success? ==> forall i | 0 <= i < |items| :: r.value[i] == DecodeBadge(items[i]).value
    decreases |items|
  {
    if |items| == 0 then Success([])
    else
      var head :- DecodeBadge(items[0]);
      var tail :- DecodeBadges(items[1..]);
      assert forall i | 1 <= i < |items| :: items[1..][i - 1] == items[i];
      Success([head] + tail)
  }

  /** A flag the loop raises when it meets a badge of set `name`. */
  function HasSet(badges: seq<Badge>, name: string): (r: bool)
    ensures r <==> exists i | 0 <= i < |badges| :: badges[i].setId == Some(name)
    decreases |badges|
  {
    if |badges| == 0 then false
    else if badges[0].setId == Some(name) then true
    else
      var rest := HasSet(badges[1..], name);
      assert forall i | 1 <= i < |badges| :: badges[1..][i - 1] == badges[i];
      rest
  }

  /** `new TwitchChatter(payload)`: the user from `chatter_user_login`, then
      the broadcaster from `broadcaster_user_login`, the colour, and the
      badges with the four flags they raise. */
  function DecodeChatter(payload: Json, lookup: Resolver): (r: Result<Chatter, Error>)
    ensures r.Success? <==>
      && StringAt(payload, ["event", "chatter_user_login"]).Success?
      && lookup(ByLogin(StringAt(payload, ["event", "chatter_user_login"]).value)).Success?
      && StringAt(payload, ["event", "broadcaster_user_login"]).Success?
      && lookup(ByLogin(StringAt(payload, ["event", "broadcaster_user_login"]).value)).Success?
      && StringAt(payload, ["event", "color"]).Success?
      && At(payload, ["event", "badges"]).Success? && At(payload, ["event", "badges"]).value.JArray?
      && forall i | 0 <= i < |At(payload, ["event", "badges"]).value.items| ::
           DecodeBadge(At(payload, ["event", "badges"]).value.items[i]).Success?
    ensures r.Success? ==>
      && StringAt(payload, ["event", "chatter_user_login"]).Success?
      && lookup(ByLogin(StringAt(payload, ["event", "chatter_user_login"]).value)).Success?
      && r.value.user == lookup(ByLogin(StringAt(payload, ["event", "chatter_user_login"]).value)).value
      && StringAt(payload, ["event", "broadcaster_user_login"]).Success?
      && lookup(ByLogin(StringAt(payload, ["event", "broadcaster_user_login"]).value)).Success?
      && r.value.broadcaster == lookup(ByLogin(StringAt(payload, ["event", "broadcaster_user_login"]).value)).value
      && StringAt(payload, ["event", "color"]).Success?
      && r.value.hexColor == StringAt(payload, ["event", "color"]).value
    ensures r.Success? ==>
      && At(payload, ["event", "badges"]).Success? && At(payload, ["event", "badges"]).value.JArray?
      && var items := At(payload, ["event", "badges"]).value.items;
         && |r.value.badges| == |items|
         && forall i | 0 <= i < |items| :: DecodeBadge(items[i]).Success? && r.value.badges[i] == DecodeBadge(items[i]).value
    ensures r.Success? ==>
      && r.value.isSubscriber == HasSet(r.value.badges, "subscriber")
      && r.value.isModerator == HasSet(r.value.badges, "moderator")
      && r.value.isBroadcaster == HasSet(r.value.badges, "broadcaster")
      && r.value.isVip == HasSet(r.value.badges, "vip")
  {
    StringAt2(payload, "event", "chatter_user_login");
    StringAt2(payload, "event", "broadcaster_user_login");
    StringAt2(payload, "event", "color");
    At2(payload, "event", "badges");
    var ev :- GetProperty(payload, "event");
    var login :- Field(ev, "chatter_user_login");
    var user :- lookup(ByLogin(login));
    var broadcasterLogin :- Field(ev, "broadcaster_user_login");
    var broadcaster :- lookup(ByLogin(broadcasterLogin));
    var color :- Field(ev, "color");
    var badgesE :- GetProperty(ev, "badges");
    var items :- Items(badgesE);
    var badges :- DecodeBadges(items);
    Success(Chatter(user, broadcaster, color, badges,
                    HasSet(badges, "subscriber"), HasSet(badges, "moderator"),
                    HasSet(badges, "broadcaster"), HasSet(badges, "vip")))
  }

  /** With no badges every flag stays false, and badges of other sets raise
      none of them. */
  lemma FlagsOnlyFromTheirSets(badges: seq<Badge>)
    requires forall i | 0 <= i < |badges| ::
      badges[i].setId !in {Some("subscriber"), Some("moderator"), Some("broadcaster"), Some("vip")}
    ensures !HasSet(badges, "subscriber") && !HasSet(badges, "moderator")
    ensures !HasSet(badges, "broadcaster") && !HasSet(badges, "vip")
  {
  }

  /** `ChannelMesssageReceivedArgs`: the chatter from the whole payload, the
      broadcaster taken from the chatter (no second lookup), then the message
      id and text. */
  function DecodeChannelMessage(payload: Json, lookup: Resolver): (r: Result<ChannelMessageArgs, Error>)
    ensures r.Success? <==>
      && DecodeChatter(payload, lookup).Success?
      && StringAt(payload, ["event", "message_id"]).Success?
      && StringAt(payload, ["event", "message", "text"]).Success?
    ensures r.Success? ==>
      && r.value.chatter == DecodeChatter(payload, lookup).value
      && r.value.broadcaster == r.value.chatter.broadcaster
      && r.value.messageId == StringAt(payload, ["event", "message_id"]).value
      && r.value.messageContent == StringAt(payload, ["event", "message", "text"]).value
  {
    StringAt2(payload, "event", "message_id");
    StringAt3(payload, "event", "message", "text");
    StringAt2(payload, "event", "chatter_user_login");
    var chatter :- DecodeChatter(payload, lookup);
    // the chatter was read under `event`, so it is there
    var ev := GetProperty(payload, "event").value;
    StringAt2(ev, "message", "text");
    var messageId :- Field(ev, "message_id");
    var message :- GetProperty(ev, "message");
    var content :- Field(message, "text");
    Success(ChannelMessageArgs(content, messageId, chatter.broadcaster, chatter))
  }

  /** `ChannelFollowReceicvedArgs` of the older namespace. */
  function DecodeFollow(payload: Json, lookup: Resolver): (r: Result<FollowArgs, Error>)
    ensures r.Success? <==>
      && StringAt(payload, ["event", "broadcaster_user_login"]).Success?
      && lookup(ByLogin(StringAt(payload, ["event", "broadcaster_user_login"]).value)).Success?
      && StringAt(payload, ["event", "user_login"]).Success?
      && lookup(ByLogin(StringAt(payload, ["event", "user_login"]).value)).Success?
      && At(payload, ["event", "followed_at"]).Success?
      && At(payload, ["event", "followed_at"]).value.JString?
    ensures r.Success? ==>
      && r.value.broadcaster == lookup(ByLogin(StringAt(payload, ["event", "broadcaster_user_login"]).value)).value
      && r.value.follower == lookup(ByLogin(StringAt(payload, ["event", "user_login"]).value)).value
      && r.value.followedAt == At(payload, ["event", "followed_at"]).value.s
  {
    StringAt2(payload, "event", "broadcaster_user_login");
    StringAt2(payload, "event", "user_login");
    At2(payload, "event", "followed_at");
    var ev :- GetProperty(payload, "event");
    var broadcasterLogin :- Field(ev, "broadcaster_user_login");
    var broadcaster :- lookup(ByLogin(broadcasterLogin));
    var followerLogin :- Field(ev, "user_login");
    var follower :- lookup(ByLogin(followerLogin));
    var followedAtE :- GetProperty(ev, "followed_at");
    var followedAt :- EventArgs.DateTimeText(followedAtE);
    Success(FollowArgs(broadcaster, follower, followedAt))
  }

  /** `PrivateMessageReceivedArgs`. */
  function DecodePrivateMessage(payload: Json, lookup: Resolver): (r: Result<PrivateMessageArgs, Error>)
    ensures r.Success? <==>
      && StringAt(payload, ["event", "from_user_login"]).Success?
      && lookup(ByLogin(StringAt(payload, ["event", "from_user_login"]).value)).Success?
      && StringAt(payload, ["event", "to_user_login"]).Success?
      && lookup(ByLogin(StringAt(payload, ["event", "to_user_login"]).value)).Success?
      && StringAt(payload, ["event", "whisper_id"]).Success?
      && StringAt(payload, ["event", "whisper", "text"]).Success?
    ensures r.Success? ==>
      && r.value.sender == lookup(ByLogin(StringAt(payload, ["event", "from_user_login"]).value)).value
      && r.value.receiver == lookup(ByLogin(StringAt(payload, ["event", "to_user_login"]).value)).value
      && r.value.messageId == StringAt(payload, ["event", "whisper_id"]).value
      && r.value.messageContent == StringAt(payload, ["event", "whisper", "text"]).value
  {
    StringAt2(payload, "event", "from_user_login");
    StringAt2(payload, "event", "to_user_login");
    StringAt2(payload, "event", "whisper_id");
    StringAt3(payload, "event", "whisper", "text");
    var ev :- GetProperty(payload, "event");
    StringAt2(ev, "whisper", "text");
    var senderLogin :- Field(ev, "from_user_login");
    var sender :- lookup(ByLogin(senderLogin));
    var receiverLogin :- Field(ev, "to_user_login");
    var receiver :- lookup(ByLogin(receiverLogin));
    var messageId :- Field(ev, "whisper_id");
    var whisper :- GetProperty(ev, "whisper");
    var content :- Field(whisper, "text");
    Success(PrivateMessageArgs(content, messageId, sender, receiver))
  }

  // ----- the two generations side by side -----

  /** Given the same lookup, the older whisper decoder succeeds exactly when
      the newer one does and reads the same fields. */
  lemma PrivateMessageMatchesWhisper(payload: Json, lookup: Resolver)
    ensures DecodePrivateMessage(payload, lookup).Success? <==> EventArgs.DecodeWhisper(payload, lookup).Success?
    ensures DecodePrivateMessage(payload, lookup).Success? ==>
      var before := DecodePrivateMessage(payload, lookup).value;
      var after := EventArgs.DecodeWhisper(payload, lookup).value;
      before.sender == after.sender && before.receiver == after.receiver
      && before.messageId == after.messageId && before.messageContent == after.messageContent
  {
  }

  /** The older chat decoder reads everything the newer one reads, and more
      (the colour and the badges): whenever it succeeds, the newer one
      succeeds with the same message, broadcaster and chatting user. */
  lemma ChannelMessageRefinesChatMessage(payload: Json, lookup: Resolver)
    ensures DecodeChannelMessage(payload, lookup).Success? ==>
      && EventArgs.DecodeChatMessage(payload, lookup).Success?
      && var before := DecodeChannelMessage(payload, lookup).value;
         var after := EventArgs.DecodeChatMessage(payload, lookup).value;
         before.messageId == after.messageId && before.messageContent == after.messageContent
         && before.broadcaster == after.broadcaster && before.chatter.user == after.chatter
  {
  }
}

=== FILE: legacyclient.dfy ===
/** The older generation's `TwitchClient`: token fields with a cache that
    stores whatever it regenerates, the grant choice of `StartAsync`, the
    two constructors (which look the current user up through the client
    being built), and the user-facing calls of the older `TwitchUser`. */
module LegacyClient {
  import opened Wrappers
  import opened Errors
  import opened Json
  import opened Users
  import opened Tokens
  import NewClient = Client

  /** The fields beyond the shared token set: the code grant's inputs. */
  datatype Credentials = Credentials(tokens: Tokens, oauthCode: NString, redirectUri: NString)

  datatype Client = Client(credentials: Credentials, currentUser: TwitchUser)

  /** `ValidTokenCheckAsync`: a null token is validated as the text "null". */
  function TokenText(token: NString): (r: string)
    ensures token.Some? ==> r == token.value
    ensures token.None? ==> r == "null"
  {
    match token
    case Some(s) => s
    case None => "null"
  }

  predicate IsValid(api: Api, token: NString)
  {
    IsSuccessStatus(api(Validate(TokenText(token))).status)
  }

  /** `generateUserTokenAsnyc(code, redirect_uri)`. */
  function GenerateUserToken(t: Tokens, code: NString, redirectUri: NString, api: Api): Outcome<NString>
  {
    ExchangeUserToken(t, AuthorizationCodeForm(t, code, redirectUri), s => UserTokenFailed(s), api)
  }

  /** `GetAppAccessToken`: a token that validates is returned with no
      exchange; otherwise a new one is generated and stored. */
  function GetAppAccessToken(t: Tokens, api: Api): (o: Outcome<NString>)
    ensures |o.calls| >= 1 && o.calls[0] == Validate(TokenText(t.appAccessToken))
    ensures |o.calls| <= 2 && TokenTraffic(o.calls)
    ensures IsValid(api, t.appAccessToken) ==> o == Outcome(t, Success(t.appAccessToken), o.calls) && |o.calls| == 1
    ensures !IsValid(api, t.appAccessToken) ==>
      && o.calls == [Validate(TokenText(t.appAccessToken)), Post(TokenEndpoint, None, ClientCredentialsForm(t))]
      && o.result == GenerateAppToken(t, api).result
    ensures o.result.Success? ==> o.tokens == t.(appAccessToken := o.result.value)
    ensures o.result.Failure? ==> o.tokens == t
  {
    var check := Validate(TokenText(t.appAccessToken));
    if IsValid(api, t.appAccessToken) then Outcome(t, Success(t.appAccessToken), [check])
    else
      var g := GenerateAppToken(t, api);
      match g.result
      case Success(token) => Outcome(t.(appAccessToken := token), g.result, [check] + g.calls)
      case Failure(_) => Outcome(t, g.result, [check] + g.calls)
  }

  /** `GetUserAccessToken`: a token that validates is returned with no
      exchange; otherwise the refresh grant runs and rotates both tokens. */
  function GetUserAccessToken(t: Tokens, api: Api): (o: Outcome<NString>)
    ensures |o.calls| >= 1 && o.calls[0] == Validate(TokenText(t.userAccessToken))
    ensures |o.calls| <= 2 && TokenTraffic(o.calls)
    ensures IsValid(api, t.userAccessToken) ==> o == Outcome(t, Success(t.userAccessToken), o.calls) && |o.calls| == 1
    ensures !IsValid(api, t.userAccessToken) ==>
      var r := RefreshUserToken(t, api);
      o == Outcome(r.tokens, r.result, [o.calls[0]] + r.calls)
  {
    var check := Validate(TokenText(t.userAccessToken));
    if IsValid(api, t.userAccessToken) then Outcome(t, Success(t.userAccessToken), [check])
    else
      var r := RefreshUserToken(t, api);
      Outcome(r.tokens, r.result, [check] + r.calls)
  }

  /** `StartAsync`: the code grant when the refresh token is exactly "",
      the refresh grant otherwise, then always a fresh app token; `OnReady`
      fires when both succeed. The first exception ends the start. */
  function Start(c: Credentials, api: Api): (o: Outcome<()>)
    ensures |o.calls| >= 1
    ensures c.tokens.refreshToken == Some("") ==>
      o.calls[0] == Post(TokenEndpoint, None, AuthorizationCodeForm(c.tokens, c.oauthCode, c.redirectUri))
    ensures c.tokens.refreshToken != Some("") ==> o.calls[0] == Post(TokenEndpoint, None, RefreshForm(c.tokens))
    ensures c.tokens.refreshToken == Some("") <==> o.calls[0].Post? && FormValue(o.calls[0].form, "grant_type") == Some("authorization_code")
    ensures c.tokens.refreshToken != Some("") <==> o.calls[0].Post? && FormValue(o.calls[0].form, "grant_type") == Some("refresh_token")
    ensures o.result.Success? ==>
      && |o.calls| == 2 && api(o.calls[0]).status == OK && api(o.calls[1]).status == OK
      && o.calls[1].Post? && FormValue(o.calls[1].form, "grant_type") == Some("client_credentials")
      && StringAt(api(o.calls[0]).body, ["access_token"]) == Success(o.tokens.userAccessToken)
      && StringAt(api(o.calls[0]).body, ["refresh_token"]) == Success(o.tokens.refreshToken)
      && StringAt(api(o.calls[1]).body, ["access_token"]) == Success(o.tokens.appAccessToken)
    ensures o.tokens.clientId == c.tokens.clientId && o.tokens.clientSecret == c.tokens.clientSecret
  {
    var first := if c.tokens.refreshToken == Some("")
                 then GenerateUserToken(c.tokens, c.oauthCode, c.redirectUri, api)
                 else RefreshUserToken(c.tokens, api);
    match first.result
    case Failure(e) => Outcome(first.tokens, Failure(e), first.calls)
    case Success(user) =>
      var t1 := first.tokens.(userAccessToken := user);
      var app := GenerateAppToken(t1, api);
      match app.result
      case Failure(e) => Outcome(t1, Failure(e), first.calls + app.calls)
      case Success(token) => Outcome(t1.(appAccessToken := token), Success(()), first.calls + app.calls)
  }

  /** The request of `getUserByLoginAsync`; the login is spliced in as it is. */
  function UsersByLoginUrl(login: NString): string
  {
    "https://api.twitch.tv/helix/users?login=" + Render(login)
  }

  /** `new TwitchUser(client, userName)`: the app token comes from the
      client's cache (and may be stored there), then the lookup's status
      table and `data[0]`. */
  function LookupUser(t: Tokens, login: NString, api: Api): (o: Outcome<TwitchUser>)
    ensures var a := GetAppAccessToken(t, api);
      && o.tokens == a.tokens
      && |a.calls| <= |o.calls| && o.calls[..|a.calls|] == a.calls
    ensures var a := GetAppAccessToken(t, api);
      a.result.Failure? ==> TokenTraffic(o.calls) && o.result == Failure(a.result.error)
    ensures var a := GetAppAccessToken(t, api);
      a.result.Success? ==>
        && |o.calls| == |a.calls| + 1
        && o.calls[|o.calls| - 1] == Get(UsersByLoginUrl(login), "Bearer " + Render(a.result.value))
    ensures o.result.Success? ==>
      var reply := api(o.calls[|o.calls| - 1]);
      && GetAppAccessToken(t, api).result.Success?
      && o.calls[|o.calls| - 1].Get? && o.calls[|o.calls| - 1].url == UsersByLoginUrl(login)
      && reply.status == OK
      && At(reply.body, ["data"]).Success? && Index(At(reply.body, ["data"]).value, 0).Success?
      && o.result == UserFromData(Index(At(reply.body, ["data"]).value, 0).value)
  {
    var a := GetAppAccessToken(t, api);
    match a.result
    case Failure(e) => Outcome(a.tokens, Failure(e), a.calls)
    case Success(token) =>
      var call := Get(UsersByLoginUrl(login), "Bearer " + Render(token));
      var reply := api(call);
      Outcome(a.tokens, LegacyUserByLogin(reply.status, reply.body), a.calls + [call])
  }

  /** What a constructor produced: the client, or the exception that left
      no object behind, and the calls made on the way. */
  datatype Built = Built(client: Result<Client, Error>, calls: seq<Call>)

  /** The construction both constructors share: empty app and user tokens,
      then the current user looked up through the client being built. */
  function Construct(c: Credentials, username: NString, api: Api): (b: Built)
    requires c.tokens.appAccessToken == Some("") && c.tokens.userAccessToken == Some("")
    ensures |b.calls| >= 1 && b.calls[0] == Validate("")
    ensures b.client.Failure? <==> LookupUser(c.tokens, username, api).result.Failure?
    ensures b.client.Success? ==>
      && b.client.value.currentUser == LookupUser(c.tokens, username, api).result.value
      && b.client.value.credentials == c.(tokens := LookupUser(c.tokens, username, api).tokens)
      && b.client.value.credentials.tokens.userAccessToken == Some("")
      && b.client.value.credentials.tokens.refreshToken == c.tokens.refreshToken
  {
    var lookup := LookupUser(c.tokens, username, api);
    match lookup.result
    case Failure(e) => Built(Failure(e), lookup.calls)
    case Success(user) => Built(Success(Client(c.(tokens := lookup.tokens), user)), lookup.calls)
  }

  /** The authorization-code constructor: no refresh token yet. */
  function NewWithCode(clientId: NString, clientSecret: NString, username: NString, code: NString,
                       redirectUri: NString, api: Api): (b: Built)
    ensures b.client.Success? ==>
      var cr := b.client.value.credentials;
      && cr.oauthCode == code && cr.redirectUri == redirectUri
      && cr.tokens.refreshToken == Some("") && cr.tokens.userAccessToken == Some("")
      && cr.tokens.clientId == clientId && cr.tokens.clientSecret == clientSecret
  {
    Construct(Credentials(Tokens(clientId, clientSecret, Some(""), Some(""), Some("")), code, redirectUri), username, api)
  }

  /** The refresh-token constructor: the code and redirect URI are emptied. */
  function NewWithRefreshToken(clientId: NString, clientSecret: NString, username: NString, refreshToken: NString,
                               api: Api): (b: Built)
    ensures b.client.Success? ==>
      var cr := b.client.value.credentials;
      && cr.oauthCode == Some("") && cr.redirectUri == Some("")
      && cr.tokens.refreshToken == refreshToken && cr.tokens.userAccessToken == Some("")
      && cr.tokens.clientId == clientId && cr.tokens.clientSecret == clientSecret
  {
    Construct(Credentials(Tokens(clientId, clientSecret, Some(""), refreshToken, Some("")), Some(""), Some("")),
              username, api)
  }

  /** A client built from a refresh token starts with the refresh grant; one
      built from a code starts with the code grant. */
  lemma GrantFollowsConstructor(clientId: NString, clientSecret: NString, username: NString, code: NString,
                                redirectUri: NString, refreshToken: NString, api: Api)
    ensures var b := NewWithCode(clientId, clientSecret, username, code, redirectUri, api);
      b.client.Success? ==>
        var o := Start(b.client.value.credentials, api);
        FormValue(o.calls[0].form, "grant_type") == Some("authorization_code")
        && FormValue(o.calls[0].form, "code") == Some(Render(code))
    ensures var b := NewWithRefreshToken(clientId, clientSecret, username, refreshToken, api);
      b.client.Success? && refreshToken != Some("") ==>
        var o := Start(b.client.value.credentials, api);
        FormValue(o.calls[0].form, "grant_type") == Some("refresh_token")
        && FormValue(o.calls[0].form, "refresh_token") == Some(Render(refreshToken))
  {
  }

  // ----- the older TwitchUser's requests -----

  const ChatEndpoint: string := "https://api.twitch.tv/helix/chat/messages"

  /** `SendMessageAsync`: a user token from the cache, then the chat form
      posted with it; the response is read as `SendResponse` says. */
  function SendMessage(c: Client, target: TwitchUser, content: string, replyId: NString, api: Api): (o: Outcome<()>)
    ensures var u := GetUserAccessToken(c.credentials.tokens, api);
      && o.tokens == u.tokens
      && |u.calls| <= |o.calls| && o.calls[..|u.calls|] == u.calls
    ensures var u := GetUserAccessToken(c.credentials.tokens, api);
      u.result.Failure? ==> TokenTraffic(o.calls) && o.result == Failure(u.result.error)
    ensures var u := GetUserAccessToken(c.credentials.tokens, api);
      u.result.Success? ==>
        var post := o.calls[|o.calls| - 1];
        && |o.calls| == |u.calls| + 1
        && post.Post? && post.url == ChatEndpoint && post.bearer == Some(Render(u.result.value))
        && FormValue(post.form, "broadcaster_id") == Some(Render(target.id))
        && FormValue(post.form, "sender_id") == Some(Render(c.currentUser.id))
        && FormValue(post.form, "message") == Some(content)
        && FormValue(post.form, "reply_parent_message_id") == replyId
        && (api(post).status != OK ==> o.result == Failure(SendFailed(api(post).status)))
        && (api(post).status == OK && o.result.Failure? ==>
              SentId(api(post).body).Failure? && o.result.error == SentId(api(post).body).error)
    ensures o.result.Success? <==>
      var post := o.calls[|o.calls| - 1];
      && GetUserAccessToken(c.credentials.tokens, api).result.Success?
      && post.Post? && post.url == ChatEndpoint && api(post).status == OK
      && SentId(api(post).body).Success?
  {
    var u := GetUserAccessToken(c.credentials.tokens, api);
    match u.result
    case Failure(e) => Outcome(u.tokens, Failure(e), u.calls)
    case Success(token) =>
      var call := Post(ChatEndpoint, Some(Render(token)), ChatForm(target.id, c.currentUser.id, content, replyId));
      var reply := api(call);
      Outcome(u.tokens, SendResponse(reply.status, reply.body), u.calls + [call])
  }

  /** `SendWhisperAsync`: the whisper is posted from the current user to
      `target`; the response is not read. */
  function SendWhisper(c: Client, target: TwitchUser, content: string, api: Api): (o: Outcome<()>)
    ensures var u := GetUserAccessToken(c.credentials.tokens, api);
      && o.tokens == u.tokens
      && |u.calls| <= |o.calls| && o.calls[..|u.calls|] == u.calls
      && (o.result.Success? <==> u.result.Success?)
    ensures var u := GetUserAccessToken(c.credentials.tokens, api);
      u.result.Failure? ==> TokenTraffic(o.calls) && o.result == Failure(u.result.error)
    ensures var u := GetUserAccessToken(c.credentials.tokens, api);
      u.result.Success? ==>
        var post := o.calls[|o.calls| - 1];
        && |o.calls| == |u.calls| + 1
        && post.Post? && post.url == WhisperUrl(c.currentUser.id, target.id)
        && post.bearer == Some(Render(u.result.value))
        && |post.form| == 1 && FormValue(post.form, "message") == Some(content)
  {
    var u := GetUserAccessToken(c.credentials.tokens, api);
    match u.result
    case Failure(e) => Outcome(u.tokens, Failure(e), u.calls)
    case Success(token) =>
      Outcome(u.tokens, Success(()), u.calls + [Post(WhisperUrl(c.currentUser.id, target.id), Some(Render(token)),
                                                     [("message", content)])])
  }

  /** A cached app token that validates is reused: the lookup makes no
      token exchange and leaves the tokens as they were. */
  lemma ValidAppTokenReused(t: Tokens, login: NString, api: Api)
    requires IsValid(api, t.appAccessToken)
    ensures LookupUser(t, login, api).tokens == t
    ensures forall i | 0 <= i < |LookupUser(t, login, api).calls| :: !LookupUser(t, login, api).calls[i].Post?
  {
  }

  /** Once regenerated, the app token is stored: if the endpoint's token
      then validates, the next call reuses it with no exchange. */
  lemma RegeneratedAppTokenCached(t: Tokens, api: Api)
    requires !IsValid(api, t.appAccessToken)
    requires GetAppAccessToken(t, api).result.Success?
    requires IsValid(api, GetAppAccessToken(t, api).result.value)
    ensures var second := GetAppAccessToken(GetAppAccessToken(t, api).tokens, api);
      |second.calls| == 1 && second.result == GetAppAccessToken(t, api).result
  {
  }

  /** Both generations send alike: with a user token present, the older
      client's chat message and whisper make the same calls, store the same
      tokens and return the same results as the newer client's. Only a null
      token is validated differently, as "null" here and as "" there. */
  lemma GenerationsSendAlike(c: Client, n: NewClient.TwitchClient, target: TwitchUser, content: string,
                             replyId: NString, api: Api)
    requires n.tokens == c.credentials.tokens && n.currentUser == c.currentUser
    requires c.credentials.tokens.userAccessToken.Some?
    ensures SendMessage(c, target, content, replyId, api) == NewClient.SendChatMessage(n, target, content, replyId, api)
    ensures SendWhisper(c, target, content, api) == NewClient.SendWhisper(n, target, content, api)
  {
  }
}

=== FILE: logs.dfy ===
/** `TwitchSharpLogs`: a prefix template with `{DateTime}` and `{LogLevel}`
    placeholders, a minimum level below which nothing is written, a
    partial reconfiguration, and an `OnLog` event raised for every call.
    Console colours are not modelled; what is written is a sequence of
    `Write` and `WriteLine` pieces. */
module Logs {
  import Wrappers
  import Errors
  import Text

  /** `Microsoft.Extensions.Logging.LogLevel`, in declaration order. */
  datatype LogLevel = Trace | Debug | Information | Warning | Error | Critical | None

  function Rank(l: LogLevel): nat
  {
    match l
    case Trace => 0
    case Debug => 1
    case Information => 2
    case Warning => 3
    case Error => 4
    case Critical => 5
    case None => 6
  }

  /** `logLevel.ToString()`. */
  function LevelName(l: LogLevel): (r: string)
    ensures 0 < |r| <= 11
  {
    match l
    case Trace => "Trace"
    case Debug => "Debug"
    case Information => "Information"
    case Warning => "Warning"
    case Error => "Error"
    case Critical => "Critical"
    case None => "None"
  }

  /** A `ConsoleColor` value; only the prefix colour is kept. */
  type Color = nat

  const Magenta: Color := 13

  /** The logger's four fields. */
  datatype Logger = Logger(prefix: string, dateTimeFormat: string, prefixColor: Color, minimal: LogLevel)

  const DateTimeKey: string := "{DateTime}"
  const LevelKey: string := "{LogLevel}"

  /** The default template, `[{DateTime} TwitchSharp - {LogLevel}] `. */
  const DefaultTail: string := " TwitchSharp - " + LevelKey + "] "
  const DefaultTemplate: string := "[" + DateTimeKey + DefaultTail

  const Defaults: Logger := Logger(DefaultTemplate, "dd.MM.yyyy HH:mm:ss", Magenta, Information)

  /** `LogConfig`; every field may be null. */
  datatype LogConfig = LogConfig(
    prefix: Wrappers.NString, dateTimeFormat: Wrappers.NString,
    prefixColor: Wrappers.Option<Color>, minimal: Wrappers.Option<LogLevel>)

  /** `ConfigureLogging`: the non-null prefix, colour and minimum level are
      taken; the configured date format is ignored. */
  function ConfigureLogging(l: Logger, conf: LogConfig): (r: Logger)
    ensures r.prefix == (if conf.prefix.Some? then conf.prefix.value else l.prefix)
    ensures r.prefixColor == (if conf.prefixColor.Some? then conf.prefixColor.value else l.prefixColor)
    ensures r.minimal == (if conf.minimal.Some? then conf.minimal.value else l.minimal)
    ensures r.dateTimeFormat == l.dateTimeFormat
  {
    var l1 := if conf.prefix.Some? then l.(prefix := conf.prefix.value) else l;
    var l2 := if conf.prefixColor.Some? then l1.(prefixColor := conf.prefixColor.value) else l1;
    if conf.minimal.Some? then l2.(minimal := conf.minimal.value) else l2
  }

  /** Several configurations, applied in order. */
  function Configure(l: Logger, confs: seq<LogConfig>): Logger
    decreases |confs|
  {
    if |confs| == 0 then l else ConfigureLogging(Configure(l, confs[..|confs| - 1]), confs[|confs| - 1])
  }

  /** The minimum level set by the latest configuration that sets one. */
  function LastMinimal(l: Logger, confs: seq<LogConfig>): LogLevel
    decreases |confs|
  {
    if |confs| == 0 then l.minimal
    else if confs[|confs| - 1].minimal.Some? then confs[|confs| - 1].minimal.value
    else LastMinimal(l, confs[..|confs| - 1])
  }

  /** Whatever is configured, the date format stays the one the logger
      started with, and the threshold is the latest one configured. */
  lemma {:induction false} ConfigureKeepsDateFormat(l: Logger, confs: seq<LogConfig>)
    ensures Configure(l, confs).dateTimeFormat == l.dateTimeFormat
    ensures Configure(l, confs).minimal == LastMinimal(l, confs)
    decreases |confs|
  {
    if |confs| > 0 {
      ConfigureKeepsDateFormat(l, confs[..|confs| - 1]);
    }
  }

  // ----- WritePrefix -----

  /** The prefix with `{DateTime}` replaced by the current time, `now`. */
  function Dated(l: Logger, now: string): string
  {
    Text.ReplaceAll(l.prefix, DateTimeKey, now)
  }

  /** The three segments `WritePrefix` writes: the text before the first
      `{LogLevel}`, the level name padded to 12, and the text after. A
      prefix without `{LogLevel}` makes `Substring(0, -1)` throw. */
  function WritePrefix(l: Logger, level: LogLevel, now: string): (r: Wrappers.Result<seq<string>, Errors.Error>)
    ensures r.Failure? <==> !Text.Occurs(Dated(l, now), LevelKey)
    ensures r.Failure? ==> r.error == Errors.PrefixWithoutLogLevel
    ensures r.Success? ==>
      && |r.value| == 3
      && r.value[0] + LevelKey + r.value[2] == Dated(l, now)
      && !Text.Occurs(r.value[0], LevelKey)
      && r.value[1] == Text.PadRight(LevelName(level), 12)
      && |r.value[1]| == 12
  {
    var prefix := Dated(l, now);
    var i := Text.IndexOf(prefix, LevelKey);
    if i == -1 then Wrappers.Failure(Errors.PrefixWithoutLogLevel)
    else
      SegmentFacts(prefix, i, level);
      Wrappers.Success([prefix[..i],
                        Text.PadRight(Text.ReplaceAll(prefix[i..i + 10], LevelKey, LevelName(level)), 12),
                        prefix[i + 10..]])
  }

  lemma SegmentFacts(prefix: string, i: nat, level: LogLevel)
    requires i + |LevelKey| <= |prefix| && prefix[i..i + |LevelKey|] == LevelKey
    requires forall k | 0 <= k < i :: !Text.StartsWith(prefix[k..], LevelKey)
    ensures |LevelKey| == 10
    ensures prefix[..i] + LevelKey + prefix[i + 10..] == prefix
    ensures !Text.Occurs(prefix[..i], LevelKey)
    ensures Text.ReplaceAll(prefix[i..i + 10], LevelKey, LevelName(level)) == LevelName(level)
    ensures |Text.PadRight(LevelName(level), 12)| == 12
  {
    Text.ReplaceWhole(LevelKey, LevelName(level));
    FirstOccurrence(prefix, LevelKey, i);
    assert prefix == prefix[..i] + prefix[i..i + 10] + prefix[i + 10..];
  }

  /** The text before the first occurrence holds no occurrence. */
  lemma FirstOccurrence(s: string, p: string, i: nat)
    requires i <= |s| && |p| > 0
    requires forall k | 0 <= k < i :: !Text.StartsWith(s[k..], p)
    ensures !Text.Occurs(s[..i], p)
  {
    forall k | 0 <= k <= i
      ensures !Text.StartsWith(s[..i][k..], p)
    {
      if k < i && k + |p| <= i {
        assert s[..i][k..][..|p|] == s[k..][..|p|];
      }
    }
  }

  /** A pattern after one other character, with no further occurrence,
      is replaced once. */
  lemma ReplaceOnce(c: char, pat: string, tail: string, rep: string)
    requires |pat| > 0 && c != pat[0] && !Text.Occurs(tail, pat)
    ensures Text.ReplaceAll([c] + pat + tail, pat, rep) == [c] + rep + tail
  {
    var s := [c] + pat + tail;
    Text.ReplaceAllAbsent(tail, pat, rep);
    assert s[1..] == pat + tail;
    assert (pat + tail)[..|pat|] == pat;
    assert (pat + tail)[|pat|..] == tail;
    if |s| >= |pat| {
      assert s[..|pat|][0] == c;
    }
  }

  lemma TemplateShape()
    ensures Defaults.prefix == ['['] + DateTimeKey + DefaultTail
  {
  }

  lemma TemplateLetters()
    ensures 'D' !in DefaultTail && 'D' in DateTimeKey
    ensures |DateTimeKey| > 0 && '[' != DateTimeKey[0]
  {
  }

  lemma TemplateRegroup(now: string)
    ensures ['['] + now + DefaultTail == "[" + now + " TwitchSharp - " + LevelKey + "] "
  {
  }

  /** With the default template, `{DateTime}` is replaced once. */
  lemma DatedDefault(now: string)
    ensures Dated(Defaults, now) == "[" + now + " TwitchSharp - " + LevelKey + "] "
  {
    TemplateShape();
    TemplateLetters();
    TemplateRegroup(now);
    Text.AbsentChar(DefaultTail, DateTimeKey, 'D');
    ReplaceOnce('[', DateTimeKey, DefaultTail, now);
  }

  /** The first `{LogLevel}` of `a + {LogLevel} + b` is right after `a` when
      `a` has no '{'. */
  lemma FirstLevelKey(a: string, b: string)
    requires '{' !in a
    ensures Text.IndexOf(a + LevelKey + b, LevelKey) == |a|
  {
    FirstAfter(a, LevelKey, b);
  }

  /** A pattern whose first character does not occur before it is found
      right there. */
  lemma FirstAfter(a: string, p: string, b: string)
    requires |p| > 0 && p[0] !in a
    ensures Text.IndexOf(a + p + b, p) == |a|
  {
    var d := a + p + b;
    var i := Text.IndexOf(d, p);
    assert d[|a|..][..|p|] == p;
    assert i != -1;
    assert d[i] == p[0];
    assert forall k | 0 <= k < |a| :: d[k] == a[k];
  }

  /** The default prefix, for a time text without '{', splits into the
      bracketed time and tag, the padded level, and the closing bracket. */
  lemma DefaultPrefix(level: LogLevel, now: string)
    requires '{' !in now
    ensures WritePrefix(Defaults, level, now) ==
      Wrappers.Success(["[" + now + " TwitchSharp - ", Text.PadRight(LevelName(level), 12), "] "])
  {
    var a := "[" + now + " TwitchSharp - ";
    DatedDefault(now);
    FirstLevelKey(a, "] ");
    var d := a + LevelKey + "] ";
    assert d[..|a|] == a;
    assert d[|a| + 10..] == "] ";
  }

  // ----- Log -----

  /** One console call. */
  datatype Piece = Write(text: string) | WriteLine(line: string)

  /** The arguments `OnLog` receives; `ex` is the exception's message. */
  datatype LogEvent = LogEvent(content: string, level: LogLevel, ex: Wrappers.Option<string>)

  /** What `Log` did: the event raised (none when nobody listens), what it
      wrote, and the exception `WritePrefix` threw, if any. */
  datatype Logged = Logged(event: Wrappers.Option<LogEvent>, output: seq<Piece>, failure: Wrappers.Option<Errors.Error>)

  function Writes(segments: seq<string>): (r: seq<Piece>)
    ensures |r| == |segments|
    ensures forall i | 0 <= i < |r| :: r[i] == Write(segments[i])
  {
    seq(|segments|, i requires 0 <= i < |segments| => Write(segments[i]))
  }

  /** The message, then, for an exception, its two lines, each block after
      its own prefix. */
  function Entry(segments: seq<string>, content: string, ex: Wrappers.Option<string>): (r: seq<Piece>)
    ensures |r| == (if ex.Some? then 2 * |segments| + 3 else |segments| + 1)
    ensures r[..|segments| + 1] == Writes(segments) + [WriteLine(content)]
    ensures ex.Some? ==>
      r[|segments| + 1..] == Writes(segments) + [WriteLine("Thrown Exception: "), WriteLine(ex.value)]
  {
    var first := Writes(segments) + [WriteLine(content)];
    if ex.None? then first
    else
      var second := Writes(segments) + [WriteLine("Thrown Exception: "), WriteLine(ex.value)];
      assert (first + second)[..|first|] == first && (first + second)[|first|..] == second;
      first + second
  }

  /** `Log(content, logLevel, ex)`, with `listening` whether `OnLog` has a
      subscriber and `now` the time text both prefixes show. */
  function Log(l: Logger, content: string, level: LogLevel, ex: Wrappers.Option<string>,
               listening: bool, now: string): (r: Logged)
    ensures r.event == (if listening then Wrappers.Some(LogEvent(content, level, ex)) else Wrappers.None)
    ensures Rank(level) < Rank(l.minimal) ==> r.output == [] && r.failure.None?
    ensures Rank(level) >= Rank(l.minimal) && WritePrefix(l, level, now).Failure? ==>
      r.output == [] && r.failure == Wrappers.Some(Errors.PrefixWithoutLogLevel)
    ensures Rank(level) >= Rank(l.minimal) && WritePrefix(l, level, now).Success? ==>
      r.failure.None? && r.output == Entry(WritePrefix(l, level, now).value, content, ex)
  {
    var event := if listening then Wrappers.Some(LogEvent(content, level, ex)) else Wrappers.None;
    if Rank(level) < Rank(l.minimal) then Logged(event, [], Wrappers.None)
    else
      match WritePrefix(l, level, now)
      case Failure(e) => Logged(event, [], Wrappers.Some(e))
      case Success(segments) => Logged(event, Entry(segments, content, ex), Wrappers.None)
  }

  /** Something is written exactly when the level reaches the threshold
      and the prefix has its placeholder; the exception lines are written
      exactly when an exception is passed. */
  lemma WrittenIff(l: Logger, content: string, level: LogLevel, ex: Wrappers.Option<string>,
                   listening: bool, now: string)
    ensures var r := Log(l, content, level, ex, listening, now);
      && (r.output != [] <==> Rank(level) >= Rank(l.minimal) && Text.Occurs(Dated(l, now), LevelKey))
      && (r.output != [] ==> |r.output| == (if ex.Some? then 9 else 4))
  {
  }

  /** A three-part prefix without an exception writes four pieces. */
  lemma EntryOfThree(a: string, b: string, c: string, content: string)
    ensures Entry([a, b, c], content, Wrappers.None) == [Write(a), Write(b), Write(c), WriteLine(content)]
  {
    var e := Entry([a, b, c], content, Wrappers.None);
    assert e == e[..4];
  }

  /** The default threshold is `Information`. */
  lemma DefaultThreshold(level: LogLevel)
    ensures Rank(level) < Rank(Defaults.minimal) <==> (level == Trace || level == Debug)
  {
  }

  /** With the default logger, `Trace` and `Debug` are dropped and every
      other level writes the default prefix, then the message. */
  lemma DefaultLog(content: string, level: LogLevel, now: string)
    requires '{' !in now
    ensures var r := Log(Defaults, content, level, Wrappers.None, false, now);
      && (r.output == [] <==> (level == Trace || level == Debug))
      && r.failure.None?
      && (r.output != [] ==>
            r.output == [Write("[" + now + " TwitchSharp - "), Write(Text.PadRight(LevelName(level), 12)),
                         Write("] "), WriteLine(content)])
  {
    var a, b, c := "[" + now + " TwitchSharp - ", Text.PadRight(LevelName(level), 12), "] ";
    DefaultPrefix(level, now);
    assert WritePrefix(Defaults, level, now) == Wrappers.Success([a, b, c]);
    EntryOfThree(a, b, c, content);
    DefaultThreshold(level);
  }
}

=== FILE: oauth.dfy ===
/** The authorize link both engines print before asking for a code
    (`TwitchEngine.getAuthCode` and `TwitchSharpEngine.GenerateRefreshTokenAsync`
    build it identically): each scope has every ':' rewritten to "%3A", and
    the scopes are joined with '+' into the `scope` parameter of the
    authorization request of RFC 6749, section 4.1.1. */
module OAuth {
  import opened Wrappers
  import Text
  import Query

  const AuthorizeEndpoint: string := "https://id.twitch.tv/oauth2/authorize"

  /** `scope.Replace(":", "%3A")`. */
  function EscapeScope(s: string): (r: string)
    ensures ':' !in r
    ensures ':' !in s ==> r == s
  {
    ReplaceColon(s);
    Text.ReplaceAll(s, ":", "%3A")
  }

  lemma ReplaceColon(s: string)
    ensures ':' !in Text.ReplaceAll(s, ":", "%3A")
    ensures ':' !in s ==> Text.ReplaceAll(s, ":", "%3A") == s
  {
    Text.ReplaceAllRemoves(s, ":", "%3A");
    Text.OccursChar(Text.ReplaceAll(s, ":", "%3A"), ':');
    Text.OccursChar(s, ':');
    if ':' !in s {
      Text.ReplaceAllAbsent(s, ":", "%3A");
    }
  }

  /** The in-place rewrite of the scope array, element by element. */
  function EscapeScopes(scopes: seq<string>): (r: seq<string>)
    ensures |r| == |scopes|
    ensures forall i | 0 <= i < |r| :: r[i] == EscapeScope(scopes[i])
  {
    seq(|scopes|, i requires 0 <= i < |scopes| => EscapeScope(scopes[i]))
  }

  /** The reverse rewrite a server applies to one escaped scope. */
  function UnescapeScope(s: string): string
  {
    Text.ReplaceAll(s, "%3A", ":")
  }

  /** Escaping is idempotent: the rewritten array, rewritten again, is unchanged. */
  lemma EscapeIdempotent(s: string)
    ensures EscapeScope(EscapeScope(s)) == EscapeScope(s)
  {
  }

  /** A scope without '%' comes back unchanged from escaping and unescaping. */
  lemma {:induction false} EscapeRoundTrip(s: string)
    requires '%' !in s
    ensures UnescapeScope(EscapeScope(s)) == s
    decreases |s|
  {
    if |s| > 0 {
      assert '%' !in s[1..] by {
        assert forall k | 0 <= k < |s[1..]| :: s[1..][k] == s[k + 1];
      }
      EscapeRoundTrip(s[1..]);
      var e := EscapeScope(s[1..]);
      assert UnescapeScope(e) == s[1..];
      if s[0] == ':' {
        assert Text.ReplaceAll(s, ":", "%3A") == "%3A" + e;
        assert ("%3A" + e)[..3] == "%3A";
        assert ("%3A" + e)[3..] == e;
        assert UnescapeScope("%3A" + e) == ":" + s[1..];
      } else {
        assert s[..1] != ":";
        assert Text.ReplaceAll(s, ":", "%3A") == [s[0]] + e;
        var x := [s[0]] + e;
        if |x| < 3 {
          assert UnescapeScope(e) == e;
        } else {
          assert x[..3] != "%3A" by {
            assert x[0] == s[0];
          }
          assert x[1..] == e;
        }
      }
      assert [s[0]] + s[1..] == s;
    }
  }

  /** The `scope` parameter: the escaped scopes joined with '+'. */
  function ScopeParam(escaped: seq<string>): string
  {
    Text.Join(escaped, '+')
  }

  /** Escaping introduces no '+', '&' or '#': only '%', '3' and 'A'. */
  lemma EscapeAvoids(s: string, c: char)
    requires c in "+&#" && c !in s
    ensures c !in EscapeScope(s)
  {
    Text.OccursChar(s, c);
    Text.ReplaceAllCreatesNothing(s, ":", "%3A", [c]);
    Text.OccursChar(Text.ReplaceAll(s, ":", "%3A"), c);
  }

  /** Scopes without '+' or '%' are recovered from the `scope` parameter by
      splitting on '+' and unescaping each part. */
  lemma ScopesRoundTrip(scopes: seq<string>)
    requires |scopes| > 0
    requires forall i | 0 <= i < |scopes| :: '+' !in scopes[i] && '%' !in scopes[i]
    ensures |Text.Split(ScopeParam(EscapeScopes(scopes)), '+')| == |scopes|
    ensures forall i | 0 <= i < |scopes| ::
      UnescapeScope(Text.Split(ScopeParam(EscapeScopes(scopes)), '+')[i]) == scopes[i]
  {
    var escaped := EscapeScopes(scopes);
    forall i | 0 <= i < |escaped|
      ensures '+' !in escaped[i] && UnescapeScope(escaped[i]) == scopes[i]
    {
      EscapeAvoids(scopes[i], '+');
      EscapeRoundTrip(scopes[i]);
    }
    Text.SplitJoin(escaped, '+');
  }

  /** The link printed for the user to authorize the application. */
  function AuthorizeUrl(clientId: NString, redirectUri: NString, escaped: seq<string>): string
  {
    AuthorizeEndpoint + "?" + AuthorizeQuery(clientId, redirectUri, escaped)
  }

  function AuthorizeQuery(clientId: NString, redirectUri: NString, escaped: seq<string>): string
  {
    Pair("response_type", "code") + "&" + (Pair("client_id", Render(clientId)) + "&" +
      (Pair("redirect_uri", Render(redirectUri)) + "&" + Pair("scope", ScopeParam(escaped))))
  }

  /** One `name=value` parameter. */
  function Pair(name: string, value: string): string
  {
    name + "=" + value
  }

  lemma PairParses(name: string, value: string, x: char)
    requires '=' !in name && x != '=' && x !in name && x !in value
    ensures Query.ParamOf(Pair(name, value)) == Query.Param(Some(name), value)
    ensures x !in Pair(name, value)
  {
    Query.CutAt(name, '=', value);
    assert Pair(name, value) == name + ['='] + value;
  }

  /** Neither '&' nor '#' enters the `scope` parameter unless a scope holds it. */
  lemma ScopeParamAvoids(scopes: seq<string>, c: char)
    requires c in "&#"
    requires forall i | 0 <= i < |scopes| :: c !in scopes[i]
    ensures c !in ScopeParam(EscapeScopes(scopes))
  {
    var escaped := EscapeScopes(scopes);
    forall i | 0 <= i < |escaped|
      ensures c !in escaped[i]
    {
      EscapeAvoids(scopes[i], c);
    }
    Text.JoinAvoids(escaped, '+', c);
  }

  /** Four '&'-free segments joined with '&' split back into themselves. */
  lemma SplitFour(a: string, b: string, c: string, d: string)
    requires '&' !in a && '&' !in b && '&' !in c && '&' !in d
    ensures Text.Split(a + "&" + (b + "&" + (c + "&" + d)), '&') == [a, b, c, d]
  {
    Text.SplitNoSeparator(d, '&');
    Text.SplitPrefix(c, '&', d);
    Text.SplitPrefix(b, '&', c + "&" + d);
    Text.SplitPrefix(a, '&', b + "&" + (c + "&" + d));
  }

  /** A query of four segments has the four parameters they spell. */
  lemma ParamsFour(q: string, a: string, b: string, c: string, d: string)
    requires Text.Split(q, '&') == [a, b, c, d]
    ensures Query.Params(q) == [Query.ParamOf(a), Query.ParamOf(b), Query.ParamOf(c), Query.ParamOf(d)]
  {
    var ps := Query.Params(q);
    assert |ps| == 4;
    assert ps[0] == Query.ParamOf(a) && ps[1] == Query.ParamOf(b);
    assert ps[2] == Query.ParamOf(c) && ps[3] == Query.ParamOf(d);
  }

  lemma NoCharInFour(a: string, b: string, c: string, d: string, x: char)
    requires x != '&' && x !in a && x !in b && x !in c && x !in d
    ensures x !in a + "&" + (b + "&" + (c + "&" + d))
  {
  }

  /** A parameter name or fixed value free of the query's separators. */
  predicate Plain(w: string)
  {
    '=' !in w && '&' !in w && '#' !in w
  }

  lemma LinkLiterals()
    ensures '?' !in AuthorizeEndpoint && '#' !in AuthorizeEndpoint
    ensures Plain("response_type") && Plain("client_id") && Plain("redirect_uri")
    ensures Plain("scope") && Plain("code")
  {
    EndpointPlain();
    NamePlain("response_type");
    NamePlain("client_id");
    NamePlain("redirect_uri");
    NamePlain("scope");
    NamePlain("code");
  }

  lemma EndpointPlain()
    ensures '?' !in AuthorizeEndpoint && '#' !in AuthorizeEndpoint
  {
  }

  lemma NamePlain(w: string)
    requires forall i | 0 <= i < |w| :: 'a' <= w[i] <= 'z' || w[i] == '_'
    ensures Plain(w)
  {
  }

  /** Two `name=value` pairs after a base URL parse back into exactly
      those two parameters. */
  lemma TwoParams(base: string, n1: string, v1: string, n2: string, v2: string)
    requires '?' !in base && '#' !in base
    requires Plain(n1) && Plain(n2)
    requires '&' !in v1 && '#' !in v1 && '&' !in v2 && '#' !in v2
    ensures Query.Params(Query.QueryOf(base + "?" + (Pair(n1, v1) + "&" + Pair(n2, v2)))) ==
      [Query.Param(Some(n1), v1), Query.Param(Some(n2), v2)]
  {
    var a, b := Pair(n1, v1), Pair(n2, v2);
    PairParses(n1, v1, '&');
    PairParses(n2, v2, '&');
    PairParses(n1, v1, '#');
    PairParses(n2, v2, '#');
    var q := a + "&" + b;
    assert Query.QueryOf(base + "?" + q) == q by {
      assert '#' !in q;
      Query.QueryOfUrl(base, q);
    }
    assert Text.Split(q, '&') == [a, b] by {
      Text.SplitNoSeparator(b, '&');
      Text.SplitPrefix(a, '&', b);
    }
    ParamsTwo(q, a, b);
  }

  /** Each of two parameters whose names differ in length is found under
      its own name. */
  lemma TwoLookups(base: string, n1: string, v1: string, n2: string, v2: string)
    requires '?' !in base && '#' !in base
    requires Plain(n1) && Plain(n2) && |n1| != |n2|
    requires '&' !in v1 && '#' !in v1 && '&' !in v2 && '#' !in v2
    ensures Query.Lookup(base + "?" + (Pair(n1, v1) + "&" + Pair(n2, v2)), n1) == Some(v1)
    ensures Query.Lookup(base + "?" + (Pair(n1, v1) + "&" + Pair(n2, v2)), n2) == Some(v2)
  {
    TwoParams(base, n1, v1, n2, v2);
    var ps := [Query.Param(Some(n1), v1), Query.Param(Some(n2), v2)];
    Query.GetSingle(ps, n1, 0);
    Query.GetSingle(ps, n2, 1);
  }

  /** The same two parameters, written as a URL is usually spliced
      together: `base`, then "?n1=", `v1`, then "&n2=", `v2`. */
  lemma SplicedLookups(base: string, p1: string, n1: string, v1: string, p2: string, n2: string, v2: string)
    requires '?' !in base && '#' !in base
    requires Plain(n1) && Plain(n2) && |n1| != |n2|
    requires '&' !in v1 && '#' !in v1 && '&' !in v2 && '#' !in v2
    requires p1 == "?" + n1 + "=" && p2 == "&" + n2 + "="
    ensures Query.Lookup(base + p1 + v1 + p2 + v2, n1) == Some(v1)
    ensures Query.Lookup(base + p1 + v1 + p2 + v2, n2) == Some(v2)
  {
    assert base + p1 + v1 + p2 + v2 == base + "?" + (Pair(n1, v1) + "&" + Pair(n2, v2));
    TwoLookups(base, n1, v1, n2, v2);
  }

  /** A query of two segments has the two parameters they spell. */
  lemma ParamsTwo(q: string, a: string, b: string)
    requires Text.Split(q, '&') == [a, b]
    ensures Query.Params(q) == [Query.ParamOf(a), Query.ParamOf(b)]
  {
    var ps := Query.Params(q);
    assert |ps| == 2;
    assert ps[0] == Query.ParamOf(a) && ps[1] == Query.ParamOf(b);
  }

  /** The generic shape: four `name=value` pairs after a base URL. */
  lemma FourParams(base: string, n1: string, v1: string, n2: string, v2: string,
                   n3: string, v3: string, n4: string, v4: string)
    requires '?' !in base && '#' !in base
    requires '=' !in n1 && '=' !in n2 && '=' !in n3 && '=' !in n4
    requires '&' !in n1 && '&' !in n2 && '&' !in n3 && '&' !in n4
    requires '#' !in n1 && '#' !in n2 && '#' !in n3 && '#' !in n4
    requires '&' !in v1 && '&' !in v2 && '&' !in v3 && '&' !in v4
    requires '#' !in v1 && '#' !in v2 && '#' !in v3 && '#' !in v4
    ensures Query.Params(Query.QueryOf(base + "?" + (Pair(n1, v1) + "&" + (Pair(n2, v2) + "&" + (Pair(n3, v3) + "&" + Pair(n4, v4)))))) ==
      [Query.Param(Some(n1), v1), Query.Param(Some(n2), v2), Query.Param(Some(n3), v3), Query.Param(Some(n4), v4)]
  {
    var a, b, c, d := Pair(n1, v1), Pair(n2, v2), Pair(n3, v3), Pair(n4, v4);
    PairParses(n1, v1, '&');
    PairParses(n2, v2, '&');
    PairParses(n3, v3, '&');
    PairParses(n4, v4, '&');
    PairParses(n1, v1, '#');
    PairParses(n2, v2, '#');
    PairParses(n3, v3, '#');
    PairParses(n4, v4, '#');
    var q := a + "&" + (b + "&" + (c + "&" + d));
    NoCharInFour(a, b, c, d, '#');
    Query.QueryOfUrl(base, q);
    SplitFour(a, b, c, d);
    ParamsFour(q, a, b, c, d);
  }

  /** When the client id, the redirect URI and the scopes hold no '&' or
      '#', the link's query parses into exactly its four parameters. */
  lemma AuthorizeParams(clientId: NString, redirectUri: NString, scopes: seq<string>)
    requires '&' !in Render(clientId) && '#' !in Render(clientId)
    requires '&' !in Render(redirectUri) && '#' !in Render(redirectUri)
    requires forall i | 0 <= i < |scopes| :: '&' !in scopes[i] && '#' !in scopes[i]
    ensures Query.Params(Query.QueryOf(AuthorizeUrl(clientId, redirectUri, EscapeScopes(scopes)))) ==
      [ Query.Param(Some("response_type"), "code"),
        Query.Param(Some("client_id"), Render(clientId)),
        Query.Param(Some("redirect_uri"), Render(redirectUri)),
        Query.Param(Some("scope"), ScopeParam(EscapeScopes(scopes))) ]
  {
    ScopeParamAvoids(scopes, '&');
    ScopeParamAvoids(scopes, '#');
    LinkLiterals();
    assert AuthorizeUrl(clientId, redirectUri, EscapeScopes(scopes)) ==
      AuthorizeEndpoint + "?" + (Pair("response_type", "code") + "&" + (Pair("client_id", Render(clientId)) + "&" +
        (Pair("redirect_uri", Render(redirectUri)) + "&" + Pair("scope", ScopeParam(EscapeScopes(scopes))))));
    FourParams(AuthorizeEndpoint, "response_type", "code", "client_id", Render(clientId),
               "redirect_uri", Render(redirectUri), "scope", ScopeParam(EscapeScopes(scopes)));
  }

  /** Four parameters whose names have distinct lengths are each found
      under their own name. */
  lemma FourLookups(ps: seq<Query.Param>, n1: string, v1: string, n2: string, v2: string,
                    n3: string, v3: string, n4: string, v4: string)
    requires ps == [Query.Param(Some(n1), v1), Query.Param(Some(n2), v2), Query.Param(Some(n3), v3), Query.Param(Some(n4), v4)]
    requires |n1| != |n2| && |n1| != |n3| && |n1| != |n4| && |n2| != |n3| && |n2| != |n4| && |n3| != |n4|
    ensures Query.Get(ps, n1) == Some(v1) && Query.Get(ps, n2) == Some(v2)
    ensures Query.Get(ps, n3) == Some(v3) && Query.Get(ps, n4) == Some(v4)
  {
    Query.GetSingle(ps, n1, 0);
    Query.GetSingle(ps, n2, 1);
    Query.GetSingle(ps, n3, 2);
    Query.GetSingle(ps, n4, 3);
  }

  /** Each parameter of the link reads back as the value it was built from. */
  lemma AuthorizeLinkCarries(clientId: NString, redirectUri: NString, scopes: seq<string>)
    requires '&' !in Render(clientId) && '#' !in Render(clientId)
    requires '&' !in Render(redirectUri) && '#' !in Render(redirectUri)
    requires forall i | 0 <= i < |scopes| :: '&' !in scopes[i] && '#' !in scopes[i]
    ensures var link := AuthorizeUrl(clientId, redirectUri, EscapeScopes(scopes));
      && Query.Lookup(link, "response_type") == Some("code")
      && Query.Lookup(link, "client_id") == Some(Render(clientId))
      && Query.Lookup(link, "redirect_uri") == Some(Render(redirectUri))
      && Query.Lookup(link, "scope") == Some(ScopeParam(EscapeScopes(scopes)))
  {
    AuthorizeParams(clientId, redirectUri, scopes);
    var ps := Query.Params(Query.QueryOf(AuthorizeUrl(clientId, redirectUri, EscapeScopes(scopes))));
    FourLookups(ps, "response_type", "code", "client_id", Render(clientId),
                "redirect_uri", Render(redirectUri), "scope", ScopeParam(EscapeScopes(scopes)));
  }
}

=== FILE: query.dfy ===
/** The part of `System.Uri` and `HttpUtility.ParseQueryString` the
    refresh-token flow relies on: the query of a URL, its `&`-separated
    `name=value` parameters, and the case-insensitive lookup of a name,
    which joins repeated values with ','. Values are kept as raw text
    (percent-decoding is not modelled). */
module Query {
  import opened Wrappers
  import Text

  // ----- cutting a string at a character -----

  /** The text before the first `c` and the text after it, if `c` occurs. */
  function Cut(s: string, c: char): (r: Option<(string, string)>)
    ensures r.None? <==> c !in s
    ensures r.Some? ==> s == r.value.0 + [c] + r.value.1 && c !in r.value.0
    decreases |s|
  {
    if |s| == 0 then None
    else if s[0] == c then Some(("", s[1..]))
    else
      match Cut(s[1..], c)
      case None => None
      case Some((a, b)) => Some(([s[0]] + a, b))
  }

  /** Cutting at the first `c` finds exactly the text written before it. */
  lemma {:induction false} CutAt(a: string, c: char, b: string)
    requires c !in a
    ensures Cut(a + [c] + b, c) == Some((a, b))
    decreases |a|
  {
    if |a| == 0 {
      assert a + [c] + b == [c] + b;
      assert ([c] + b)[1..] == b;
    } else {
      CutAt(a[1..], c, b);
      assert (a + [c] + b)[1..] == a[1..] + [c] + b;
      assert [a[0]] + a[1..] == a;
    }
  }

  // ----- Uri.Query -----

  /** The text up to the first '#'. */
  function BeforeHash(s: string): (r: string)
    ensures |r| <= |s| && r == s[..|r|]
    ensures '#' !in r
    ensures '#' !in s ==> r == s
    decreases |s|
  {
    if |s| == 0 || s[0] == '#' then ""
    else [s[0]] + BeforeHash(s[1..])
  }

  /** `uri.Query` without its leading '?': the text after the first '?'
      up to the fragment; empty when there is no '?' before any '#'. */
  function QueryOf(url: string): (r: string)
    ensures '#' !in r
    decreases |url|
  {
    if |url| == 0 || url[0] == '#' then ""
    else if url[0] == '?' then BeforeHash(url[1..])
    else QueryOf(url[1..])
  }

  /** The query of `base?q` is `q` when the base holds no '?' or '#' and
      `q` no fragment. */
  lemma {:induction false} QueryOfUrl(base: string, q: string)
    requires '?' !in base && '#' !in base && '#' !in q
    ensures QueryOf(base + "?" + q) == q
    decreases |base|
  {
    if |base| == 0 {
      assert base + "?" + q == "?" + q;
      assert ("?" + q)[1..] == q;
    } else {
      assert (base + "?" + q)[0] == base[0];
      assert (base + "?" + q)[1..] == base[1..] + "?" + q;
      QueryOfUrl(base[1..], q);
    }
  }

  // ----- ParseQueryString -----

  /** One parameter; a segment without '=' has a null name. */
  datatype Param = Param(name: NString, value: string)

  function ParamOf(segment: string): (p: Param)
    ensures p.name.None? <==> '=' !in segment
    ensures p.name.None? ==> p.value == segment
    ensures p.name.Some? ==> segment == p.name.value + "=" + p.value && '=' !in p.name.value
  {
    match Cut(segment, '=')
    case None => Param(None, segment)
    case Some((n, v)) => Param(Some(n), v)
  }

  /** The parameters of a query, one per `&`-separated segment (empty
      segments included); an empty query has none. */
  function Params(query: string): (ps: seq<Param>)
    ensures query == "" ==> ps == []
    ensures query != "" ==> |ps| == |Text.Split(query, '&')|
    ensures query != "" ==> forall i | 0 <= i < |ps| :: ps[i] == ParamOf(Text.Split(query, '&')[i])
  {
    if query == "" then []
    else
      var segments := Text.Split(query, '&');
      seq(|segments|, i requires 0 <= i < |segments| => ParamOf(segments[i]))
  }

  /** Names compare ignoring the case of ASCII letters. */
  predicate Named(p: Param, key: string)
  {
    p.name.Some? && Text.SameIgnoringCase(p.name.value, key)
  }

  /** The values stored under `key`, in query order. */
  function Values(ps: seq<Param>, key: string): (vs: seq<string>)
    ensures |vs| == 0 <==> forall i | 0 <= i < |ps| :: !Named(ps[i], key)
    ensures |vs| <= |ps|
    decreases |ps|
  {
    if |ps| == 0 then []
    else
      var rest := Values(ps[1..], key);
      assert forall i | 1 <= i < |ps| :: ps[i] == ps[1..][i - 1];
      if Named(ps[0], key) then [ps[0].value] + rest else rest
  }

  /** `collection[key]`: null when no parameter has that name, otherwise
      every value under it joined with ','. */
  function Get(ps: seq<Param>, key: string): (r: NString)
    ensures r.None? <==> forall i | 0 <= i < |ps| :: !Named(ps[i], key)
  {
    var vs := Values(ps, key);
    if |vs| == 0 then None else Some(Text.Join(vs, ','))
  }

  /** A name that appears once yields exactly its value. */
  lemma {:induction false} ValuesOfSingle(ps: seq<Param>, key: string, i: nat)
    requires i < |ps| && Named(ps[i], key)
    requires forall j | 0 <= j < |ps| && j != i :: !Named(ps[j], key)
    ensures Values(ps, key) == [ps[i].value]
    decreases |ps|
  {
    assert forall j | 1 <= j < |ps| :: ps[j] == ps[1..][j - 1];
    if i == 0 {
      assert forall j | 0 <= j < |ps[1..]| :: !Named(ps[1..][j], key);
    } else {
      ValuesOfSingle(ps[1..], key, i - 1);
    }
  }

  lemma GetSingle(ps: seq<Param>, key: string, i: nat)
    requires i < |ps| && Named(ps[i], key)
    requires forall j | 0 <= j < |ps| && j != i :: !Named(ps[j], key)
    ensures Get(ps, key) == Some(ps[i].value)
  {
    ValuesOfSingle(ps, key, i);
  }

  /** The parameter `key` of a URL. */
  function Lookup(url: string, key: string): NString
  {
    Get(Params(QueryOf(url)), key)
  }
}

=== FILE: sconfig.dfy ===
/** The bot's configuration reader: `getValue` finds the first line of the
    form `<target> "<value>";` (target compared ignoring case, at the start
    of a line) and `ReadConfigAsync` fills the static settings from three
    files, stopping at the first exception. */
module SConfig {
  import opened Wrappers
  import Errors
  import Text

  // ----- the pattern `^{target}\s+"([^"]+)";` -----

  /** `\s`, restricted to the ASCII white-space characters. */
  predicate IsSpace(c: char)
  {
    c == ' ' || c == '\t' || c == '\n' || c == '\U{B}' || c == '\U{C}' || c == '\r'
  }

  /** `[^"]`. */
  predicate NotQuote(c: char)
  {
    c != '"'
  }

  /** The text begins with the target, ignoring case. */
  predicate Begins(s: string, target: string)
  {
    |target| <= |s| && Text.SameIgnoringCase(s[..|target|], target)
  }

  /** The length of the longest run of characters satisfying `p` from `i`:
      what a greedy `+` or `*` consumes. */
  function RunLength(s: string, i: nat, p: char -> bool): (n: nat)
    requires i <= |s|
    ensures i + n <= |s|
    ensures i + n == |s| || !p(s[i + n])
    decreases |s| - i
  {
    if i == |s| || !p(s[i]) then 0 else 1 + RunLength(s, i + 1, p)
  }

  /** Every character of the run satisfies `p`. */
  lemma {:induction false} RunSatisfies(s: string, i: nat, p: char -> bool)
    requires i <= |s|
    ensures forall k | i <= k < i + RunLength(s, i, p) :: p(s[k])
    decreases |s| - i
  {
    if i < |s| && p(s[i]) {
      RunSatisfies(s, i + 1, p);
    }
  }

  /** A run that ends where `p` first fails is the longest one. */
  lemma RunExact(s: string, i: nat, n: nat, p: char -> bool)
    requires i + n <= |s|
    requires forall k | i <= k < i + n :: p(s[k])
    requires i + n == |s| || !p(s[i + n])
    ensures RunLength(s, i, p) == n
  {
    RunSatisfies(s, i, p);
  }

  /** The declarative reading of the pattern at the start of `s`: the
      target, white space, then a quoted value without quotes, then ';'. */
  predicate Line(s: string, target: string, ws: string, v: string)
  {
    && |ws| > 0 && (forall i | 0 <= i < |ws| :: IsSpace(ws[i]))
    && |v| > 0 && '"' !in v
    && Begins(s, target)
    && Text.StartsWith(s[|target|..], ws + "\"" + v + "\";")
  }

  /** The regular expression anchored at the start of `s`, as the engine
      runs it: `\s+` and `[^"]+` are greedy, and giving characters back
      cannot help because the next character they meet must be '"'. */
  function Head(s: string, target: string): (r: Option<string>)
    ensures r.Some? ==> |r.value| > 0 && '"' !in r.value
  {
    var t := |target|;
    if !Begins(s, target) then None
    else
      var q := t + RunLength(s, t, IsSpace);
      if q == t || q == |s| || s[q] != '"' then None
      else
        var e := q + 1 + RunLength(s, q + 1, NotQuote);
        if e == q + 1 || e + 1 >= |s| || s[e + 1] != ';' then None
        else
          RunSatisfies(s, q + 1, NotQuote);
          assert forall k | q + 1 <= k < e :: s[k] != '"';
          Some(s[q + 1..e])
  }

  /** The greedy matcher accepts exactly the declarative lines. */
  lemma HeadMatchesLine(s: string, target: string, v: string)
    ensures Head(s, target) == Some(v) <==> exists ws :: Line(s, target, ws, v)
  {
    var t := |target|;
    if Head(s, target) == Some(v) {
      RunSatisfies(s, t, IsSpace);
      var q := t + RunLength(s, t, IsSpace);
      var ws := s[t..q];
      assert s[t..][..|ws| + |v| + 3] == ws + "\"" + v + "\";";
      assert Line(s, target, ws, v);
    }
    if ws :| Line(s, target, ws, v) {
      LineRuns(s, target, ws, v);
    }
  }

  /** On a declarative line the two greedy runs stop exactly at the quotes. */
  lemma LineRuns(s: string, target: string, ws: string, v: string)
    requires Line(s, target, ws, v)
    ensures Head(s, target) == Some(v)
  {
    var t := |target|;
    var q := t + |ws|;
    LineLayout(s, target, ws, v);
    RunExact(s, t, |ws|, IsSpace);
    RunExact(s, q + 1, |v|, NotQuote);
  }

  /** Where each part of a declarative line sits in the text. */
  lemma LineLayout(s: string, target: string, ws: string, v: string)
    requires Line(s, target, ws, v)
    ensures var t, q := |target|, |target| + |ws|;
      && q + 2 + |v| < |s|
      && (forall k | t <= k < q :: IsSpace(s[k]))
      && s[q] == '"' && !NotQuote(s[q + 1 + |v|]) && s[q + 2 + |v|] == ';'
      && (forall k | q + 1 <= k < q + 1 + |v| :: NotQuote(s[k]))
      && s[q + 1..q + 1 + |v|] == v
  {
    var t := |target|;
    var q := t + |ws|;
    var u := ws + "\"" + v + "\";";
    assert s[t..][..|u|] == u;
    assert forall k | t <= k < q :: s[k] == ws[k - t];
    assert forall k | q + 1 <= k < q + 1 + |v| :: s[k] == v[k - q - 1];
  }

  // ----- Regex.Match with RegexOptions.Multiline -----

  /** `^` in multi-line mode: the start of the text or just after '\n'. */
  predicate LineStart(s: string, p: nat)
  {
    p == 0 || (0 < p <= |s| && s[p - 1] == '\n')
  }

  function MatchAt(file: string, target: string, p: nat): Option<string>
    requires p <= |file|
  {
    if LineStart(file, p) then Head(file[p..], target) else None
  }

  /** The leftmost match at or after position `p`, with its value. */
  function Search(file: string, target: string, p: nat): (r: Option<(nat, string)>)
    requires p <= |file|
    ensures r.Some? ==> p <= r.value.0 <= |file| && MatchAt(file, target, r.value.0) == Some(r.value.1)
    ensures r.Some? ==> forall q | p <= q < r.value.0 :: MatchAt(file, target, q).None?
    ensures r.None? ==> forall q | p <= q <= |file| :: MatchAt(file, target, q).None?
    decreases |file| - p
  {
    match MatchAt(file, target, p)
    case Some(v) => Some((p, v))
    case None => if p == |file| then None else Search(file, target, p + 1)
  }

  /** The match at `p` is the first one in the file. */
  predicate FirstMatch(file: string, target: string, p: nat, v: string)
  {
    && p <= |file| && MatchAt(file, target, p) == Some(v)
    && forall q | 0 <= q < p :: MatchAt(file, target, q).None?
  }

  /** `getValue(file, target)`: the first match's value, an exception when
      that value is the placeholder `changeMe`, and an exception when
      nothing matches. */
  function GetValue(file: string, target: string): (r: Result<string, Errors.Error>)
    ensures r == Failure(Errors.NotFound(target)) <==> forall p | 0 <= p <= |file| :: MatchAt(file, target, p).None?
    ensures forall p, v | FirstMatch(file, target, p, v) ::
      r == (if v == "changeMe" then Failure(Errors.DefaultValue(target)) else Success(v))
  {
    match Search(file, target, 0)
    case None => Failure(Errors.NotFound(target))
    case Some((p, v)) =>
      FirstMatchUnique(file, target, p, v);
      if v == "changeMe" then Failure(Errors.DefaultValue(target)) else Success(v)
  }

  lemma FirstMatchUnique(file: string, target: string, p: nat, v: string)
    requires FirstMatch(file, target, p, v)
    ensures forall p', v' | FirstMatch(file, target, p', v') :: p' == p && v' == v
  {
  }

  // ----- what a configuration file yields -----

  /** A line `<name> "<value>";` as the configuration files are written. */
  function ConfLine(name: string, value: string): string
  {
    name + " \"" + value + "\";"
  }

  /** A file whose first line is a well-formed line for the target yields
      that line's value, whatever follows. */
  lemma FirstLineValue(name: string, value: string, rest: string, target: string)
    requires Text.SameIgnoringCase(name, target)
    requires |value| > 0 && '"' !in value
    ensures GetValue(ConfLine(name, value) + rest, target) ==
      (if value == "changeMe" then Failure(Errors.DefaultValue(target)) else Success(value))
  {
    var file := ConfLine(name, value) + rest;
    assert file[..|target|] == name;
    assert file[|target|..][..|value| + 4] == " " + "\"" + value + "\";";
    assert Line(file, target, " ", value);
    LineRuns(file, target, " ", value);
    assert file[0..] == file;
    assert FirstMatch(file, target, 0, value);
  }

  /** No line can start inside a text without line breaks. */
  lemma NoLineStartWithin(line: string, rest: string, p: nat)
    requires '\n' !in line && 0 < p <= |line|
    ensures !LineStart(line + "\n" + rest, p)
  {
    assert (line + "\n" + rest)[p - 1] == line[p - 1];
  }

  /** A first line that does not begin with the target is skipped. */
  lemma SkipLine(line: string, rest: string, target: string)
    requires '\n' !in target && '\n' !in line && !Begins(line, target)
    ensures GetValue(line + "\n" + rest, target) == GetValue(rest, target)
  {
    match Search(rest, target, 0)
    case None =>
      SkipLineNone(line, rest, target);
    case Some((q, v)) =>
      assert FirstMatch(rest, target, q, v);
      SkipLineSome(line, rest, target, q, v);
  }

  /** Without a match below the skipped line there is none at all. */
  lemma SkipLineNone(line: string, rest: string, target: string)
    requires '\n' !in target && '\n' !in line && !Begins(line, target)
    requires forall q | 0 <= q <= |rest| :: MatchAt(rest, target, q).None?
    ensures forall p | 0 <= p <= |line + "\n" + rest| :: MatchAt(line + "\n" + rest, target, p).None?
  {
    var file := line + "\n" + rest;
    SkippedMatches(line, rest, target);
    forall p | |line| + 1 <= p <= |file|
      ensures MatchAt(file, target, p).None?
    {
      var q := p - |line| - 1;
      assert p == |line| + 1 + q;
      assert MatchAt(rest, target, q).None?;
    }
  }

  /** The first match below the skipped line is the first match. */
  lemma SkipLineSome(line: string, rest: string, target: string, q: nat, v: string)
    requires '\n' !in target && '\n' !in line && !Begins(line, target)
    requires FirstMatch(rest, target, q, v)
    ensures FirstMatch(line + "\n" + rest, target, |line| + 1 + q, v)
  {
    var a := line + "\n";
    var file := line + "\n" + rest;
    assert file == a + rest;
    NoMatchWithin(line, rest, target);
    forall p | |a| <= p < |a| + q
      ensures MatchAt(file, target, p).None?
    {
      MatchAtShift(a, rest, target, p - |a|);
    }
    MatchAtShift(a, rest, target, q);
  }

  /** Below a first line that does not begin with the target, the matches
      are those of the text after its line break. */
  lemma SkippedMatches(line: string, rest: string, target: string)
    requires '\n' !in target && '\n' !in line && !Begins(line, target)
    ensures var file := line + "\n" + rest;
      && (forall p | 0 <= p <= |line| :: MatchAt(file, target, p).None?)
      && (forall q | 0 <= q <= |rest| :: MatchAt(file, target, |line| + 1 + q) == MatchAt(rest, target, q))
  {
    NoMatchWithin(line, rest, target);
    var a := line + "\n";
    forall q | 0 <= q <= |rest|
      ensures MatchAt(a + rest, target, |a| + q) == MatchAt(rest, target, q)
    {
      MatchAtShift(a, rest, target, q);
    }
  }

  lemma NoMatchWithin(line: string, rest: string, target: string)
    requires '\n' !in target && '\n' !in line && !Begins(line, target)
    ensures forall p | 0 <= p <= |line| :: MatchAt(line + "\n" + rest, target, p).None?
  {
    var file := line + "\n" + rest;
    NotBeginsAfter(line, rest, target);
    assert file[0..] == file;
    forall p | 0 < p <= |line|
      ensures MatchAt(file, target, p).None?
    {
      NoLineStartWithin(line, rest, p);
    }
  }

  lemma NotBeginsAfter(line: string, rest: string, target: string)
    requires '\n' !in target && !Begins(line, target)
    ensures !Begins(line + "\n" + rest, target)
  {
    var file := line + "\n" + rest;
    if |target| <= |line| {
      assert file[..|target|] == line[..|target|];
    } else if |target| <= |file| {
      assert file[..|target|][|line|] == '\n';
      assert target[|line|] != '\n';
      assert !Text.EqualIgnoringCase(file[..|target|][|line|], target[|line|]);
    }
  }

  /** Right after a line break, matching in the whole file is matching in
      the text that follows it. */
  lemma MatchAtShift(a: string, s: string, target: string, q: nat)
    requires |a| > 0 && a[|a| - 1] == '\n' && q <= |s|
    ensures MatchAt(a + s, target, |a| + q) == MatchAt(s, target, q)
  {
    var file := a + s;
    assert file[|a| + q..] == s[q..];
    if q > 0 {
      assert file[|a| + q - 1] == s[q - 1];
    }
  }

  // ----- ReadConfigAsync -----

  const TwitchPath := "config/twitch.conf"
  const AiPath := "config/ai.conf"
  const PromptPath := "config/ai.promt"

  /** The static fields `ReadConfigAsync` assigns (null until assigned). */
  datatype Settings = Settings(
    clientId: NString, clientSecret: NString, refreshToken: NString,
    geminiKey: NString, systemInstructions: NString)

  const Unset := Settings(None, None, None, None, None)

  /** The settings afterwards and the exception whose message was printed. */
  datatype Loaded = Loaded(next: Settings, failure: Option<Errors.Error>)

  /** `ReadConfigAsync`, with each file's text given (None when it cannot
      be opened). */
  function ReadConfig(s: Settings, twitch: Option<string>, ai: Option<string>, prompt: Option<string>): (r: Loaded)
    ensures r.failure.None? ==> r.next.systemInstructions == prompt
  {
    Assign(s, ValueIn(twitch, TwitchPath, "ID"), ValueIn(twitch, TwitchPath, "Secret"),
           ValueIn(twitch, TwitchPath, "Refresh"), ValueIn(ai, AiPath, "Gemini_Key"), Opened(prompt, PromptPath))
  }

  /** The body of the `try`: the fields are assigned one by one from the
      reads, so an exception leaves the earlier ones assigned and the later
      ones as they were. The reads have no effects, so taking them as
      arguments changes nothing. */
  function Assign(s: Settings, id: Result<string, Errors.Error>, secret: Result<string, Errors.Error>,
                  refresh: Result<string, Errors.Error>, key: Result<string, Errors.Error>,
                  prompt: Result<string, Errors.Error>): (r: Loaded)
    ensures r.failure.None? <==> id.Success? && secret.Success? && refresh.Success? && key.Success? && prompt.Success?
    ensures r.failure.None? ==>
      r.next == Settings(Some(id.value), Some(secret.value), Some(refresh.value), Some(key.value), Some(prompt.value))
  {
    if id.Failure? then Loaded(s, Some(id.error))
    else
      var s1 := s.(clientId := Some(id.value));
      if secret.Failure? then Loaded(s1, Some(secret.error))
      else
        var s2 := s1.(clientSecret := Some(secret.value));
        if refresh.Failure? then Loaded(s2, Some(refresh.error))
        else
          var s3 := s2.(refreshToken := Some(refresh.value));
          if key.Failure? then Loaded(s3, Some(key.error))
          else
            var s4 := s3.(geminiKey := Some(key.value));
            if prompt.Failure? then Loaded(s4, Some(prompt.error))
            else Loaded(s4.(systemInstructions := Some(prompt.value)), None)
  }

  /** The i-th field, in the order `ReadConfigAsync` assigns them. */
  function Field(s: Settings, i: nat): NString
    requires i < 5
  {
    match i
    case 0 => s.clientId
    case 1 => s.clientSecret
    case 2 => s.refreshToken
    case 3 => s.geminiKey
    case 4 => s.systemInstructions
  }

  function Opened(file: Option<string>, path: string): Result<string, Errors.Error>
  {
    if file.Some? then Success(file.value) else Failure(Errors.FileUnreadable(path))
  }

  function ValueIn(file: Option<string>, path: string, target: string): Result<string, Errors.Error>
  {
    if file.Some? then GetValue(file.value, target) else Failure(Errors.FileUnreadable(path))
  }

  /** What each of the five reads would give on its own. */
  function Reads(twitch: Option<string>, ai: Option<string>, prompt: Option<string>): (r: seq<Result<string, Errors.Error>>)
    ensures |r| == 5
  {
    [ValueIn(twitch, TwitchPath, "ID"), ValueIn(twitch, TwitchPath, "Secret"),
     ValueIn(twitch, TwitchPath, "Refresh"), ValueIn(ai, AiPath, "Gemini_Key"), Opened(prompt, PromptPath)]
  }

  /** How many reads succeed before the first failure. */
  function Succeeded(rs: seq<Result<string, Errors.Error>>): (k: nat)
    ensures k <= |rs|
    ensures forall i | 0 <= i < k :: rs[i].Success?
    ensures k < |rs| ==> rs[k].Failure?
  {
    if |rs| == 0 || rs[0].Failure? then 0 else 1 + Succeeded(rs[1..])
  }

  lemma SucceededFive(rs: seq<Result<string, Errors.Error>>)
    requires |rs| == 5
    ensures Succeeded(rs) ==
      if rs[0].Failure? then 0 else if rs[1].Failure? then 1 else if rs[2].Failure? then 2
      else if rs[3].Failure? then 3 else if rs[4].Failure? then 4 else 5
  {
  }

  /** The fields are assigned in order until the first read that fails:
      exactly the reads before it are stored, the later fields keep their
      old values, and that read's exception is the one printed. */
  lemma AssignInOrder(s: Settings, rs: seq<Result<string, Errors.Error>>)
    requires |rs| == 5
    ensures var r := Assign(s, rs[0], rs[1], rs[2], rs[3], rs[4]);
      var k := Succeeded(rs);
      && (forall i | 0 <= i < 5 :: Field(r.next, i) == (if i < k then Some(rs[i].value) else Field(s, i)))
      && r.failure == (if k == 5 then None else Some(rs[k].error))
  {
    SucceededFive(rs);
  }

  lemma ReadConfigAssignsInOrder(s: Settings, twitch: Option<string>, ai: Option<string>, prompt: Option<string>)
    ensures var r := ReadConfig(s, twitch, ai, prompt);
      var rs := Reads(twitch, ai, prompt);
      var k := Succeeded(rs);
      && (forall i | 0 <= i < 5 :: Field(r.next, i) == (if i < k then Some(rs[i].value) else Field(s, i)))
      && r.failure == (if k == 5 then None else Some(rs[k].error))
  {
    AssignInOrder(s, Reads(twitch, ai, prompt));
  }

  /** The configuration files as the program's template writes them. */
  function TwitchConf(id: string, secret: string, refresh: string): string
  {
    ConfLine("ID", id) + "\n" + ConfLine("Secret", secret) + "\n" + ConfLine("Refresh", refresh)
  }

  predicate Usable(value: string)
  {
    |value| > 0 && '"' !in value && '\n' !in value && value != "changeMe"
  }

  /** Files written in the expected format, with real values on lines of
      their own, load every setting and print nothing. */
  lemma ReadWellFormed(s: Settings, id: string, secret: string, refresh: string, key: string, prompt: string)
    requires Usable(id) && Usable(secret) && Usable(refresh) && Usable(key)
    ensures ReadConfig(s, Some(TwitchConf(id, secret, refresh)), Some(ConfLine("Gemini_Key", key)), Some(prompt))
      == Loaded(Settings(Some(id), Some(secret), Some(refresh), Some(key), Some(prompt)), None)
  {
    TwitchValues(id, secret, refresh);
    var ai := ConfLine("Gemini_Key", key);
    assert ai == ai + "";
    FirstLineValue("Gemini_Key", key, "", "Gemini_Key");
  }

  /** The three values of a well-formed Twitch file. */
  lemma TwitchValues(id: string, secret: string, refresh: string)
    requires Usable(id) && Usable(secret) && Usable(refresh)
    ensures var twitch := TwitchConf(id, secret, refresh);
      && GetValue(twitch, "ID") == Success(id)
      && GetValue(twitch, "Secret") == Success(secret)
      && GetValue(twitch, "Refresh") == Success(refresh)
  {
    var l1, rest := ConfLine("ID", id), ConfLine("Secret", secret) + "\n" + ConfLine("Refresh", refresh);
    assert TwitchConf(id, secret, refresh) == l1 + "\n" + rest;
    TwitchId(id, rest);
    RestValues(secret, refresh);
    BelowId(id, rest, "Secret");
    BelowId(id, rest, "Refresh");
  }

  lemma TwitchId(id: string, rest: string)
    requires Usable(id)
    ensures GetValue(ConfLine("ID", id) + "\n" + rest, "ID") == Success(id)
  {
    var l1 := ConfLine("ID", id);
    assert l1 + "\n" + rest == l1 + ("\n" + rest);
    FirstLineValue("ID", id, "\n" + rest, "ID");
  }

  /** Lines below the `ID` line are found through it. */
  lemma BelowId(id: string, rest: string, target: string)
    requires Usable(id) && (target == "Secret" || target == "Refresh")
    ensures GetValue(ConfLine("ID", id) + "\n" + rest, target) == GetValue(rest, target)
  {
    ConfLineBegins("ID", id, target);
    ConfLineNoBreak("ID", id);
    SkipLine(ConfLine("ID", id), rest, target);
  }

  /** The second and third lines of a well-formed Twitch file. */
  lemma RestValues(secret: string, refresh: string)
    requires Usable(secret) && Usable(refresh)
    ensures var rest := ConfLine("Secret", secret) + "\n" + ConfLine("Refresh", refresh);
      && GetValue(rest, "Secret") == Success(secret)
      && GetValue(rest, "Refresh") == Success(refresh)
  {
    SecretFirst(secret, ConfLine("Refresh", refresh));
    BelowSecret(secret, refresh);
  }

  lemma SecretFirst(secret: string, rest: string)
    requires Usable(secret)
    ensures GetValue(ConfLine("Secret", secret) + "\n" + rest, "Secret") == Success(secret)
  {
    var l2 := ConfLine("Secret", secret);
    assert l2 + "\n" + rest == l2 + ("\n" + rest);
    FirstLineValue("Secret", secret, "\n" + rest, "Secret");
  }

  lemma BelowSecret(secret: string, refresh: string)
    requires Usable(secret) && Usable(refresh)
    ensures GetValue(ConfLine("Secret", secret) + "\n" + ConfLine("Refresh", refresh), "Refresh") == Success(refresh)
  {
    var l3 := ConfLine("Refresh", refresh);
    ConfLineBegins("Secret", secret, "Refresh");
    ConfLineNoBreak("Secret", secret);
    SkipLine(ConfLine("Secret", secret), l3, "Refresh");
    assert l3 == l3 + "";
    FirstLineValue("Refresh", refresh, "", "Refresh");
  }

  /** A configuration line starts with its own name and no other whose
      first letter differs. */
  lemma ConfLineBegins(name: string, value: string, target: string)
    requires |name| > 0 && |target| > 0 && Text.LowerAscii(name[0]) != Text.LowerAscii(target[0])
    ensures !Begins(ConfLine(name, value), target)
  {
    assert ConfLine(name, value)[0] == name[0];
  }

  lemma ConfLineNoBreak(name: string, value: string)
    requires '\n' !in name && '\n' !in value
    ensures '\n' !in ConfLine(name, value)
  {
  }
}

=== FILE: sharpengine.dfy ===
/** The static `TwitchSharpEngine`: console settings, the filtered console
    writer `SendConsole`, and `GenerateRefreshTokenAsync`, which prints the
    authorize link, reads the redirect URL back, takes its `code` parameter
    and exchanges it for a refresh token (RFC 6749, section 4.1.3). */
module SharpEngine {
  import opened Wrappers
  import Errors
  import Json
  import Users
  import Tokens
  import OAuth
  import Query
  import Text

  /** `ConsoleLevel`, in declaration order. */
  datatype ConsoleLevel = Trace | Debug | Information | Warning | Error | Needed

  /** The enum's underlying value, which `<` compares. */
  function Rank(l: ConsoleLevel): nat
  {
    match l
    case Trace => 0
    case Debug => 1
    case Information => 2
    case Warning => 3
    case Error => 4
    case Needed => 5
  }

  /** `level.ToString()`. */
  function LevelName(l: ConsoleLevel): string
  {
    match l
    case Trace => "Trace"
    case Debug => "Debug"
    case Information => "Information"
    case Warning => "Warning"
    case Error => "Error"
    case Needed => "Needed"
  }

  /** The four static settings. */
  datatype Settings = Settings(level: ConsoleLevel, showTime: bool, showLevel: bool, dateTimeFormat: string)

  const Defaults: Settings := Settings(Information, false, false, "dd/MM/yyyy - HH:mm:ss")

  /** `ModifyEngine`: each non-null argument replaces its setting. */
  function ModifyEngine(s: Settings, level: Option<ConsoleLevel>, showTime: Option<bool>,
                        showLevel: Option<bool>, dateTimeFormat: NString): (r: Settings)
    ensures level.Some? ==> r.level == level.value
    ensures level.None? ==> r.level == s.level
    ensures showTime.Some? ==> r.showTime == showTime.value
    ensures showTime.None? ==> r.showTime == s.showTime
    ensures showLevel.Some? ==> r.showLevel == showLevel.value
    ensures showLevel.None? ==> r.showLevel == s.showLevel
    ensures dateTimeFormat.Some? ==> r.dateTimeFormat == dateTimeFormat.value
    ensures dateTimeFormat.None? ==> r.dateTimeFormat == s.dateTimeFormat
  {
    var s1 := if level.Some? then s.(level := level.value) else s;
    var s2 := if showTime.Some? then s1.(showTime := showTime.value) else s1;
    var s3 := if showLevel.Some? then s2.(showLevel := showLevel.value) else s2;
    if dateTimeFormat.Some? then s3.(dateTimeFormat := dateTimeFormat.value) else s3
  }

  /** The later of two optional arguments wins. */
  function Later<T>(later: Option<T>, earlier: Option<T>): Option<T>
  {
    if later.Some? then later else earlier
  }

  /** Two calls act as one call with the later non-null arguments. */
  lemma ModifyComposes(s: Settings, l1: Option<ConsoleLevel>, t1: Option<bool>, v1: Option<bool>, f1: NString,
                       l2: Option<ConsoleLevel>, t2: Option<bool>, v2: Option<bool>, f2: NString)
    ensures ModifyEngine(ModifyEngine(s, l1, t1, v1, f1), l2, t2, v2, f2) ==
            ModifyEngine(s, Later(l2, l1), Later(t2, t1), Later(v2, v1), Later(f2, f1))
  {
  }

  /** What `SendConsole` writes: the header, then the content on its line. */
  datatype Printed = Printed(header: string, content: string)

  /** The magenta header; `time` is the current time in the configured format. */
  function Header(s: Settings, level: ConsoleLevel, time: string): string
  {
    "[TwitchSharp" + (if s.showTime then " " + time else "") + "] "
      + (if s.showLevel then " " + LevelName(level) + " - " else "")
  }

  /** `SendConsole`; `clock(format)` is `DateTime.Now.ToString(format)`. */
  function SendConsole(s: Settings, content: string, level: ConsoleLevel, clock: string -> string): (r: Option<Printed>)
    ensures r.None? <==> Rank(level) < Rank(s.level)
    ensures r.Some? ==> r.value.content == content
    ensures r.Some? ==> r.value.header == Header(s, level, clock(s.dateTimeFormat))
  {
    if Rank(level) < Rank(s.level) then None
    else Some(Printed(Header(s, level, clock(s.dateTimeFormat)), content))
  }

  /** `Needed` is the highest level: it is printed under every threshold. */
  lemma NeededAlwaysPrinted(s: Settings, content: string, clock: string -> string)
    ensures SendConsole(s, content, Needed, clock).Some?
    ensures forall l: ConsoleLevel :: Rank(l) <= Rank(Needed)
  {
  }

  /** The filter is monotone: what is printed at one level is printed at
      every higher level. */
  lemma FilterMonotone(s: Settings, content: string, low: ConsoleLevel, high: ConsoleLevel, clock: string -> string)
    requires Rank(low) <= Rank(high)
    ensures SendConsole(s, content, low, clock).Some? ==> SendConsole(s, content, high, clock).Some?
  {
  }

  /** Under the defaults, `Trace` and `Debug` are dropped, everything from
      `Information` up is printed, and the header is the bare tag. */
  lemma DefaultFilter(content: string, level: ConsoleLevel, clock: string -> string)
    ensures SendConsole(Defaults, content, level, clock).None? <==> level == Trace || level == Debug
    ensures SendConsole(Defaults, content, level, clock).Some? ==>
      SendConsole(Defaults, content, level, clock).value.header == "[TwitchSharp] "
  {
  }

  /** With the level shown, the header names the level: two levels never
      share a header. */
  lemma HeaderIdentifiesLevel(s: Settings, l1: ConsoleLevel, l2: ConsoleLevel, time: string)
    requires s.showLevel
    requires Header(s, l1, time) == Header(s, l2, time)
    ensures l1 == l2
  {
    var p := "[TwitchSharp" + (if s.showTime then " " + time else "") + "] ";
    var h1, h2 := Header(s, l1, time), Header(s, l2, time);
    assert h1 == p + (" " + LevelName(l1) + " - ");
    assert h2 == p + (" " + LevelName(l2) + " - ");
    assert LevelName(l1) == h1[|p| + 1..|h1| - 3];
    assert LevelName(l2) == h2[|p| + 1..|h2| - 3];
  }

  // ----- GenerateRefreshTokenAsync -----

  /** `TwitchRefreshTokenConfig`. */
  datatype RefreshConfig = RefreshConfig(
    clientId: NString, clientSecret: NString, redirectUri: NString, scopes: Option<seq<string>>)

  /** What the generation did: the configuration afterwards (its scopes
      rewritten in place), the prompt printed, the refresh token or the
      exception, and the calls made. */
  datatype Generated = Generated(
    config: RefreshConfig, prompt: Option<Printed>, result: Result<NString, Errors.Error>, calls: seq<Tokens.Call>)

  const PromptText: string := "Authorization needed! Please authorize with the following link: \n"

  /** The `code` parameter of the redirect URL. */
  function CodeOf(url: string): NString
  {
    Query.Lookup(url, "code")
  }

  /** The form posted for the code, built as the dictionary literal is. */
  function ExchangeForm(conf: RefreshConfig, code: string): Users.Form
  {
    Tokens.AuthorizationCodeForm(Tokens.Tokens(conf.clientId, conf.clientSecret, None, None, None),
                                 Some(code), conf.redirectUri)
  }

  /** `GenerateRefreshTokenAsync`, with `responseUrl` the line read from the
      console (null at end of input). */
  function GenerateRefreshToken(s: Settings, conf: RefreshConfig, responseUrl: NString,
                                clock: string -> string, api: Tokens.Api): (g: Generated)
    ensures conf.scopes.None? ==> g == Generated(conf, None, Failure(Errors.NullReference), [])
    ensures conf.scopes.Some? ==>
      && g.config == conf.(scopes := Some(OAuth.EscapeScopes(conf.scopes.value)))
      && g.prompt == Some(Printed(Header(s, Needed, clock(s.dateTimeFormat)),
           PromptText + OAuth.AuthorizeUrl(conf.clientId, conf.redirectUri, g.config.scopes.value)))
    ensures conf.scopes.Some? && responseUrl.None? ==> g.result == Failure(Errors.CodeNull) && g.calls == []
    ensures conf.scopes.Some? && responseUrl.Some? && CodeOf(responseUrl.value) in {None, Some("")} ==>
      g.result == Failure(Errors.CodeNotFound) && g.calls == []
    ensures g.calls != [] ==>
      && conf.scopes.Some? && responseUrl.Some?
      && CodeOf(responseUrl.value).Some? && CodeOf(responseUrl.value).value != ""
      && g.calls == [Tokens.Post(Tokens.TokenEndpoint, None, ExchangeForm(conf, CodeOf(responseUrl.value).value))]
    ensures g.result.Success? ==>
      |g.calls| == 1 && api(g.calls[0]).status == Users.OK
      && g.result == Json.StringAt(api(g.calls[0]).body, ["refresh_token"])
    ensures |g.calls| == 1 && api(g.calls[0]).status != Users.OK ==>
      g.result == Failure(Errors.UserTokenFailed(api(g.calls[0]).status))
  {
    match conf.scopes
    case None => Generated(conf, None, Failure(Errors.NullReference), [])
    case Some(scopes) =>
      var escaped := conf.(scopes := Some(OAuth.EscapeScopes(scopes)));
      var link := OAuth.AuthorizeUrl(conf.clientId, conf.redirectUri, escaped.scopes.value);
      NeededAlwaysPrinted(s, PromptText + link, clock);
      var prompt := SendConsole(s, PromptText + link, Needed, clock);
      match responseUrl
      case None => Generated(escaped, prompt, Failure(Errors.CodeNull), [])
      case Some(url) =>
        match CodeOf(url)
        case None => Generated(escaped, prompt, Failure(Errors.CodeNotFound), [])
        case Some(code) =>
          if code == "" then Generated(escaped, prompt, Failure(Errors.CodeNotFound), [])
          else
            var call := Tokens.Post(Tokens.TokenEndpoint, None, ExchangeForm(conf, code));
            var reply := api(call);
            if reply.status != Users.OK then
              Generated(escaped, prompt, Failure(Errors.UserTokenFailed(reply.status)), [call])
            else
              Generated(escaped, prompt, Json.StringAt(reply.body, ["refresh_token"]), [call])
  }

  /** The redirect Twitch sends back, `base?code=...&scope=...`, yields its code. */
  lemma RedirectCarriesCode(base: string, code: string, scope: string)
    requires '?' !in base && '#' !in base
    requires '&' !in code && '#' !in code && '&' !in scope && '#' !in scope
    ensures CodeOf(base + "?" + (OAuth.Pair("code", code) + "&" + OAuth.Pair("scope", scope))) == Some(code)
  {
    var a, b := OAuth.Pair("code", code), OAuth.Pair("scope", scope);
    OAuth.NamePlain("code");
    OAuth.NamePlain("scope");
    OAuth.PairParses("code", code, '&');
    OAuth.PairParses("scope", scope, '&');
    OAuth.PairParses("code", code, '#');
    OAuth.PairParses("scope", scope, '#');
    var q := a + "&" + b;
    assert '#' !in q;
    Query.QueryOfUrl(base, q);
    Text.SplitNoSeparator(b, '&');
    Text.SplitPrefix(a, '&', b);
    assert Text.Split("", '&') == [""];
    var ps := Query.Params(q);
    assert |ps| == 2 && ps[0] == Query.Param(Some("code"), code) && ps[1] == Query.Param(Some("scope"), scope);
    Query.GetSingle(ps, "code", 0);
  }

  /** The code in the redirect is the code exchanged: for a non-empty code
      the one post carries it with the authorization-code grant, and a 200
      reply yields the body's `refresh_token`. */
  lemma RedirectCodeExchanged(s: Settings, conf: RefreshConfig, base: string, code: string, scope: string,
                              clock: string -> string, api: Tokens.Api)
    requires conf.scopes.Some?
    requires '?' !in base && '#' !in base
    requires '&' !in code && '#' !in code && '&' !in scope && '#' !in scope
    requires code != ""
    ensures var g := GenerateRefreshToken(s, conf,
                       Some(base + "?" + (OAuth.Pair("code", code) + "&" + OAuth.Pair("scope", scope))), clock, api);
      && |g.calls| == 1
      && Users.FormValue(g.calls[0].form, "code") == Some(code)
      && Users.FormValue(g.calls[0].form, "grant_type") == Some("authorization_code")
      && (api(g.calls[0]).status == Users.OK ==> g.result == Json.StringAt(api(g.calls[0]).body, ["refresh_token"]))
  {
    RedirectCarriesCode(base, code, scope);
  }
}

=== FILE: streams.dfy ===
/** `TwitchStream`: the Helix `streams` status table, the record it builds
    and the thumbnail templating. The two generations of the class contain
    the same code; the model is generic in the broadcaster's record type. */
module Streams {
  import opened Wrappers
  import opened Errors
  import opened Json
  import opened Text
  import Users

  datatype TwitchStream<U> = TwitchStream(
    id: NString,
    broadcaster: U,
    gameId: NString,
    gameName: NString,
    title: NString,
    tags: seq<NString>,
    currentViewer: int,
    startedAtText: NString,
    isMature: bool,
    thumbnailUrl: NString)

  const BadRequestMessage: string := "Code 400 - Bad Request!"
  const UnauthorizedMessage: string := "Code 401 - Unauthorized!"
  const UnknownMessage: string := "Unknown Error"

  /** `tags.EnumerateArray().Select(x => x.GetString()).ToArray()`. */
  function Strings(items: seq<Json>): (r: Result<seq<NString>, Error>)
    ensures r.Success? <==> forall i | 0 <= i < |items| :: GetString(items[i]).Success?
    ensures r.Success? ==> |r.value| == |items|
    ensures r.Success? ==> forall i | 0 <= i < |items| :: r.value[i] == GetString(items[i]).value
    decreases |items|
  {
    if |items| == 0 then Success([])
    else
      var head :- GetString(items[0]);
      var tail :- Strings(items[1..]);
      assert forall i | 1 <= i < |items| :: items[1..][i - 1] == items[i];
      Success([head] + tail)
  }

  /** The fields read from `data[0]`, in source order. */
  function StreamFromData<U>(data: Json, user: U): Result<TwitchStream<U>, Error>
  {
    var idE :- GetProperty(data, "id");
    var id :- GetString(idE);
    var gameIdE :- GetProperty(data, "game_id");
    var gameId :- GetString(gameIdE);
    var gameNameE :- GetProperty(data, "game_name");
    var gameName :- GetString(gameNameE);
    var titleE :- GetProperty(data, "title");
    var title :- GetString(titleE);
    var tagsE :- GetProperty(data, "tags");
    var tagItems :- Items(tagsE);
    var tags :- Strings(tagItems);
    var viewersE :- GetProperty(data, "viewer_count");
    var viewers :- GetInt16(viewersE);
    var startedE :- GetProperty(data, "started_at");
    var started :- GetString(startedE);
    var matureE :- GetProperty(data, "is_mature");
    var mature :- GetBoolean(matureE);
    var thumbE :- GetProperty(data, "thumbnail_url");
    var thumb :- GetString(thumbE);
    Success(TwitchStream(id, user, gameId, gameName, title, tags, viewers, started, mature, thumb))
  }

  /** `new TwitchStream(client, user)` given the response of the streams
      endpoint: 400 and 401 throw, 200 with an empty `data` array throws
      "User is Offline!", any other status throws "Unknown Error". */
  function StreamFromResponse<U>(status: int, body: Json, user: U): (r: Result<TwitchStream<U>, Error>)
    ensures r.Success? ==> status == Users.OK
    ensures status == Users.BadRequestStatus ==> r == Failure(BadRequest(Some(BadRequestMessage)))
    ensures status == Users.UnauthorizedStatus ==> r == Failure(Unauthorized(Some(UnauthorizedMessage)))
    ensures status !in {Users.OK, Users.BadRequestStatus, Users.UnauthorizedStatus} ==>
      r == Failure(UnknownError(Some(UnknownMessage)))
    ensures status == Users.OK && At(body, ["data"]) == Success(JArray([])) ==> r == Failure(UserOffline)
    ensures r.Success? ==>
      && At(body, ["data"]).Success? && At(body, ["data"]).value.JArray?
      && |At(body, ["data"]).value.items| > 0
      && r == StreamFromData(At(body, ["data"]).value.items[0], user)
    ensures r.Success? ==> r.value.broadcaster == user
    ensures r.Success? ==> Int16Min <= r.value.currentViewer <= Int16Max
  {
    At1(body, "data");
    if status == Users.BadRequestStatus then Failure(BadRequest(Some(BadRequestMessage)))
    else if status == Users.UnauthorizedStatus then Failure(Unauthorized(Some(UnauthorizedMessage)))
    else if status == Users.OK then
      var dataE :- GetProperty(body, "data");
      var items :- Items(dataE);
      if |items| == 0 then Failure(UserOffline)
      else
        StreamFromData(items[0], user)
    else Failure(UnknownError(Some(UnknownMessage)))
  }

  const DefaultWidth: int := 1920
  const DefaultHeight: int := 1080
  const WidthPlaceholder: string := "{width}"
  const HeightPlaceholder: string := "{height}"

  /** `GetThumbnailUrl(width, height)` on a stored template: every "{width}"
      becomes the width's decimal text, then every "{height}" the height's. */
  function FillThumbnail(template: string, width: int, height: int): string
  {
    ReplaceAll(ReplaceAll(template, WidthPlaceholder, IntString(width)), HeightPlaceholder, IntString(height))
  }

  /** An omitted optional argument takes its declared default. */
  function OrDefault(arg: Option<int>, default: int): int
  {
    if arg.Some? then arg.value else default
  }

  /** `GetThumbnailUrl(width, height)`, with `None` for an argument the
      caller leaves out: the stored template with every "{width}" replaced
      by the width's decimal text and then every "{height}" by the
      height's. A null template is dereferenced and throws. */
  function GetThumbnailUrl<U>(s: TwitchStream<U>, width: Option<int>, height: Option<int>): (r: Result<string, Error>)
    ensures r.Success? <==> s.thumbnailUrl.Some?
    ensures r.Failure? ==> r.error == NullReference
    ensures r.Success? ==>
      r.value == FillThumbnail(s.thumbnailUrl.value, OrDefault(width, DefaultWidth), OrDefault(height, DefaultHeight))
    ensures r.Success? ==> !Occurs(r.value, WidthPlaceholder) && !Occurs(r.value, HeightPlaceholder)
  {
    match s.thumbnailUrl
    case Some(t) =>
      var w, h := OrDefault(width, DefaultWidth), OrDefault(height, DefaultHeight);
      ThumbnailFilled(t, w, h);
      Success(FillThumbnail(t, w, h))
    case None => Failure(NullReference)
  }

  /** `GetPlainThumbnailUrl()`: the stored template, verbatim. */
  function GetPlainThumbnailUrl<U>(s: TwitchStream<U>): (r: NString)
    ensures r == s.thumbnailUrl
  {
    s.thumbnailUrl
  }

  lemma NumberDisjoint(n: int, word: string)
    requires forall c | c in word :: c !in "-0123456789"
    ensures Disjoint(IntString(n), word)
  {
    IntStringShape(n);
  }

  /** After filling, neither placeholder is left in the URL: each
      replacement removes its own placeholder and the digits it inserts
      cannot form the other one. */
  lemma ThumbnailFilled(template: string, width: int, height: int)
    ensures !Occurs(FillThumbnail(template, width, height), WidthPlaceholder)
    ensures !Occurs(FillThumbnail(template, width, height), HeightPlaceholder)
  {
    var w := IntString(width);
    var h := IntString(height);
    IntStringShape(width);
    IntStringShape(height);
    NumberDisjoint(width, WidthPlaceholder);
    NumberDisjoint(height, HeightPlaceholder);
    NumberDisjoint(height, WidthPlaceholder);
    var once := ReplaceAll(template, WidthPlaceholder, w);
    ReplaceAllRemoves(template, WidthPlaceholder, w);
    ReplaceAllRemoves(once, HeightPlaceholder, h);
    ReplaceAllCreatesNothing(once, HeightPlaceholder, h, WidthPlaceholder);
  }

  /** A template without placeholders is returned unchanged, whatever the size. */
  lemma ThumbnailWithoutPlaceholders(template: string, width: int, height: int)
    requires !Occurs(template, WidthPlaceholder) && !Occurs(template, HeightPlaceholder)
    ensures FillThumbnail(template, width, height) == template
  {
    ReplaceAllAbsent(template, WidthPlaceholder, IntString(width));
    ReplaceAllAbsent(template, HeightPlaceholder, IntString(height));
  }

  /** The plain and the filled thumbnail agree: the filled one throws
      exactly when the plain one is null, and a template without
      placeholders is filled into itself, whatever the size. */
  lemma PlainAndFilledAgree<U>(s: TwitchStream<U>, width: Option<int>, height: Option<int>)
    ensures GetThumbnailUrl(s, width, height).Failure? <==> GetPlainThumbnailUrl(s).None?
    ensures GetPlainThumbnailUrl(s).Some?
      && !Occurs(GetPlainThumbnailUrl(s).value, WidthPlaceholder)
      && !Occurs(GetPlainThumbnailUrl(s).value, HeightPlaceholder)
      ==> GetThumbnailUrl(s, width, height) == Success(GetPlainThumbnailUrl(s).value)
  {
    if s.thumbnailUrl.Some? && !Occurs(s.thumbnailUrl.value, WidthPlaceholder) && !Occurs(s.thumbnailUrl.value, HeightPlaceholder) {
      ThumbnailWithoutPlaceholders(s.thumbnailUrl.value, OrDefault(width, DefaultWidth), OrDefault(height, DefaultHeight));
    }
  }

  /** Replacing a placeholder in a text whose first part holds no '{'
      copies that part and goes on after it. */
  lemma BraceFreeSkip(a: string, rest: string, pat: string, rep: string)
    requires |pat| > 0 && pat[0] == '{' && '{' !in a
    ensures ReplaceAll(a + rest, pat, rep) == a + ReplaceAll(rest, pat, rep)
  {
    forall i | 0 <= i < |a|
      ensures !StartsWith((a + rest)[i..], pat)
    {
      assert (a + rest)[i..][0] == a[i];
    }
    ReplaceAllSkip(a, rest, pat, rep);
  }

  /** A text without '{' holds no placeholder and is kept as it is. */
  lemma BraceFreeKept(a: string, pat: string, rep: string)
    requires |pat| > 0 && pat[0] == '{' && '{' !in a
    ensures ReplaceAll(a, pat, rep) == a
  {
    BraceFreeSkip(a, "", pat, rep);
    assert a + "" == a;
  }

  /** The first pass leaves "{height}" alone: it starts like "{width}" but
      differs at its second character. */
  lemma HeightSurvivesWidthPass(z: string, rep: string)
    requires '{' !in z
    ensures ReplaceAll(HeightPlaceholder + z, WidthPlaceholder, rep) == HeightPlaceholder + z
  {
    var s := HeightPlaceholder + z;
    forall i | 0 <= i < |HeightPlaceholder|
      ensures !StartsWith(s[i..], WidthPlaceholder)
    {
      if i == 0 {
        assert s[i..][1] == 'h';
      } else {
        assert s[i..][0] == HeightPlaceholder[i];
      }
    }
    ReplaceAllSkip(HeightPlaceholder, z, WidthPlaceholder, rep);
    BraceFreeKept(z, WidthPlaceholder, rep);
  }

  /** A placeholder after brace-free text is replaced in place. */
  lemma PassOver(a: string, pat: string, rest: string, rep: string)
    requires |pat| > 0 && pat[0] == '{' && '{' !in a
    ensures ReplaceAll(a + pat + rest, pat, rep) == a + rep + ReplaceAll(rest, pat, rep)
  {
    assert a + pat + rest == a + (pat + rest);
    BraceFreeSkip(a, pat + rest, pat, rep);
    ReplaceAllFront(pat, rest, rep);
    assert a + (rep + ReplaceAll(rest, pat, rep)) == a + rep + ReplaceAll(rest, pat, rep);
  }

  /** The first pass over `a pat m other z`, where the pass leaves `other z` alone. */
  lemma FirstPass(a: string, pat: string, m: string, other: string, z: string, rep: string)
    requires |pat| > 0 && pat[0] == '{' && '{' !in a && '{' !in m
    requires ReplaceAll(other + z, pat, rep) == other + z
    ensures ReplaceAll(a + pat + m + other + z, pat, rep) == a + rep + m + other + z
  {
    assert a + pat + m + other + z == a + pat + (m + (other + z));
    PassOver(a, pat, m + (other + z), rep);
    BraceFreeSkip(m, other + z, pat, rep);
    assert a + rep + (m + (other + z)) == a + rep + m + other + z;
  }

  /** The second pass over `b pat z`. */
  lemma SecondPass(b: string, pat: string, z: string, rep: string)
    requires |pat| > 0 && pat[0] == '{' && '{' !in b && '{' !in z
    ensures ReplaceAll(b + pat + z, pat, rep) == b + rep + z
  {
    PassOver(b, pat, z, rep);
    BraceFreeKept(z, pat, rep);
  }

  /** A template of the shape Twitch returns, one "{width}" and then one
      "{height}" in text without other braces, is filled in place: the
      numbers take the placeholders' positions and nothing else changes. */
  lemma ThumbnailSubstitution(a: string, m: string, z: string, width: int, height: int)
    requires '{' !in a && '{' !in m && '{' !in z
    ensures FillThumbnail(a + WidthPlaceholder + m + HeightPlaceholder + z, width, height)
         == a + IntString(width) + m + IntString(height) + z
  {
    var w, h := IntString(width), IntString(height);
    IntStringShape(width);
    assert '{' !in w;
    HeightSurvivesWidthPass(z, w);
    FirstPass(a, WidthPlaceholder, m, HeightPlaceholder, z, w);
    var b := a + w + m;
    assert '{' !in b;
    SecondPass(b, HeightPlaceholder, z, h);
  }

  /** Called without arguments on such a template, the URL asks for the
      1920 by 1080 image. */
  lemma DefaultThumbnailSize<U>(s: TwitchStream<U>, a: string, m: string, z: string)
    requires s.thumbnailUrl == Some(a + WidthPlaceholder + m + HeightPlaceholder + z)
    requires '{' !in a && '{' !in m && '{' !in z
    ensures GetThumbnailUrl(s, None, None) == Success(a + "1920" + m + "1080" + z)
  {
    ThumbnailSubstitution(a, m, z, DefaultWidth, DefaultHeight);
    assert NatString(1920) == "1920" by {
      assert NatString(1) == "1";
      assert NatString(19) == "19";
      assert NatString(192) == "192";
    }
    assert NatString(1080) == "1080" by {
      assert NatString(1) == "1";
      assert NatString(10) == "10";
      assert NatString(108) == "108";
    }
  }
}

=== FILE: subscriptions.dfy ===
/** The older generation's `EventSubscription`: the descriptor table of
    `createSubscription`, its broadcaster check, and the condition
    `EventEngine` splices into each subscription request. */
module Subscriptions {
  import opened Wrappers
  import opened Errors
  import opened Conditions
  import Users

  datatype EventType = ChannelMessageReceived | PrivateMessageReceived | ChannelFollowReceived

  datatype EventSubscription = EventSubscription(
    requiresBroadcaster: bool,
    requiresUser: bool,
    requiresModRole: bool,
    typeString: string,
    broadcasterId: NString,
    version: int)

  /** One row of the `createSubscription` switch. */
  datatype Descriptor = Descriptor(requiresBroadcaster: bool, requiresUser: bool, requiresModRole: bool,
                                   typeString: string, version: int)

  function Table(t: EventType): Descriptor
  {
    match t
    case ChannelMessageReceived => Descriptor(true, true, false, "channel.chat.message", 1)
    case PrivateMessageReceived => Descriptor(false, true, false, "user.whisper.message", 1)
    case ChannelFollowReceived => Descriptor(true, true, true, "channel.follow", 2)
  }

  /** `new EventSubscription(type)` / `new EventSubscription(type, channel)`:
      a broadcaster event without a channel throws; otherwise the row is
      copied and the broadcaster id is taken from the channel exactly when
      the row needs a broadcaster. */
  function CreateSubscription(t: EventType, channel: Option<Users.TwitchUser>): (r: Result<EventSubscription, Error>)
    ensures r.Failure? <==> Table(t).requiresBroadcaster && channel.None?
    ensures r.Failure? ==> r.error == MissingBroadcaster
    ensures r.Success? ==>
      && r.value.requiresBroadcaster == Table(t).requiresBroadcaster
      && r.value.requiresUser == Table(t).requiresUser
      && r.value.requiresModRole == Table(t).requiresModRole
      && r.value.typeString == Table(t).typeString
      && r.value.version == Table(t).version
    ensures r.Success? && r.value.requiresBroadcaster ==> r.value.broadcasterId == channel.value.id
    ensures r.Success? && !r.value.requiresBroadcaster ==> r.value.broadcasterId.None?
  {
    var d := Table(t);
    if d.requiresBroadcaster && channel.None? then Failure(MissingBroadcaster)
    else
      var id := if d.requiresBroadcaster then channel.value.id else None;
      Success(EventSubscription(d.requiresBroadcaster, d.requiresUser, d.requiresModRole, d.typeString, id, d.version))
  }

  /** The table's rows, as the wire protocol names them. */
  lemma TableRows()
    ensures Table(ChannelMessageReceived) == Descriptor(true, true, false, "channel.chat.message", 1)
    ensures Table(PrivateMessageReceived) == Descriptor(false, true, false, "user.whisper.message", 1)
    ensures Table(ChannelFollowReceived) == Descriptor(true, true, true, "channel.follow", 2)
    ensures forall t :: Table(t).requiresBroadcaster ==> Table(t).requiresUser
    ensures forall t :: Table(t).requiresModRole ==> Table(t).requiresBroadcaster
  {
  }

  /** The condition of `StartListeningAsync`: `"broadcaster_user_id": id,`
      (always with its comma) when a broadcaster is required, then the
      current user's id under `moderator_user_id` or `user_id` when a user is
      required. */
  function Condition(sub: EventSubscription, currentUserId: NString): (items: seq<Piece>)
    ensures WellFormed(items) <==> (sub.requiresBroadcaster ==> sub.requiresUser)
    ensures Value(items, BroadcasterKey).Some? <==> sub.requiresBroadcaster
    ensures sub.requiresBroadcaster ==> Value(items, BroadcasterKey) == Some(Render(sub.broadcasterId))
    ensures Value(items, ModeratorKey).Some? <==> sub.requiresUser && sub.requiresModRole
    ensures Value(items, UserKey).Some? <==> sub.requiresUser && !sub.requiresModRole
    ensures Value(items, ModeratorKey).Some? ==> Value(items, ModeratorKey) == Some(Render(currentUserId))
    ensures Value(items, UserKey).Some? ==> Value(items, UserKey) == Some(Render(currentUserId))
  {
    var userKey := if sub.requiresModRole then ModeratorKey else UserKey;
    var user := Entry(userKey, Render(currentUserId));
    EntryCons(userKey, Render(currentUserId), []);
    assert [user] == [user] + [];
    if sub.requiresBroadcaster then
      var b := Entry(BroadcasterKey, Render(sub.broadcasterId));
      if sub.requiresUser then
        CommaCons([user]);
        EntryCons(BroadcasterKey, b.value, [Comma, user]);
        assert [b, Comma, user] == [b] + ([Comma] + [user]);
        [b, Comma, user]
      else
        CommaCons([]);
        EntryCons(BroadcasterKey, b.value, [Comma]);
        assert [b, Comma] == [b] + [Comma];
        assert [b, Comma][1].Comma?;
        [b, Comma]
    else if sub.requiresUser then [user]
    else []
  }

  /** Every subscription the constructor can build yields a member list: the
      unconditional comma is always followed by a user entry. */
  lemma {:induction false} BuiltConditionsWellFormed(t: EventType, channel: Option<Users.TwitchUser>, uid: NString)
    ensures CreateSubscription(t, channel).Success? ==> WellFormed(Condition(CreateSubscription(t, channel).value, uid))
  {
    TableRows();
  }

  /** The older builder keys the user entry on the moderator flag alone,
      the newer one only for broadcaster events; on the table's rows the two
      agree because a moderator row is always a broadcaster row. */
  lemma ModeratorOnlyWithBroadcaster(t: EventType, channel: Option<Users.TwitchUser>, uid: NString)
    requires CreateSubscription(t, channel).Success?
    ensures Value(Condition(CreateSubscription(t, channel).value, uid), ModeratorKey).Some? ==>
            Value(Condition(CreateSubscription(t, channel).value, uid), BroadcasterKey).Some?
  {
    TableRows();
  }
}

=== FILE: text.dfy ===
/** The .NET string operations the source relies on (`Replace`, `IndexOf`,
    `PadRight`, `string.Join`, `int.ToString`), with the facts about them the
    rest of the model needs. All comparisons are ordinal. */
module Text {

  predicate StartsWith(s: string, p: string)
  {
    |p| <= |s| && s[..|p|] == p
  }

  /** `p` occurs somewhere in `s`. */
  predicate Occurs(s: string, p: string)
  {
    exists i | 0 <= i <= |s| :: StartsWith(s[i..], p)
  }

  /** No character of `a` appears in `b`. */
  predicate Disjoint(a: string, b: string)
  {
    forall i | 0 <= i < |a| :: a[i] !in b
  }

  /** `s.Replace(pat, rep)`: every occurrence of `pat`, found left to right
      without overlap, is replaced by `rep`. */
  function ReplaceAll(s: string, pat: string, rep: string): string
    requires |pat| > 0
    decreases |s|
  {
    if |s| < |pat| then s
    else if s[..|pat|] == pat then rep + ReplaceAll(s[|pat|..], pat, rep)
    else [s[0]] + ReplaceAll(s[1..], pat, rep)
  }

  lemma OccursShift(s: string, p: string, k: nat)
    requires k <= |s|
    requires Occurs(s[k..], p)
    ensures Occurs(s, p)
  {
    var i :| 0 <= i <= |s[k..]| && StartsWith(s[k..][i..], p);
    assert s[k..][i..] == s[k + i..];
  }

  lemma OccursTail(s: string, p: string)
    requires |s| > 0 && Occurs(s, p) && !StartsWith(s, p)
    ensures Occurs(s[1..], p)
  {
    var i :| 0 <= i <= |s| && StartsWith(s[i..], p);
    assert i != 0;
    assert s[1..][i - 1..] == s[i..];
  }

  /** A string in which `pat` does not occur is returned unchanged. */
  lemma {:induction false} ReplaceAllAbsent(s: string, pat: string, rep: string)
    requires |pat| > 0
    requires !Occurs(s, pat)
    ensures ReplaceAll(s, pat, rep) == s
    decreases |s|
  {
    if |s| >= |pat| {
      assert s[0..] == s;
      assert s[..|pat|] != pat;
      if Occurs(s[1..], pat) {
        OccursShift(s, pat, 1);
      }
      ReplaceAllAbsent(s[1..], pat, rep);
      assert [s[0]] + s[1..] == s;
    }
  }

  /** If the output of a replacement starts with a word made only of
      characters that the replacement text does not use, the input started
      with that word too. */
  lemma {:induction false} ReplaceAllPrefix(x: string, pat: string, rep: string, w: string)
    requires |pat| > 0 && |rep| > 0
    requires Disjoint(w, rep)
    ensures StartsWith(ReplaceAll(x, pat, rep), w) ==> StartsWith(x, w)
    decreases |x|
  {
    if |w| == 0 {
    } else if |x| < |pat| {
    } else if x[..|pat|] == pat {
      assert ReplaceAll(x, pat, rep)[0] == rep[0];
      assert rep[0] in rep;
    } else {
      var tail := ReplaceAll(x[1..], pat, rep);
      assert ReplaceAll(x, pat, rep) == [x[0]] + tail;
      ReplaceAllPrefix(x[1..], pat, rep, w[1..]);
      if StartsWith(ReplaceAll(x, pat, rep), w) {
        assert StartsWith(tail, w[1..]) by {
          assert tail[..|w| - 1] == ReplaceAll(x, pat, rep)[1..|w|];
        }
        assert x[..|w|] == [x[0]] + x[1..][..|w| - 1];
      }
    }
  }

  /** When the replacement text shares no character with the pattern, no
      occurrence of the pattern survives the replacement. */
  lemma {:induction false} ReplaceAllRemoves(s: string, pat: string, rep: string)
    requires |pat| > 0 && |rep| > 0
    requires Disjoint(rep, pat)
    ensures !Occurs(ReplaceAll(s, pat, rep), pat)
    decreases |s|
  {
    var r := ReplaceAll(s, pat, rep);
    if |s| < |pat| {
    } else if s[..|pat|] == pat {
      var tail := ReplaceAll(s[|pat|..], pat, rep);
      ReplaceAllRemoves(s[|pat|..], pat, rep);
      forall i | 0 <= i <= |r|
        ensures !StartsWith(r[i..], pat)
      {
        if i < |rep| {
          assert r[i] == rep[i];
          assert pat[0] in pat;
        } else {
          assert r[i..] == tail[i - |rep|..];
        }
      }
    } else {
      var tail := ReplaceAll(s[1..], pat, rep);
      assert r == [s[0]] + tail;
      ReplaceAllRemoves(s[1..], pat, rep);
      forall i | 0 <= i <= |r|
        ensures !StartsWith(r[i..], pat)
      {
        if i == 0 {
          if StartsWith(r, pat) {
            assert StartsWith(tail, pat[1..]) by {
              assert tail[..|pat| - 1] == r[1..|pat|];
            }
            DisjointSuffix(rep, pat);
            ReplaceAllPrefix(s[1..], pat, rep, pat[1..]);
            assert false;
          }
        } else {
          assert r[i..] == tail[i - 1..];
        }
      }
    }
  }

  lemma DisjointSuffix(a: string, b: string)
    requires |b| > 0 && Disjoint(a, b)
    ensures Disjoint(b[1..], a)
  {
    forall k | 0 <= k < |b[1..]|
      ensures b[1..][k] !in a
    {
      assert b[1..][k] in b;
    }
  }

  /** Replacing with text that shares no character with a word `q` cannot
      create an occurrence of `q`. */
  lemma {:induction false} ReplaceAllCreatesNothing(s: string, pat: string, rep: string, q: string)
    requires |pat| > 0 && |rep| > 0 && |q| > 0
    requires Disjoint(rep, q)
    ensures Occurs(ReplaceAll(s, pat, rep), q) ==> Occurs(s, q)
    decreases |s|
  {
    if |s| < |pat| {
    } else if s[..|pat|] == pat {
      ReplaceAllCreatesNothing(s[|pat|..], pat, rep, q);
      OccursAfterReplacement(s, |pat|, ReplaceAll(s, pat, rep), rep, ReplaceAll(s[|pat|..], pat, rep), q);
    } else {
      var r, tail := ReplaceAll(s, pat, rep), ReplaceAll(s[1..], pat, rep);
      ReplaceAllCreatesNothing(s[1..], pat, rep, q);
      DisjointSuffix(rep, q);
      ReplaceAllPrefix(s[1..], pat, rep, q[1..]);
      OccursAfterCopy(s, r, tail, q);
    }
  }

  /** The step where a match of length `k` became `rep`: `q`, sharing no
      character with `rep`, can only occur in what follows it. */
  lemma OccursAfterReplacement(s: string, k: nat, r: string, rep: string, tail: string, q: string)
    requires k <= |s| && r == rep + tail && |q| > 0 && Disjoint(rep, q)
    requires Occurs(tail, q) ==> Occurs(s[k..], q)
    ensures Occurs(r, q) ==> Occurs(s, q)
  {
    forall j | 0 <= j < |rep|
      ensures !StartsWith(r[j..], q)
    {
      assert r[j] == rep[j] && q[0] in q;
    }
    if Occurs(r, q) {
      var i :| 0 <= i <= |r| && StartsWith(r[i..], q);
      assert r[i..] == tail[i - |rep|..];
      OccursShift(s, q, k);
    }
  }

  /** The step where the first character was copied: an occurrence at the
      front was already there, any other one lies in the copied rest. */
  lemma OccursAfterCopy(s: string, r: string, tail: string, q: string)
    requires |s| > 0 && r == [s[0]] + tail && |q| > 0
    requires Occurs(tail, q) ==> Occurs(s[1..], q)
    requires StartsWith(tail, q[1..]) ==> StartsWith(s[1..], q[1..])
    ensures Occurs(r, q) ==> Occurs(s, q)
  {
    if Occurs(r, q) {
      var i :| 0 <= i <= |r| && StartsWith(r[i..], q);
      if i == 0 {
        assert tail[..|q| - 1] == r[1..|q|];
        assert s[..|q|] == [s[0]] + s[1..][..|q| - 1];
        assert StartsWith(s[0..], q);
      } else {
        assert r[i..] == tail[i - 1..];
        OccursShift(s, q, 1);
      }
    }
  }

  lemma OccursChar(s: string, c: char)
    ensures Occurs(s, [c]) <==> c in s
  {
    if c in s {
      var i :| 0 <= i < |s| && s[i] == c;
      assert s[i..][..1] == [c];
    }
    if Occurs(s, [c]) {
      var i :| 0 <= i <= |s| && StartsWith(s[i..], [c]);
      assert s[i] == c;
    }
  }

  /** A pattern holding a character the text lacks does not occur in it. */
  lemma AbsentChar(s: string, p: string, c: char)
    requires c in p && c !in s
    ensures !Occurs(s, p)
  {
    var j :| 0 <= j < |p| && p[j] == c;
    forall i | 0 <= i <= |s|
      ensures !StartsWith(s[i..], p)
    {
      if i + |p| <= |s| {
        assert s[i..][..|p|][j] == s[i + j];
      }
    }
  }

  /** A pattern replaced in itself leaves just the replacement. */
  lemma ReplaceWhole(p: string, rep: string)
    requires |p| > 0
    ensures ReplaceAll(p, p, rep) == rep
  {
    assert p[|p|..] == "";
    assert rep + "" == rep;
  }

  /** Text at whose positions no occurrence of `pat` starts is copied as it
      is, and the replacement goes on after it. */
  lemma {:induction false} ReplaceAllSkip(a: string, rest: string, pat: string, rep: string)
    requires |pat| > 0
    requires forall i | 0 <= i < |a| :: !StartsWith((a + rest)[i..], pat)
    ensures ReplaceAll(a + rest, pat, rep) == a + ReplaceAll(rest, pat, rep)
    decreases |a|
  {
    if |a| > 0 {
      var s := a + rest;
      assert s[0..] == s;
      assert s[1..] == a[1..] + rest;
      forall i | 0 <= i < |a[1..]|
        ensures !StartsWith((a[1..] + rest)[i..], pat)
      {
        assert (a[1..] + rest)[i..] == s[i + 1..];
      }
      ReplaceAllSkip(a[1..], rest, pat, rep);
      var tail := ReplaceAll(rest, pat, rep);
      if |s| < |pat| {
        assert ReplaceAll(rest, pat, rep) == rest;
      } else {
        assert !StartsWith(s[0..], pat);
        assert ReplaceAll(s, pat, rep) == [s[0]] + ReplaceAll(s[1..], pat, rep);
        assert [a[0]] + (a[1..] + tail) == ([a[0]] + a[1..]) + tail;
      }
      assert a == [a[0]] + a[1..];
    } else {
      assert a + rest == rest;
    }
  }

  /** An occurrence at the front is replaced, and the replacement goes on after it. */
  lemma ReplaceAllFront(pat: string, rest: string, rep: string)
    requires |pat| > 0
    ensures ReplaceAll(pat + rest, pat, rep) == rep + ReplaceAll(rest, pat, rep)
  {
    assert (pat + rest)[..|pat|] == pat;
    assert (pat + rest)[|pat|..] == rest;
  }

  // ----- int.ToString() -----

  function Digit(d: nat): char
    requires d < 10
  {
    "0123456789"[d]
  }

  function NatString(n: nat): string
    decreases n
  {
    if n < 10 then [Digit(n)] else NatString(n / 10) + [Digit(n % 10)]
  }

  /** `int.ToString()` with the invariant culture: an optional '-' and decimal digits. */
  function IntString(n: int): string
  {
    if n < 0 then "-" + NatString(-n) else NatString(n)
  }

  lemma {:induction false} NatStringShape(n: nat)
    ensures |NatString(n)| > 0
    ensures forall i | 0 <= i < |NatString(n)| :: NatString(n)[i] in "0123456789"
    decreases n
  {
    if n >= 10 {
      NatStringShape(n / 10);
    }
  }

  /** The decimal text of an integer is non-empty and uses only '-' and digits. */
  lemma IntStringShape(n: int)
    ensures |IntString(n)| > 0
    ensures forall i | 0 <= i < |IntString(n)| :: IntString(n)[i] in "-0123456789"
  {
    if n < 0 {
      NatStringShape(-n);
      assert IntString(n) == "-" + NatString(-n);
    } else {
      NatStringShape(n);
    }
  }

  // ----- IndexOf, PadRight, Join, Split -----

  function IndexFrom(s: string, p: string, i: nat): (r: int)
    requires i <= |s|
    ensures r == -1 || i <= r <= |s|
    ensures r == -1 <==> forall k | i <= k <= |s| :: !StartsWith(s[k..], p)
    ensures r != -1 ==> StartsWith(s[r..], p) && forall k | i <= k < r :: !StartsWith(s[k..], p)
    decreases |s| - i
  {
    if StartsWith(s[i..], p) then i
    else if i == |s| then -1
    else IndexFrom(s, p, i + 1)
  }

  /** `s.IndexOf(p)` (ordinal): the first position of `p`, or -1. */
  function IndexOf(s: string, p: string): (r: int)
    ensures r == -1 <==> !Occurs(s, p)
    ensures r != -1 ==> 0 <= r && r + |p| <= |s| && s[r..r + |p|] == p
    ensures r != -1 ==> forall k | 0 <= k < r :: !StartsWith(s[k..], p)
  {
    var r := IndexFrom(s, p, 0);
    assert r != -1 ==> s[r..][..|p|] == s[r..r + |p|];
    r
  }

  /** `s.PadRight(n)`. */
  function PadRight(s: string, n: nat): (r: string)
    ensures |r| == if |s| >= n then |s| else n
    ensures r[..|s|] == s
    ensures forall i | |s| <= i < |r| :: r[i] == ' '
  {
    if |s| >= n then s else s + seq(n - |s|, _ => ' ')
  }

  /** `string.Join(sep, xs)`. */
  function Join(xs: seq<string>, sep: char): string
    decreases |xs|
  {
    if |xs| == 0 then ""
    else if |xs| == 1 then xs[0]
    else xs[0] + [sep] + Join(xs[1..], sep)
  }

  /** Splitting on a separator (the inverse of `Join` when no part contains it). */
  function Split(s: string, sep: char): (r: seq<string>)
    ensures |r| > 0
    ensures s == "" ==> r == [""]
    decreases |s|
  {
    if |s| == 0 then [""]
    else
      var rest := Split(s[1..], sep);
      if s[0] == sep then [""] + rest
      else [[s[0]] + rest[0]] + rest[1..]
  }

  lemma {:induction false} SplitPrefix(a: string, sep: char, b: string)
    requires sep !in a
    ensures Split(a + [sep] + b, sep) == [a] + Split(b, sep)
    decreases |a|
  {
    if |a| == 0 {
      assert a + [sep] + b == [sep] + b;
      assert ([sep] + b)[1..] == b;
    } else {
      SplitPrefix(a[1..], sep, b);
      assert (a + [sep] + b)[1..] == a[1..] + [sep] + b;
      assert [a[0]] + a[1..] == a;
    }
  }

  lemma {:induction false} SplitNoSeparator(a: string, sep: char)
    requires sep !in a
    ensures Split(a, sep) == [a]
    decreases |a|
  {
    if |a| > 0 {
      SplitNoSeparator(a[1..], sep);
      assert [a[0]] + a[1..] == a;
    }
  }

  /** Joining parts that do not contain the separator can be undone by splitting. */
  lemma {:induction false} SplitJoin(xs: seq<string>, sep: char)
    requires |xs| > 0
    requires forall i | 0 <= i < |xs| :: sep !in xs[i]
    ensures Split(Join(xs, sep), sep) == xs
    decreases |xs|
  {
    if |xs| == 1 {
      SplitNoSeparator(xs[0], sep);
    } else {
      SplitJoin(xs[1..], sep);
      SplitPrefix(xs[0], sep, Join(xs[1..], sep));
      assert [xs[0]] + xs[1..] == xs;
    }
  }

  /** A character that is neither the separator nor in any part does not
      appear in the joined text. */
  lemma {:induction false} JoinAvoids(xs: seq<string>, sep: char, c: char)
    requires c != sep
    requires forall i | 0 <= i < |xs| :: c !in xs[i]
    ensures c !in Join(xs, sep)
    decreases |xs|
  {
    if |xs| > 1 {
      assert forall i | 0 <= i < |xs[1..]| :: xs[1..][i] == xs[i + 1];
      JoinAvoids(xs[1..], sep, c);
    }
  }

  // ----- ASCII case -----

  function LowerAscii(c: char): char
  {
    if 'A' <= c <= 'Z' then (c as int + 32) as char else c
  }

  /** Two characters are equal ignoring ASCII letter case. */
  predicate EqualIgnoringCase(a: char, b: char)
  {
    LowerAscii(a) == LowerAscii(b)
  }

  /** Two strings are equal ignoring ASCII letter case. */
  predicate SameIgnoringCase(a: string, b: string)
  {
    |a| == |b| && forall i | 0 <= i < |a| :: EqualIgnoringCase(a[i], b[i])
  }
}

=== FILE: tokens.dfy ===
/** The OAuth 2.0 token exchanges both `TwitchClient` generations perform
    against the Twitch token endpoint, and the HTTP calls the clients make,
    seen through an oracle that answers each call. The request forms follow
    RFC 6749: the client credentials grant (section 4.4.2), the
    authorization code token request (section 4.1.3) and the refresh
    request (section 6). */
module Tokens {
  import opened Wrappers
  import opened Errors
  import opened Json
  import opened Users

  const TokenEndpoint: string := "https://id.twitch.tv/oauth2/token"

  /** An HTTP response: its status code and its body, already parsed. */
  datatype Reply = Reply(status: int, body: Json)

  /** One HTTP call a client makes: a token validation (the text after
      `OAuth ` in the header), a form post (with the bearer token, if the
      call carries one) or a get. */
  datatype Call =
    | Validate(token: string)
    | Post(url: string, bearer: Option<string>, form: Form)
    | Get(url: string, authorization: string)

  /** The network: the reply each call receives. */
  type Api = Call -> Reply

  /** The token fields both generations keep. */
  datatype Tokens = Tokens(
    clientId: NString,
    clientSecret: NString,
    userAccessToken: NString,
    refreshToken: NString,
    appAccessToken: NString)

  /** What a client operation did: the token fields afterwards, its result
      or exception, and the calls it made, in order. */
  datatype Outcome<T> = Outcome(tokens: Tokens, result: Result<T, Error>, calls: seq<Call>)

  /** Calls that stay with the identity service: validations and posts to
      the token endpoint, nothing sent to the chat or user APIs. */
  predicate TokenTraffic(calls: seq<Call>)
  {
    forall i | 0 <= i < |calls| :: calls[i].Validate? || (calls[i].Post? && calls[i].url == TokenEndpoint)
  }

  // ----- the request forms -----

  function ClientCredentialsForm(t: Tokens): (f: Form)
    ensures FormValue(f, "grant_type") == Some("client_credentials")
    ensures FormValue(f, "client_id") == Some(Render(t.clientId))
    ensures FormValue(f, "client_secret") == Some(Render(t.clientSecret))
    ensures FormValue(f, "code").None? && FormValue(f, "refresh_token").None?
  {
    var grant := [("grant_type", "client_credentials")];
    var secret := [("client_secret", Render(t.clientSecret))] + grant;
    FormValueCons("client_id", Render(t.clientId), secret);
    FormValueCons("client_secret", Render(t.clientSecret), grant);
    FormValueCons("grant_type", "client_credentials", []);
    assert grant == grant + [];
    [("client_id", Render(t.clientId))] + secret
  }

  /** The authorization code token request; a null code or redirect URI is
      sent as empty text. */
  function AuthorizationCodeForm(t: Tokens, code: NString, redirectUri: NString): (f: Form)
    ensures FormValue(f, "grant_type") == Some("authorization_code")
    ensures FormValue(f, "client_id") == Some(Render(t.clientId))
    ensures FormValue(f, "client_secret") == Some(Render(t.clientSecret))
    ensures FormValue(f, "code") == Some(Render(code))
    ensures FormValue(f, "redirect_uri") == Some(Render(redirectUri))
    ensures FormValue(f, "refresh_token").None?
  {
    var redirect := [("redirect_uri", Render(redirectUri))];
    var grant := [("grant_type", "authorization_code")] + redirect;
    var codePart := [("code", Render(code))] + grant;
    var secret := [("client_secret", Render(t.clientSecret))] + codePart;
    FormValueCons("client_id", Render(t.clientId), secret);
    FormValueCons("client_secret", Render(t.clientSecret), codePart);
    FormValueCons("code", Render(code), grant);
    FormValueCons("grant_type", "authorization_code", redirect);
    FormValueCons("redirect_uri", Render(redirectUri), []);
    assert redirect == redirect + [];
    [("client_id", Render(t.clientId))] + secret
  }

  /** The refresh request, carrying the stored refresh token. */
  function RefreshForm(t: Tokens): (f: Form)
    ensures FormValue(f, "grant_type") == Some("refresh_token")
    ensures FormValue(f, "client_id") == Some(Render(t.clientId))
    ensures FormValue(f, "client_secret") == Some(Render(t.clientSecret))
    ensures FormValue(f, "refresh_token") == Some(Render(t.refreshToken))
    ensures FormValue(f, "code").None?
  {
    var refresh := [("refresh_token", Render(t.refreshToken))];
    var grant := [("grant_type", "refresh_token")] + refresh;
    var secret := [("client_secret", Render(t.clientSecret))] + grant;
    FormValueCons("client_id", Render(t.clientId), secret);
    FormValueCons("client_secret", Render(t.clientSecret), grant);
    FormValueCons("grant_type", "refresh_token", refresh);
    FormValueCons("refresh_token", Render(t.refreshToken), []);
    assert refresh == refresh + [];
    [("client_id", Render(t.clientId))] + secret
  }

  // ----- the exchanges -----

  /** `generateAppTokenAsnyc` (identical in both generations): one post of
      the client credentials; 200 yields `access_token`, any other status
      throws. The token is returned, not stored. */
  function GenerateAppToken(t: Tokens, api: Api): (o: Outcome<NString>)
    ensures o.tokens == t
    ensures o.calls == [Post(TokenEndpoint, None, ClientCredentialsForm(t))]
    ensures var reply := api(Post(TokenEndpoint, None, ClientCredentialsForm(t)));
      && (reply.status != OK ==> o.result == Failure(AppTokenFailed(reply.status)))
      && (reply.status == OK ==> o.result == StringAt(reply.body, ["access_token"]))
  {
    var call := Post(TokenEndpoint, None, ClientCredentialsForm(t));
    var reply := api(call);
    if reply.status != OK then Outcome(t, Failure(AppTokenFailed(reply.status)), [call])
    else
      Outcome(t, StringAt(reply.body, ["access_token"]), [call])
  }

  /** The user-token exchanges (`generateUserTokenAsnyc` and
      `refreshUserTokenAsnyc`): one post of `form`; on 200 `access_token` is
      stored before `refresh_token` is read, so a body without a refresh
      token leaves the new access token stored behind the exception. Any
      other status throws `failure(status)` with nothing stored. */
  function ExchangeUserToken(t: Tokens, form: Form, failure: int -> Error, api: Api): (o: Outcome<NString>)
    ensures o.calls == [Post(TokenEndpoint, None, form)]
    ensures o.tokens.clientId == t.clientId && o.tokens.clientSecret == t.clientSecret
    ensures o.tokens.appAccessToken == t.appAccessToken
    ensures var reply := api(Post(TokenEndpoint, None, form));
      var access := StringAt(reply.body, ["access_token"]);
      var refresh := StringAt(reply.body, ["refresh_token"]);
      && (reply.status != OK ==> o == Outcome(t, Failure(failure(reply.status)), o.calls))
      && (reply.status == OK && access.Failure? ==> o == Outcome(t, Failure(access.error), o.calls))
      && (reply.status == OK && access.Success? && refresh.Failure? ==>
            o == Outcome(t.(userAccessToken := access.value), Failure(refresh.error), o.calls))
      && (reply.status == OK && access.Success? && refresh.Success? ==>
            o == Outcome(t.(userAccessToken := access.value, refreshToken := refresh.value),
                         Success(access.value), o.calls))
  {
    var call := Post(TokenEndpoint, None, form);
    var reply := api(call);
    if reply.status != OK then Outcome(t, Failure(failure(reply.status)), [call])
    else
      match StringAt(reply.body, ["access_token"])
      case Failure(e) => Outcome(t, Failure(e), [call])
      case Success(access) =>
        var t1 := t.(userAccessToken := access);
        match StringAt(reply.body, ["refresh_token"])
        case Failure(e) => Outcome(t1, Failure(e), [call])
        case Success(refresh) => Outcome(t1.(refreshToken := refresh), Success(access), [call])
  }

  /** `refreshUserTokenAsnyc` (identical in both generations). */
  function RefreshUserToken(t: Tokens, api: Api): Outcome<NString>
  {
    ExchangeUserToken(t, RefreshForm(t), s => RefreshFailed(s), api)
  }

  /** A successful exchange rotates both tokens: the stored pair is exactly
      the pair the endpoint returned, and the access token is the result. */
  lemma ExchangeRotates(t: Tokens, form: Form, failure: int -> Error, api: Api)
    requires ExchangeUserToken(t, form, failure, api).result.Success?
    ensures var o := ExchangeUserToken(t, form, failure, api);
      var body := api(Post(TokenEndpoint, None, form)).body;
      && api(Post(TokenEndpoint, None, form)).status == OK
      && o.tokens.userAccessToken == o.result.value == StringAt(body, ["access_token"]).value
      && o.tokens.refreshToken == StringAt(body, ["refresh_token"]).value
  {
  }

  /** A failed status leaves every stored token as it was. */
  lemma FailedExchangeKeepsTokens(t: Tokens, form: Form, failure: int -> Error, api: Api)
    requires api(Post(TokenEndpoint, None, form)).status != OK
    ensures ExchangeUserToken(t, form, failure, api).tokens == t
    ensures GenerateAppToken(t, api).result.Failure? || api(Post(TokenEndpoint, None, ClientCredentialsForm(t))).status == OK
  {
  }
}

=== FILE: users.dfy ===
/** Twitch user records (both `TwitchUser` generations build the same record
    from a Helix `users` data element), the user-type and broadcaster-type
    classifications, the user-lookup status tables and the chat/whisper
    request parameters. */
module Users {
  import opened Wrappers
  import opened Errors
  import opened Json
  import Text
  import Query
  import OAuth

  datatype UserType = Admin | GlobalMod | Staff | Normal
  datatype BroadcasterType = Affiliate | Partner | Regular

  /** The `type` switch of both constructors. Only "admin" and the literal
      "partner " (with a trailing space) are recognised. */
  function ClassifyUserType(t: NString): (r: UserType)
    ensures r == Admin <==> t == Some("admin")
    ensures r == GlobalMod <==> t == Some("partner ")
    ensures r == Normal <==> t != Some("admin") && t != Some("partner ")
  {
    match t
    case Some(s) =>
      if s == "admin" then Admin
      else if s == "partner " then GlobalMod
      else Normal
    case None => Normal
  }

  /** The `broadcaster_type` switch of both constructors. */
  function ClassifyBroadcasterType(t: NString): (r: BroadcasterType)
    ensures r == Affiliate <==> t == Some("affiliate")
    ensures r == Partner <==> t == Some("partner")
    ensures r == Regular <==> t != Some("affiliate") && t != Some("partner")
  {
    match t
    case Some(s) =>
      if s == "affiliate" then Affiliate
      else if s == "partner" then Partner
      else Regular
    case None => Regular
  }

  /** `Staff` is declared but no input produces it, and the plain value
      "partner" (the value Twitch uses for partnered broadcasters) is not a
      global moderator. */
  lemma UserTypeGaps(t: NString)
    ensures ClassifyUserType(t) != Staff
    ensures ClassifyUserType(Some("partner")) == Normal
    ensures ClassifyUserType(Some("")) == Normal && ClassifyUserType(None) == Normal
  {
  }

  /** A user as both generations store it. `createdAtText` is the text the
      constructor hands to `DateTime.TryParse`, which is the display name. */
  datatype TwitchUser = TwitchUser(
    id: NString,
    login: NString,
    displayName: NString,
    userType: UserType,
    broadcasterType: BroadcasterType,
    description: NString,
    profileImageUrl: NString,
    offlineImageUrl: NString,
    createdAtText: NString)

  /** A user lookup: by login name or by id, either possibly null. */
  datatype UserQuery = ByLogin(login: NString) | ById(id: NString)

  /** The user-lookup collaborator (an HTTP request and its status table),
      as an opaque function that yields the user or the exception thrown. */
  type Resolver = UserQuery -> Result<TwitchUser, Error>

  /** The string at `key` of an object, through the reference path lookup. */
  function Field(data: Json, key: string): (r: Result<NString, Error>)
    ensures r == (match GetProperty(data, key)
                  case Success(v) => GetString(v)
                  case Failure(e) => Failure(e))
  {
    At1(data, key);
    StringAt(data, [key])
  }

  /** `new TwitchUser(client, data)`: reads the fields in source order; any
      missing or non-string field throws. */
  function UserFromData(data: Json): (r: Result<TwitchUser, Error>)
    ensures r.Success? <==>
      && Field(data, "id").Success? && Field(data, "login").Success?
      && Field(data, "display_name").Success? && Field(data, "type").Success?
      && Field(data, "broadcaster_type").Success? && Field(data, "description").Success?
      && Field(data, "profile_image_url").Success? && Field(data, "offline_image_url").Success?
    ensures r.Success? ==>
      && r.value.id == Field(data, "id").value
      && r.value.login == Field(data, "login").value
      && r.value.displayName == Field(data, "display_name").value
      && r.value.userType == ClassifyUserType(Field(data, "type").value)
      && r.value.broadcasterType == ClassifyBroadcasterType(Field(data, "broadcaster_type").value)
      && r.value.description == Field(data, "description").value
      && r.value.profileImageUrl == Field(data, "profile_image_url").value
      && r.value.offlineImageUrl == Field(data, "offline_image_url").value
      && r.value.createdAtText == Field(data, "display_name").value
  {
    var idE :- GetProperty(data, "id");
    var id :- GetString(idE);
    var loginE :- GetProperty(data, "login");
    var login :- GetString(loginE);
    var nameE :- GetProperty(data, "display_name");
    var name :- GetString(nameE);
    var typeE :- GetProperty(data, "type");
    var typ :- GetString(typeE);
    var btE :- GetProperty(data, "broadcaster_type");
    var bt :- GetString(btE);
    var descE :- GetProperty(data, "description");
    var desc :- GetString(descE);
    var profE :- GetProperty(data, "profile_image_url");
    var prof :- GetString(profE);
    var offE :- GetProperty(data, "offline_image_url");
    var off :- GetString(offE);
    Success(TwitchUser(id, login, name, ClassifyUserType(typ), ClassifyBroadcasterType(bt),
                       desc, prof, off, name))
  }

  const OK: int := 200
  const BadRequestStatus: int := 400
  const UnauthorizedStatus: int := 401

  /** `response.IsSuccessStatusCode`. */
  predicate IsSuccessStatus(status: int)
  {
    200 <= status <= 299
  }

  /** The status table of the older generation's `getUserByLoginAsync`: 200
      returns the parsed body; 400, 401 and every other status throw an error
      carrying the body's `message`. */
  function LegacyLookupResponse(status: int, body: Json): (r: Result<Json, Error>)
    ensures status == OK <==> r.Success?
    ensures r.Success? ==> r.value == body
    ensures status == BadRequestStatus && StringAt(body, ["message"]).Success? ==>
      r == Failure(BadRequest(StringAt(body, ["message"]).value))
    ensures status == UnauthorizedStatus && StringAt(body, ["message"]).Success? ==>
      r == Failure(Unauthorized(StringAt(body, ["message"]).value))
    ensures status !in {OK, BadRequestStatus, UnauthorizedStatus} && StringAt(body, ["message"]).Success? ==>
      r == Failure(UnknownError(StringAt(body, ["message"]).value))
    ensures status != OK && StringAt(body, ["message"]).Failure? ==> r == Failure(StringAt(body, ["message"]).error)
  {
    if status == OK then Success(body)
    else
      var msgE :- GetProperty(body, "message");
      var msg :- GetString(msgE);
      if status == BadRequestStatus then Failure(BadRequest(msg))
      else if status == UnauthorizedStatus then Failure(Unauthorized(msg))
      else Failure(UnknownError(msg))
  }

  /** `new TwitchUser(userName)` of the older generation: the lookup's
      status table, then `data[0]` of the body. */
  function LegacyUserByLogin(status: int, body: Json): (r: Result<TwitchUser, Error>)
    ensures r.Success? ==> status == OK
    ensures r.Success? <==>
      status == OK && At(body, ["data"]).Success? && Index(At(body, ["data"]).value, 0).Success?
      && UserFromData(Index(At(body, ["data"]).value, 0).value).Success?
    ensures r.Success? ==> r == UserFromData(Index(At(body, ["data"]).value, 0).value)
  {
    var json :- LegacyLookupResponse(status, body);
    var data :- GetProperty(json, "data");
    var first :- Index(data, 0);
    UserFromData(first)
  }

  const LookupBadRequestMessage: string := "400 - Bad Request! / Invalid user login or id."
  const LookupUnauthorizedMessage: string := "401 - Unauthorized! / Invalid token."
  const LookupUnknownMessage: string := "Unknown Error!"

  /** `getUserJsonAsync` of the newer client: 200 yields `data[0]` of the
      body; 400, 401 and any other status throw fixed, distinct errors. */
  function UserJsonResponse(status: int, body: Json): (r: Result<Json, Error>)
    ensures r.Success? ==> status == OK
    ensures status == OK ==> r == (match At(body, ["data"])
                                   case Success(d) => Index(d, 0)
                                   case Failure(e) => Failure(e))
    ensures status == BadRequestStatus ==> r == Failure(BadRequest(Some(LookupBadRequestMessage)))
    ensures status == UnauthorizedStatus ==> r == Failure(Unauthorized(Some(LookupUnauthorizedMessage)))
    ensures status !in {OK, BadRequestStatus, UnauthorizedStatus} ==> r == Failure(UnknownError(Some(LookupUnknownMessage)))
  {
    if status == OK then
      var data :- GetProperty(body, "data");
      Index(data, 0)
    else if status == BadRequestStatus then Failure(BadRequest(Some(LookupBadRequestMessage)))
    else if status == UnauthorizedStatus then Failure(Unauthorized(Some(LookupUnauthorizedMessage)))
    else Failure(UnknownError(Some(LookupUnknownMessage)))
  }

  // ----- sending chat messages and whispers -----

  /** An ordered form: the `Dictionary<string, string>` the source encodes. */
  type Form = seq<(string, string)>

  /** The value of the first entry with `key`. */
  function FormValue(f: Form, key: string): Option<string>
  {
    if |f| == 0 then None
    else if f[0].0 == key then Some(f[0].1)
    else FormValue(f[1..], key)
  }

  lemma FormValueCons(k: string, v: string, rest: Form)
    ensures forall key :: FormValue([(k, v)] + rest, key) == if k == key then Some(v) else FormValue(rest, key)
  {
    assert ([(k, v)] + rest)[1..] == rest;
  }

  /** The parameters of `SendChatMessageAsync` / `SendMessageAsync`. */
  function ChatForm(broadcasterId: NString, senderId: NString, content: string, replyId: NString): (f: Form)
    ensures FormValue(f, "broadcaster_id") == Some(Render(broadcasterId))
    ensures FormValue(f, "sender_id") == Some(Render(senderId))
    ensures FormValue(f, "message") == Some(content)
    ensures FormValue(f, "reply_parent_message_id").Some? <==> replyId.Some?
    ensures replyId.Some? ==> FormValue(f, "reply_parent_message_id") == replyId
    ensures |f| == if replyId.Some? then 4 else 3
  {
    var reply := if replyId.Some? then [("reply_parent_message_id", replyId.value)] else [];
    var message := [("message", content)] + reply;
    var sender := [("sender_id", Render(senderId))] + message;
    var f := [("broadcaster_id", Render(broadcasterId))] + sender;
    FormValueCons("broadcaster_id", Render(broadcasterId), sender);
    FormValueCons("sender_id", Render(senderId), message);
    FormValueCons("message", content, reply);
    if replyId.Some? then
      FormValueCons("reply_parent_message_id", replyId.value, []);
      f
    else f
  }

  /** The read into `sended_id`: `data[0].message_id` of the reply body. */
  function SentId(body: Json): (r: Result<NString, Error>)
    ensures r.Success? <==>
      && At(body, ["data"]).Success? && Index(At(body, ["data"]).value, 0).Success?
      && StringAt(Index(At(body, ["data"]).value, 0).value, ["message_id"]).Success?
  {
    var data :- GetProperty(body, "data");
    var first :- Index(data, 0);
    var idE :- GetProperty(first, "message_id");
    GetString(idE)
  }

  /** The response handling of both send methods: 200 reads `sended_id`,
      which the methods then drop, so only a failing read is visible; any
      other status throws with that status. */
  function SendResponse(status: int, body: Json): (r: Result<(), Error>)
    ensures status != OK ==> r == Failure(SendFailed(status))
    ensures status == OK ==> (r.Success? <==> SentId(body).Success?)
    ensures status == OK && r.Failure? ==> r.error == SentId(body).error
  {
    if status == OK then
      var _ :- SentId(body);
      Success(())
    else Failure(SendFailed(status))
  }

  const WhisperEndpoint: string := "https://api.twitch.tv/helix/whispers"

  /** The whisper URL: the current user sends to the user with id `to`. */
  function WhisperUrl(from: NString, to: NString): string
  {
    WhisperEndpoint + "?from_user_id=" + Render(from) + "&to_user_id=" + Render(to)
  }

  /** The whisper URL names its sender and recipient: when neither id holds
      '&' or '#', reading the query back yields `from` under
      `from_user_id` and `to` under `to_user_id`. */
  lemma WhisperUrlCarriesIds(from: NString, to: NString)
    requires '&' !in Render(from) && '#' !in Render(from)
    requires '&' !in Render(to) && '#' !in Render(to)
    ensures Query.Lookup(WhisperUrl(from, to), "from_user_id") == Some(Render(from))
    ensures Query.Lookup(WhisperUrl(from, to), "to_user_id") == Some(Render(to))
  {
    WhisperLiterals();
    OAuth.SplicedLookups(WhisperEndpoint, "?from_user_id=", "from_user_id", Render(from),
                         "&to_user_id=", "to_user_id", Render(to));
  }

  lemma WhisperLiterals()
    ensures '?' !in WhisperEndpoint && '#' !in WhisperEndpoint
    ensures OAuth.Plain("from_user_id") && OAuth.Plain("to_user_id")
    ensures "?from_user_id=" == "?" + "from_user_id" + "="
    ensures "&to_user_id=" == "&" + "to_user_id" + "="
  {
    OAuth.NamePlain("from_user_id");
    OAuth.NamePlain("to_user_id");
  }

  /** The user's current stream, or null when building it failed for any reason. */
  function CurrentStream<S>(attempt: Result<S, Error>): (r: Option<S>)
    ensures r.None? <==> attempt.Failure?
    ensures r.Some? ==> r.value == attempt.value
  {
    match attempt
    case Success(s) => Some(s)
    case Failure(_) => None
  }
}

=== FILE: wrappers.dfy ===
/** Failure-compatible wrappers used throughout the model: `Option` for the
    source's nullable references and `Result` for operations that throw. */
module Wrappers {

  datatype Option<+T> = None | Some(value: T) {
    predicate IsFailure() { None? }

    function PropagateFailure<U>(): Option<U>
      requires None?
    {
      None
    }

    function Extract(): T
      requires Some?
    {
      value
    }
  }

  datatype Result<+R, +E> = Success(value: R) | Failure(error: E) {
    predicate IsFailure() { Failure? }

    function PropagateFailure<U>(): Result<U, E>
      requires Failure?
    {
      Failure(error)
    }

    function Extract(): R
      requires Success?
    {
      value
    }
  }

  /** A .NET `string` that may be null. */
  type NString = Option<string>

  /** How C# string interpolation renders a possibly-null string: null becomes "". */
  function Render(s: NString): string
  {
    match s
    case Some(v) => v
    case None => ""
  }
}
